=== FILE: README.md ===
# Gestion d'événements — a Dafny model of its decision logic

Gestion d'événements is an Express/PostgreSQL event platform with a static
JavaScript frontend: events with favourites, email and Google sign-in, an
AI chat proxied to an n8n agent, and a scraping workflow whose venues are
listed on their own page. This project models, as pure Dafny functions over
immutable values, the parts of it that decide something:

- the list-query builders of `getEvents`, `getScrapedVenues` and
  `getMyFavorites`. The SQL is kept as a sequence of literal pieces and
  placeholders (`?` or `$n`, as each file writes it), so that placeholder
  counts and numbering can be stated. The pagination goes through a model of
  JavaScript's `parseInt`, `NaN` and `Infinity`;
- the event handlers: creation defaults, the dynamic `UPDATE ... SET` builder
  and the 404/403/400 order of `updateEvent` and `deleteEvent`;
- the favourites add/remove state machine over a set of (user, event) pairs;
- `authMiddleware` and `optionalAuth`, the register and login decision
  trees, the cookie options and the token expiry default;
- the Google verify callback of passport: lookup by Google id, then linking
  by email, then insertion with at most five attempts and username retries;
- every Joi schema, as a list of keys and rules, and the `validate`
  middleware that collects all the errors;
- the AI route: message validation, the newest-user-message search, the
  memory session key and the answer-extraction cascade;
- the CORS origin predicate;
- the client-side state of the events, favourites, venues, chat and
  automation pages, with each handler as a function from the page state to
  the next one.

The database becomes values: events are a `map<nat, Event>`, favourites a
`set<(nat, nat)>` and users a `seq<User>` in insertion order. Whatever the
program takes from outside becomes a parameter:

- bcrypt's hash and compare;
- `jwt.verify`'s outcome;
- a `fetch` result;
- `JSON.parse`, as a partial function from text to JSON;
- `Math.random` and the clock;
- Joi's email, URI and date parsers;
- the environment variables.

Some behaviours are odd but are modelled as written, with a lemma that
exhibits each:

- auth.js reads only the `Authorization` header, never the cookie the login
  sets (`AuthMiddleware.CookiesIgnored`);
- `parseInt` of a non-numeric page gives `NaN` (`Numbers.ParseIntNoDigits`), and
  the list handlers then answer 500 rather than a default page
  (`ScrapingController.TextPageFails`; `EventController.PageZeroFails` for
  `page=0`);
- the chat sends the new message twice (`AiChat.MessageSentTwice`);
- a JSON `null` from the scraping webhook gives a 500 after the log row was
  written (`ScrapingController.NullReplyFailsAfterLogging`);
- trigger log rows added inside automation.js are never persisted
  (`AutomationPage.TriggerLogNotPersisted`).

Modules:

- **Shared**: `Options`, `Strings` (JavaScript string operations on
  `seq<char>`), `Numbers`, `Json`, `Fetch`, `SqlText` and `Store`.
- **Backend**: one module per file — `EventController`,
  `ScrapingController`, `FavoriteController`, `Passport`, `AuthMiddleware`,
  `AuthController`, `Validators`, `Schemas`, `AiRoute` and `Cors`.
- **Frontend**: one module per page — `EventsPage`, `FavoritesPage`,
  `VenuesPage`, `AiChat` and `AutomationPage`.

## Model

| member | source | states |
|---|---|---|
| Numbers.ReadPaging | backend/controllers/eventController.js:16 | page and limit are `parseInt` of the query values (or of the handler's defaults when absent); the offset is finite exactly when both are, and is then `(page - 1) * limit` |
| Numbers.Offset | backend/controllers/scrapingController.js:84 | `(page - 1) * limit` is finite iff page and limit are, and equals the product then; `NaN` propagates |
| Numbers.TotalPages | backend/controllers/favoriteController.js:130 | for a positive limit the page count is the exact ceiling of total/limit; a `NaN` limit gives `NaN`, a zero limit gives `Infinity` (or `NaN` for no rows) |
| Numbers.ParseIntNatToString | backend/controllers/eventController.js:16 | `parseInt` reads back exactly the number a decimal rendering shows, so the default texts "1", "6", "10", "20" give those numbers |
| Numbers.ParseIntNoDigits | backend/controllers/eventController.js:16 | text that does not start with a digit, sign or white space parses to `NaN`: there is no fallback page |
| Numbers.NatToStringInjective | backend/routes/ai.js:24-26 | different naturals render as different decimal texts (used for distinct `user_<id>` keys) |
| EventController.EventsFilter | backend/controllers/eventController.js:17-37 | the WHERE clause is `WHERE 1=1`, then the search disjunction, then type, then status, each present exactly when its filter is non-empty; the parameters follow the same order; placeholder count equals parameter count; only WHERE literals occur |
| EventController.EventsFilterParams | backend/controllers/eventController.js:21-37 | a search binds three identical `%search%` values first; the type value sits at index 3 after a search and 0 otherwise; the status value is last; the number of values is 3/1/1 per present filter |
| EventController.WhereIgnoresValues | backend/controllers/eventController.js:17-37 | the WHERE text depends only on which filters are non-empty, never on their values (no value is spliced into SQL) |
| EventController.SortColumn | backend/controllers/eventController.js:40-41 | the sort column is always one of date, name, price, created_at; it is the requested one when allowed and `date` otherwise |
| EventController.SortOrder | backend/controllers/eventController.js:42 | the order is `DESC` exactly when the upper-cased request is `DESC`, and `ASC` otherwise |
| EventController.SortOrderIgnoresCase | backend/controllers/eventController.js:42 | `desc` and `Desc` sort descending, `descending` sorts ascending |
| EventController.GetEventsPlan | backend/controllers/eventController.js:6-60 | the page query binds the filter values followed by limit and offset; page and limit default to "1" and "6" before `parseInt`; the offset is `(page-1)*limit`; column and order come from the allow-lists |
| EventController.PlanPlaceholders | backend/controllers/eventController.js:45-60 | the count query and the page query share the WHERE clause, and each carries exactly as many `?` as it binds values |
| EventController.EventsPlanPlaceholders | backend/controllers/eventController.js:45-60 | for every query string, both `getEvents` queries bind one value per placeholder |
| EventController.DefaultEventsPage | backend/controllers/eventController.js:6-16 | without page and limit the plan asks for page 1, limit 6, offset 0 |
| EventController.MarkFavorites | backend/controllers/eventController.js:63-77 | rows keep their order and content; `isFavorite` holds iff there is a caller and the (caller, event) pair is a favourite |
| EventController.AnonymousSeesNoFavorites | backend/controllers/eventController.js:63-77 | without a caller no event is marked as favourite |
| EventController.GetEvents | backend/controllers/eventController.js:16-95 | an answer exists iff the parsed limit and offset are finite and non-negative, the other paging ending in the `catch`'s 500; the answer carries the marked rows, the parsed page and limit and the total; for a positive limit the page count is the ceiling of total/limit, and for a zero limit it is `NaN` or `Infinity` |
| EventController.PageZeroFails | backend/controllers/eventController.js:52-60 | `?page=0` gives a negative offset, so the answer is the 500 |
| EventController.GetEventById | backend/controllers/eventController.js:111-129 | 404 iff the id is unknown; otherwise the row with its favourite flag for the caller |
| EventController.NewEvent | backend/controllers/eventController.js:160-166 | the inserted row has the caller as creator and every allowed column; name, type, date and location bind as supplied (absent as NULL); description, end date and image fall back to NULL, capacity to 100, price to 0 and status to `upcoming` when the supplied value is falsy, and a truthy supplied value is kept |
| EventController.CreateEvent | backend/controllers/eventController.js:145-189 | the stored row under the fresh id is exactly the row `NewEvent` describes for the body and caller; every other event is unchanged |
| EventController.SuppliedMembers | backend/controllers/eventController.js:217-227 | a column is listed iff it is in the allow-list and the body supplies it |
| EventController.SuppliedOrdered | backend/controllers/eventController.js:217-227 | the listed columns keep the allow-list's order |
| EventController.SetListShape | backend/controllers/eventController.js:217-227 | the SET list has one `?` per listed column and only allow-listed column names as literal text |
| EventController.UpdateEvent | backend/controllers/eventController.js:192-264 | 404 iff the event is absent, else 403 iff the caller is not its creator, else 400 iff no allowed field is supplied; on success, the statement is the `UPDATE events SET ... WHERE id = ?` built from the supplied allowed columns, the values are the body's values for them in allow-list order followed by the id, placeholders match values, the supplied allowed fields take the body's values and every other field and event is unchanged |
| EventController.Patch | backend/controllers/eventController.js:222-241 | after the update the supplied allow-listed columns hold the body's values; every other column and the creator are kept |
| EventController.UpdateColumns | backend/controllers/eventController.js:217-227 | the SET list names exactly the supplied allowed columns, each once, in allow-list order |
| EventController.DeleteEvent | backend/controllers/eventController.js:267-304 | 404 iff absent, else 403 iff not the creator; otherwise exactly that event is removed |
| EventController.OnlyCreatorMutates | backend/controllers/eventController.js:209-214 | a caller other than the creator can neither update nor delete the event |
| EventController.CreateThenDelete | backend/controllers/eventController.js:277-291 | deleting a just-created event as its creator restores the table |
| ScrapingController.PresentValues | backend/controllers/scrapingController.js:86-100 | the bound values are exactly the non-empty filter values, in order |
| ScrapingController.BuildNumbered | backend/controllers/scrapingController.js:86-100 | the WHERE clause starts `WHERE 1=1`, binds the present filter values in order, numbers its placeholders `$1..$n` consecutively, and the next index is one more than the number of values; its literal text is only `WHERE 1=1` and ` AND column = ` for the filters' columns, so no value enters the SQL |
| ScrapingController.VenueFilterNumbering | backend/controllers/scrapingController.js:86-100 | the WHERE clause is exactly `WHERE 1=1`, then ` AND city = $1` when a city is given, then ` AND keyword = $n` with `$2` after a city and `$1` without one; the values are the city then the keyword, and the only literal texts are those three |
| ScrapingController.PlanOf | backend/controllers/scrapingController.js:83-116 | the plan keeps the given paging and filter values, numbered consecutively |
| ScrapingController.GetScrapedVenuesPlan | backend/controllers/scrapingController.js:83-100 | page and limit default to "1" and "20" before `parseInt`; the offset is `(page-1)*limit`; values and `$n` numbering as above |
| ScrapingController.VenuePlanNumbering | backend/controllers/scrapingController.js:103-116 | the count query numbers `$1..$n`; the page query numbers `$1..$n+2`, with LIMIT and OFFSET last and bound to limit and offset after the filter values |
| ScrapingController.VenuesNewestFirst | backend/controllers/scrapingController.js:113 | the page query always orders by `scraped_at DESC` |
| ScrapingController.VenuePagination | backend/controllers/scrapingController.js:83-134 | an answer exists iff the parsed limit and offset are finite and non-negative, the other paging ending in the `catch`'s 500; it holds the page, limit and total, with a page count that is the ceiling of total/limit for a positive limit and `NaN` or `Infinity` for a zero one |
| ScrapingController.TextPageFails | backend/controllers/scrapingController.js:110-116 | `?page=abc` gives a `NaN` offset, so the answer is the 500 |
| ScrapingController.FailureMessage | backend/controllers/scrapingController.js:69-71 | a thrown message is passed through iff it contains `n8n`, and replaced by the fixed text otherwise |
| ScrapingController.ReadReply | backend/controllers/scrapingController.js:39-50 | empty text reads as `{}`, JSON text as its value, other text as `{message: text}` |
| ScrapingController.SheetUrl | backend/controllers/scrapingController.js:62 | a truthy `sheetUrl` is kept, anything else becomes `null`; a `null` result throws |
| ScrapingController.TriggerScraping | backend/controllers/scrapingController.js:4-78 | 503 iff no webhook URL, and then nothing is sent or logged; otherwise the webhook body is sent; a thrown call is a 500 with the (possibly replaced) error message and no log row; a non-ok response is a 500 with the status message and no log row; a failed log insert is a 500 with its message; otherwise the (city, keyword) row is logged and the answer is 200 exactly when the reply has a `sheetUrl`, with `data` the read reply and `sheetUrl` the extracted URL, else a 500 with the `null` property error |
| ScrapingController.NullReplyFailsAfterLogging | backend/controllers/scrapingController.js:53-64 | a JSON `null` reply gives a 500 although the trigger row was logged |
| ScrapingController.PlainTextReply | backend/controllers/scrapingController.js:39-64 | a non-JSON reply succeeds with `data = {message: text}` and `sheetUrl = null` |
| FavoriteController.AddFavorite | backend/controllers/favoriteController.js:4-52 | 404 iff the event does not exist, checked first; 400 iff the pair already exists; otherwise exactly that pair is added |
| FavoriteController.RemoveFavorite | backend/controllers/favoriteController.js:55-90 | 404 iff the pair is absent (the events table is not consulted); otherwise exactly that pair is removed |
| FavoriteController.AddThenRemove | backend/controllers/favoriteController.js:36-39 | a successful add followed by a remove of the same pair restores the set |
| FavoriteController.RemoveThenAdd | backend/controllers/favoriteController.js:74-77 | removing and re-adding a favourite of an existing event restores the set |
| FavoriteController.AddTwiceRefused | backend/controllers/favoriteController.js:28-33 | a second add of the same pair is refused |
| FavoriteController.OtherUsersUnchanged | backend/controllers/favoriteController.js:36-39 | neither add nor remove changes another user's pairs |
| FavoriteController.Joined | backend/controllers/favoriteController.js:107-116 | the join keeps exactly the caller's favourite ids that name an existing event |
| FavoriteController.JoinedAppend | backend/controllers/favoriteController.js:107-116 | the join distributes over concatenation, so it keeps the newest-first order and drops only ids without an event |
| FavoriteController.JoinedOne | backend/controllers/favoriteController.js:107-116 | one id is kept exactly when it names an event |
| FavoriteController.Window | backend/controllers/favoriteController.js:114-115 | `LIMIT/OFFSET` returns the rows from the offset on, in order: none past the end, exactly limit when enough remain, and the remainder otherwise |
| FavoriteController.GetMyFavorites | backend/controllers/favoriteController.js:93-140 | an answer exists iff limit and offset are finite and non-negative; it then holds at most limit items, each an existing favourite event flagged `isFavorite`, and the items are exactly the `LIMIT/OFFSET` window of the joined favourites newest first; total is the number of favourites, with the ceiling page count |
| FavoriteController.DefaultFavoritesPage | backend/controllers/favoriteController.js:96-97 | without page and limit the answer is the first ten (newest) joined favourites, in order |
| Passport.NameSeed | backend/config/passport.js:55 | the display name when non-empty, else the email's local part |
| Passport.SplitPartsFree | backend/config/passport.js:55 | the local part of an email holds no `@` |
| Passport.RetryName | backend/config/passport.js:79-81 | a retry name is the seed without white space, `_`, and a number in 1000..9999 |
| Passport.Usernames | backend/config/passport.js:61-70 | the usernames of the table, in row order |
| Passport.IsEmailConflictAsWritten | backend/config/passport.js:76 | as written: a unique violation is rethrown iff its detail contains `email` anywhere |
| Passport.IsEmailConflict | backend/config/passport.js:73-78 | as intended: rethrown iff the detail names the `email` key |
| Passport.UsernameDetailNotEmail | backend/config/passport.js:73-81 | a username collision is never read as an email conflict under the intended rule |
| Passport.InsertLoop | backend/config/passport.js:59-90 | the insert loop succeeds only within five attempts; a failure leaves the table unchanged; a success adds one row with the Google id and no password |
| Passport.ByGoogleId | backend/config/passport.js:29-36 | the first account linked to the Google id, or none |
| Passport.LinkGoogleId | backend/config/passport.js:39-52 | only the matched row's `google_id` changes |
| Passport.ReconcileWith | backend/config/passport.js:26-98 | the callback as written (with `IsEmailConflictAsWritten`), and under any reading of the unique-violation detail: an existing link is returned with nothing written; a profile without email fails; an account with the profile's email is returned with its Google id set and only that column updated; a failure writes nothing; a success carries the Google id within five attempts, and a new account is the one row appended, with a fresh username |
| Passport.Reconcile | backend/config/passport.js:26-98 | as intended (with the corrected email-conflict test of Findings): an existing link is returned as is; a failure leaves the table unchanged and is never a unique violation; a success is linked to the Google id within five attempts |
| Passport.KnownGoogleAccount | backend/config/passport.js:29-36 | an account already linked is returned and nothing is written |
| Passport.LinkByEmail | backend/config/passport.js:39-52 | an account with the profile's email gets the Google id; the returned record is the old one with `google_id` set, and nothing else changes |
| Passport.FirstTryUsesSeed | backend/config/passport.js:55-70 | a new account first tries the seed name as its username, with the first photo (if any) as avatar |
| Passport.MissingPhotosFail | backend/config/passport.js:59-84 | a profile without a `photos` array makes the insert throw a `TypeError` that is not a unique violation, so no account is created and the error reaches passport |
| Passport.FaultNotRetried | backend/config/passport.js:82-84 | a database error other than a unique violation ends the loop at once |
| Passport.FiveCollisionsFail | backend/config/passport.js:59-90 | five taken names in a row end in "Failed to create user after multiple retries" |
| Passport.NoUniqueViolation | backend/config/passport.js:73-90 | under the intended rule the loop never ends in a unique violation |
| Passport.ReconcileIdempotent | backend/config/passport.js:29-36 | signing in twice with the same profile returns the same account and writes nothing the second time |
| Passport.EmailInUsernameRethrown | backend/config/passport.js:76 | as written, a taken seed name containing `email` is rethrown instead of retried |
| Passport.DetailQuotesName | backend/config/passport.js:76 | the duplicate-username detail mentions `email` whenever the name does |
| Passport.EmailfanMentionsEmail | backend/config/passport.js:76 | `emailfan` contains `email` |
| Passport.TakenSeedRetried | backend/config/passport.js:79-81 | under the intended rule a taken seed name, `emailfan` included, is retried and the account is created with the retry name |
| AuthMiddleware.BearerToken | backend/middleware/auth.js:7-16 | a token exists iff the header starts with `Bearer ` (case-sensitive) |
| AuthMiddleware.BearerTokenIsFirstWord | backend/middleware/auth.js:16 | the token is the second space-separated segment: all the text after `Bearer ` when it has no space |
| AuthMiddleware.SchemeIsCaseSensitive | backend/middleware/auth.js:7-14 | a lowercase `bearer` is rejected |
| AuthMiddleware.AuthMiddleware | backend/middleware/auth.js:4-56 | no bearer token gives 401; acceptance needs a decoded token whose user exists, and attaches that user's public fields (never the password); an invalid token gives 401 "Invalid token.", an expired one 401 "Token expired.", any other error 500; a decoded token whose user is missing gives 401 "Invalid token. User not found."; a decoded token whose user exists is accepted with that user |
| AuthMiddleware.OptionalAuth | backend/middleware/auth.js:59-82 | never rejects; a user is attached iff a bearer token decodes to an existing user, and it is that user's public record; otherwise the user is `null` |
| AuthMiddleware.OptionalAgreesWithMandatory | backend/middleware/auth.js:4-82 | the optional guard attaches a user iff the mandatory one accepts, and the same user |
| AuthMiddleware.CookiesIgnored | backend/middleware/auth.js:4-82 | both guards give the same result whatever cookies the request carries; a request with only the cookie is rejected |
| AuthController.TokenExpiry | backend/controllers/authController.js:10 | the configured expiry when set, else `7d` |
| AuthController.GenerateToken | backend/controllers/authController.js:6-12 | the token carries the user id and that expiry |
| AuthController.GetCookieOptions | backend/controllers/authController.js:15-23 | `httpOnly` always; `secure` iff the request is secure or forwarded as https; `sameSite` is `none` iff secure, else `lax`; maxAge is seven days in milliseconds |
| AuthController.LogoutOptions | backend/controllers/authController.js:149-158 | the cookie is cleared with the login's options minus maxAge |
| AuthController.Register | backend/controllers/authController.js:26-81 | refused with 400 (and nothing inserted) iff a user shares the email or username; otherwise one row with the hashed password is added and the answer's user holds only id, username and avatar |
| AuthController.Login | backend/controllers/authController.js:84-146 | an unknown email gives 401 with the generic message; an account without password gives 401 "Please log in with Google"; a password account is signed in iff the password matches, and refused with the generic message otherwise; every refusal is a 401 |
| AuthController.WrongPasswordLikeUnknownEmail | backend/controllers/authController.js:112-119 | a wrong password gives exactly the answer of an unknown email |
| AuthController.GoogleAccountIgnoresCompare | backend/controllers/authController.js:104-109 | for a Google-only account the password comparison plays no part |
| AuthController.RegisterThenLogin | backend/controllers/authController.js:26-137 | after registering, the same email and password log in as the new user |
| AuthController.ByEmailAppend | backend/controllers/authController.js:94-99 | a new row whose email no earlier row has is found by that email |
| Validators.Custom | backend/validators/validators.js:4-28 | a custom message is one given for that code; none means no entry has the code |
| Validators.Fail | backend/validators/validators.js:139-153 | an error names its key and code and uses the custom message when there is one, else Joi's default with the key label |
| Strings.FrenchLowerCase | frontend/js/venues.js:207 | `toLowerCase` and `toUpperCase` map the accented Latin-1 capitals and small letters to each other (`THÉÂTRE` to `théâtre`) |
| Strings.Utf16Length | backend/validators/validators.js:6-7 | the JavaScript length Joi's `min` and `max` compare: at least the number of characters, at most twice it, zero only for empty text |
| Strings.Utf16LengthAppend | backend/validators/validators.js:6-7 | the length of a concatenation is the sum of the lengths |
| Strings.Utf16LengthBmp | backend/validators/validators.js:6-7 | within the Basic Multilingual Plane the length is the number of characters |
| Validators.RuleErrors | backend/validators/validators.js:4-28 | every string-rule failure names the key, at most one per rule; lengths are measured in UTF-16 code units |
| Validators.RuleErrorsEmptyIff | backend/validators/validators.js:4-28 | a string has no rule error iff it meets every rule |
| Validators.CheckValue | backend/validators/validators.js:47-104 | a value is accepted iff the key's kind and rules admit it, and then holds its converted value; a rejection carries at least one error for the key; a `.valid(...)` key reports `any.only`, followed by the string base error for empty text or a non-string |
| Validators.StringBase | backend/validators/validators.js:57-62 | the base string check fails exactly for a non-string or empty text, with one error |
| Validators.CheckField | backend/validators/validators.js:47-104 | an absent key is rejected when required, takes its default when it has one, and stays out otherwise |
| Validators.Checks | backend/validators/validators.js:139-159 | each key is checked against the body, in key order |
| Validators.Collect | backend/validators/validators.js:141-153 | no error is collected iff no key is rejected; every collected error is one of a rejected key's; values only for schema keys |
| Validators.CheckAll | backend/validators/validators.js:141-153 | the same, stated over the schema and the body |
| Validators.Keys | backend/validators/validators.js:139-159 | the keys of the schema, in order |
| Validators.UnknownKeys | backend/validators/validators.js:139-159 | one `"key" is not allowed` error per body key the schema lacks, none iff every key is known, and no key reported twice |
| Validators.RepeatedUnknownOnce | backend/validators/validators.js:139-159 | an unknown key repeated in the body is reported once, as `JSON.parse` keeps one property for it |
| Validators.Validate | backend/validators/validators.js:139-159 | a non-object body is refused; a body is valid iff every key passes and no key is unknown; an invalid body has at least one error; a valid value holds only schema keys |
| Validators.CollectValue | backend/validators/validators.js:156-157 | a key occurring once is in the value iff its check accepted, with the checked value |
| Validators.CollectNothingAccepted | backend/validators/validators.js:156-157 | with no accepted key the value is empty |
| Validators.ValidField | backend/validators/validators.js:156-157 | in a valid body a key is supplied and admitted, or takes its default, or is absent and optional |
| Validators.ValidIff | backend/validators/validators.js:139-159 | a body with no unknown key is valid iff every key passes on its own |
| Validators.EmptyBodyEmptyValue | backend/validators/validators.js:107-118 | with no required key and no default, `{}` is valid with an empty value |
| Validators.ValidateMiddleware | backend/validators/validators.js:139-159 | `next` is called iff the body is valid, with the converted value as the body; otherwise a 400 lists one `{field, message}` per error |
| Validators.CollectReports | backend/validators/validators.js:141-153 | every error of a rejected key is collected |
| Validators.CheckAllReports | backend/validators/validators.js:141-153 | every error of a rejected key is reported (all errors, not the first) |
| Validators.MissingRequiredReported | backend/validators/validators.js:143-153 | a missing required key invalidates the body with its `any.required` message |
| Validators.UnknownKeyReported | backend/validators/validators.js:143-153 | an unknown key invalidates the body with `"key" is not allowed` |
| Validators.UnknownListed | backend/validators/validators.js:143-153 | each unknown key is listed |
| Validators.ErrorsPerKey | backend/validators/validators.js:141 | with the rule chains these schemas use, a rejected key reports exactly one error, except a `.valid(...)` key, which reports `any.only` and then at most one more |
| Schemas.AppSchemasSingleRuleFailure | backend/validators/validators.js:4-136 | every rule chain of the five schemas fails at most once |
| Schemas.EmptyTypeTwoErrors | backend/validators/validators.js:57-63 | an empty event type reports the custom `any.only` text and then Joi's `string.empty` text |
| Schemas.EventUnique | backend/validators/validators.js:47-104 | no two keys of the event schema coincide |
| Schemas.RegisterUnique | backend/validators/validators.js:4-28 | no two keys of the registration schema coincide |
| Schemas.ScrapingUnique | backend/validators/validators.js:121-136 | no two keys of the scraping schema coincide |
| Schemas.BoundedTextAdmits | backend/validators/validators.js:5-10 | a text key with a min and a max admits exactly the texts whose JavaScript length is within the bounds |
| Schemas.OneRuleAdmits | backend/validators/validators.js:31-44 | a text key with one rule admits exactly the non-empty texts that meet it |
| Schemas.BoundedText | backend/validators/validators.js:47-87 | a validated text key with bounds holds text within the bounds |
| Schemas.DefaultWhenAbsent | backend/validators/validators.js:88-99 | a key left out of a valid body takes its default, or stays out |
| Schemas.BoundedNumber | backend/validators/validators.js:88-96 | a validated number key holds a number within its bounds |
| Schemas.ChosenText | backend/validators/validators.js:57-99 | a validated choice key holds one of its values |
| Schemas.RegisterValidated | backend/validators/validators.js:4-28 | a valid registration has a username of 3..50 UTF-16 code units, an email the parser accepts and a password of at least 6 code units |
| Schemas.RegisterAccepts | backend/validators/validators.js:4-28 | conversely, three such strings form a valid registration |
| Schemas.EmojiUsernamePasses | backend/validators/validators.js:5-7 | a username of two emoji has JavaScript length 4 and meets the 3..50 bounds |
| Schemas.LoginAcceptsAnyPassword | backend/validators/validators.js:31-44 | login asks only that the password be non-empty text, with no length rule |
| Schemas.EmptyUsernameMessage | backend/validators/validators.js:5-10 | an empty username is reported with Joi's default `string.empty` text, which the custom messages do not cover |
| Schemas.ShortUsernameMessage | backend/validators/validators.js:5-10 | a username of JavaScript length 1 or 2 is reported with its custom minimum message |
| Schemas.EventNameValid | backend/validators/validators.js:48-56 | a valid event name has 3..200 UTF-16 code units |
| Schemas.EventLocationValid | backend/validators/validators.js:80-87 | a valid location has 3..200 UTF-16 code units |
| Schemas.EventTypeValid | backend/validators/validators.js:57-63 | a valid type is conference, concert, workshop or meetup |
| Schemas.EventStatusValid | backend/validators/validators.js:97-99 | a valid status is upcoming, completed or cancelled, `upcoming` by default |
| Schemas.EventCapacityValid | backend/validators/validators.js:88-92 | a valid capacity is an integer in 1..100000, 100 by default |
| Schemas.EventPriceValid | backend/validators/validators.js:93-96 | a valid price is in 0..99999, 0 by default |
| Schemas.RequiredDate | backend/validators/validators.js:68-72 | a required date key holds the supplied date |
| Schemas.LaterDate | backend/validators/validators.js:73-79 | a date key with a reference holds `null` or a date after the referenced one |
| Schemas.EventStart | backend/validators/validators.js:68-72 | a valid event's date is the supplied one, converted |
| Schemas.EventEnd | backend/validators/validators.js:73-79 | a valid event's end date is `null` or strictly after its date |
| Schemas.EventValidated | backend/validators/validators.js:47-104 | a valid event has a listed type and status, and capacity and price within bounds |
| Schemas.EventDefault | backend/validators/validators.js:88-99 | a key left out of a valid event takes its default or stays out |
| Schemas.EventDefaults | backend/validators/validators.js:88-99 | capacity, price and status take 100, 0 and `upcoming` when left out |
| Schemas.EmptyUpdateAccepted | backend/validators/validators.js:107-118 | every update key is optional with no default: `{}` is a valid update with an empty value |
| Schemas.UpdateIgnoresDateOrder | backend/validators/validators.js:112 | an update with an end date before its date is valid |
| Schemas.CreateRefusesDateOrder | backend/validators/validators.js:73-79 | on creation an end date not after the date is refused with its custom message |
| Schemas.ScrapingValidated | backend/validators/validators.js:121-136 | a valid scraping request has a city and a keyword of 2..100 characters |
| AiRoute.Scan | backend/routes/ai.js:16-20 | the backwards search finds the last user message, with everything after it passed over; it finds nothing iff no message matches; it stops on a `null` |
| AiRoute.LastUser | backend/routes/ai.js:16-20 | the same for `role === 'user'` over the whole array |
| AiRoute.NewestUserMessageWins | backend/routes/ai.js:16-20 | a user message appended to any history is the one selected |
| AiRoute.RepliesIgnored | backend/routes/ai.js:16-20 | appending non-user, non-null messages does not change the selection |
| AiRoute.SessionId | backend/routes/ai.js:24-26 | `user_<id>` for a truthy user id, else the truthy client session, else `anonymous_guest` |
| AiRoute.SignedInSessionIgnoresClient | backend/routes/ai.js:24-26 | a signed-in user's key does not depend on the client's session id |
| AiRoute.SessionsOfUsersDiffer | backend/routes/ai.js:24-26 | users with different ids never share a memory key |
| AiRoute.Outbound | backend/routes/ai.js:44-52 | the webhook body holds the query (dropped when undefined), the session and the history |
| AiRoute.ReplyData | backend/routes/ai.js:70-81 | JSON text is its value; other text is wrapped as `{output: text}` |
| AiRoute.Extract | backend/routes/ai.js:85-100 | the answer is `data[0].output`, then `data.output`, then `data.text`, then a string reply, then the first element stringified, then the apology (an object with neither truthy `output` nor truthy `text` gets the apology); a `null` reply or a non-string answer throws |
| AiRoute.OutputBeforeText | backend/routes/ai.js:85-100 | `output` takes precedence over `text`, in an object and in an array's first element |
| AiRoute.PlainTextAnswered | backend/routes/ai.js:70-100 | a non-empty plain-text reply is the answer itself |
| AiRoute.Chat | backend/routes/ai.js:9-115 | a missing or non-array `messages` gives 400; no user message gives 400; no agent URL gives 500 before any call; once the call is made with the outbound body: a thrown call is a 500 with its message, a non-ok status a 500 "n8n Error: status - text", a blank reply a 500, an extraction that throws a 500 with that error, and otherwise the answer is the extracted text; a `null` message before the last user message is a 500 with no call |
| AiRoute.NoUrlNoCall | backend/routes/ai.js:31-39 | without an agent URL the outcome does not depend on any call, and is never an answer |
| AiRoute.BlankReplyFails | backend/routes/ai.js:64-67 | a whitespace-only reply fails with the empty-response message, even with status ok |
| Cors.AllowedOrigins | backend/server.js:26-35 | the fixed origins in order, plus `FRONTEND_URL` only when it is set and non-empty; no empty entry |
| Cors.OriginAllowed | backend/server.js:38-50 | a request with no origin is allowed |
| Cors.OriginAllowedIff | backend/server.js:38-50 | an origin is allowed iff absent, listed, ending in `.vercel.app`, or containing `gestion-dvnements` |
| Cors.VercelAlwaysAllowed | backend/server.js:44 | any `.vercel.app` origin is allowed whatever the configuration |
| Cors.FrontendAllowed | backend/server.js:26-35 | the configured frontend URL is allowed |
| Cors.OtherSiteRefused | backend/server.js:46-49 | `https://example.com` is refused when no frontend is configured |
| AiChat.RoleOf | frontend/js/ai-chat.js:196-199 | role `user` iff the sender is `user`, else `assistant` |
| AiChat.Last | frontend/js/ai-chat.js:201-204 | the last k entries in order, or all when fewer |
| AiChat.AddMessage | frontend/js/ai-chat.js:169-205 | the history stays non-empty and at most ten entries long, ends with the new entry, and below ten keeps every earlier entry |
| AiChat.Entries | frontend/js/ai-chat.js:196-199 | one entry per message, with its role and content |
| AiChat.ReplayWindow | frontend/js/ai-chat.js:201-204 | after any sequence of messages the history is exactly the ten most recent entries, in order |
| AiChat.LastSnoc | frontend/js/ai-chat.js:201-204 | windowing after a push equals pushing onto the window, then windowing |
| AiChat.GuestSession | frontend/js/ai-chat.js:219-223 | the stored guest id is used when non-empty, else a new `guest_` id is made and stored |
| AiChat.GuestSessionReused | frontend/js/ai-chat.js:219-223 | once made, the guest id is reused whatever later suffixes are drawn |
| AiChat.RequestBody | frontend/js/ai-chat.js:209-235 | messages are the system prompt, the history, then the new message; the user is sent; the session id is `null` for a logged-in user and the guest id otherwise |
| AiChat.Submit | frontend/js/ai-chat.js:140-154 | a submit is ignored iff the trimmed input is empty or a request is in flight; otherwise the message is added, loading is set and the body is posted |
| AiChat.Finish | frontend/js/ai-chat.js:156-165 | loading is cleared on success and on failure; the reply (or the error text) is added as the assistant's |
| AiChat.NoSubmitInFlight | frontend/js/ai-chat.js:144-146 | a second submit while the first is in flight is ignored |
| AiChat.MessageSentTwice | frontend/js/ai-chat.js:149-213 | the new message ends the history and is appended again, so it is sent twice in a row |
| AiChat.RouteSeesMessage | frontend/js/ai-chat.js:209-213 | the backend route selects the message just typed |
| AiChat.RouteSession | frontend/js/ai-chat.js:231-235 | the route's memory key is the user's, the guest id when nobody is logged in, and `anonymous_guest` for a user without an id |
| VenuesPage.Take | frontend/js/venues.js:47-52 | `slice(0, n)` is a prefix of length min(n, length) |
| VenuesPage.Slice | frontend/js/venues.js:70-84 | `slice(a, b)` is what `slice(0, b)` adds to `slice(0, a)` |
| VenuesPage.Render | frontend/js/venues.js:125-134 | the grid shows the cards, and the empty notice iff there are none |
| VenuesPage.StartLoad | frontend/js/venues.js:21-26 | a load is ignored iff one is in progress; otherwise it restarts at page 1 with no venues |
| VenuesPage.FinishLoad | frontend/js/venues.js:39-66 | a successful answer stores the venues, shows the first twelve and shows "load more" iff there are more than twelve; a failure shows the empty state; loading always ends |
| VenuesPage.LoadMore | frontend/js/venues.js:70-84 | the page advances by one, the next twelve venues are appended, and the button hides once the page end reaches the total |
| VenuesPage.LoadShowsFirstPage | frontend/js/venues.js:47-52 | after a successful load the grid shows exactly the first page |
| VenuesPage.LoadMoreShowing | frontend/js/venues.js:70-84 | each "load more" keeps the grid equal to the pages reached |
| VenuesPage.LoadMoreRepeated | frontend/js/venues.js:70-84 | k clicks after a load show exactly the first (k+1)*12 venues |
| VenuesPage.ClicksKeepVenues | frontend/js/venues.js:70-84 | paging never changes the venue list |
| VenuesPage.Matching | frontend/js/venues.js:206-224 | the filter keeps exactly the venues whose title or address contains the term |
| VenuesPage.MatchingAppend | frontend/js/venues.js:206-224 | the filter distributes over concatenation, so it keeps the venues' order and repetitions |
| VenuesPage.MatchingOne | frontend/js/venues.js:206-224 | one venue is kept exactly when it matches |
| VenuesPage.Filter | frontend/js/venues.js:206-224 | an empty term shows the first `currentPage*12` venues, with "load more" shown when more remain and hidden by the empty state; a term shows exactly `Matching` of the venues, in their order, and hides "load more" |
| VenuesPage.ClearingDuringReloadHidesLoadMore | frontend/js/venues.js:206-214 | clearing the search while a reload has emptied the list hides "load more" |
| VenuesPage.ClearingSearchRestores | frontend/js/venues.js:206-224 | clearing the search brings back the cards paging had shown |
| VenuesPage.WithWebsite | frontend/js/venues.js:96 | the count of venues with a truthy website: 0 iff none has one, all iff every one has |
| VenuesPage.WithWebsiteAppend | frontend/js/venues.js:96 | the count is additive over concatenation, so with the one-venue case it is the number of venues with a truthy website |
| VenuesPage.WithWebsiteOne | frontend/js/venues.js:96 | one venue counts 1 exactly when its website is truthy |
| VenuesPage.Latest | frontend/js/venues.js:100-101 | the latest scrape time is some venue's and no venue's is later |
| VenuesPage.RelativeTime | frontend/js/venues.js:109-122 | under a minute "Just now", then floor minutes, hours and days with their suffixes, and the locale date (not modelled) from seven days on |
| VenuesPage.Ago | frontend/js/venues.js:116-119 | `<n><unit> ago` is never "Just now" |
| VenuesPage.UpdateStats | frontend/js/venues.js:87-106 | the total, the website count `WithWebsite` (at most the total), and `--` or the relative time of the latest scrape |
| VenuesPage.TruncateUrl | frontend/js/venues.js:244-251 | the host name without its first `www.`; for an unparsable URL, the URL itself up to 30 characters, else its first 30 followed by `...` |
| EventsPage.ChooseType | frontend/js/events.js:25-27 | a type chip sets the type and returns to page 1, keeping the other filters |
| EventsPage.ChooseStatus | frontend/js/events.js:33-36 | the status select sets the status and returns to page 1 |
| EventsPage.ChooseSearch | frontend/js/events.js:41-45 | the search sets the trimmed text and returns to page 1 |
| EventsPage.RequestParams | frontend/js/events.js:72-79 | page and limit 6, plus each filter exactly when non-empty |
| EventsPage.FilterChangeAsksFirstPage | frontend/js/events.js:25-45 | every filter change requests page 1 with the new filter |
| EventsPage.LoadEvents | frontend/js/events.js:59-108 | filters and page are kept; an append concatenates onto the list, a fresh load replaces it; "load more" hides iff the page reaches the total pages; an empty first page shows the empty state |
| EventsPage.LoadMoreEvents | frontend/js/events.js:199-202 | the page advances by exactly one; a successful answer is appended to the list and the grid, and "load more" is hidden iff the new page reaches the page count |
| EventsPage.PagesAccumulate | frontend/js/events.js:93-202 | a load then a "load more" hold both pages in order |
| EventsPage.BadgeClass | frontend/js/events.js:126-130 | a known status gets its own badge, any other `badge-upcoming` |
| EventsPage.Capitalize | frontend/js/events.js:132 | the first character upper-cased, the rest unchanged |
| EventsPage.ImageUrl | frontend/js/events.js:138-146 | the event's image, or the placeholder at `id mod 6` |
| EventsPage.PlaceholderCycle | frontend/js/events.js:138-146 | ids six apart share a placeholder |
| EventsPage.OwnerControls | frontend/js/events.js:133-187 | no user sees no controls; a user sees them iff their id is the creator's |
| EventsPage.OpenDelete | frontend/js/events.js:323-326 | the selection is the chosen event |
| EventsPage.CloseDelete | frontend/js/events.js:328-331 | closing clears the selection |
| EventsPage.ConfirmDelete | frontend/js/events.js:334-346 | with no selection nothing is asked; otherwise the selected event is deleted, and on success the modal closes and the page returns to 1 |
| EventsPage.CloseCancelsDelete | frontend/js/events.js:321-346 | after closing, confirming deletes nothing |
| FavoritesPage.RequestParams | frontend/js/favorites.js:34 | the current page and limit 9 |
| FavoritesPage.LoadFavorites | frontend/js/favorites.js:21-63 | the count line shows the total; append concatenates, a fresh load replaces; "load more" hides iff the page reaches the total pages; an empty first page shows the empty state |
| FavoritesPage.LoadMoreFavorites | frontend/js/favorites.js:153-156 | the page advances by one and the answer is appended |
| FavoritesPage.FirstDigits | frontend/js/favorites.js:180-182 | the first run of digits of the count line, if any |
| FavoritesPage.FirstDigitsSkip | frontend/js/favorites.js:180-182 | text without digits before the number is skipped |
| FavoritesPage.DigitRunStops | frontend/js/favorites.js:180-182 | the digit run ends at the first non-digit |
| FavoritesPage.Decremented | frontend/js/favorites.js:180-182 | a count is read back iff the line holds a digit |
| FavoritesPage.DecrementedCount | frontend/js/favorites.js:180-182 | the count line of n is read back as n, so a removal shows n - 1 |
| FavoritesPage.RemoveCard | frontend/js/favorites.js:159-189 | a failed removal changes nothing; a success removes exactly that card, shows the empty state when it was the last and lowers the count by one |
| FavoritesPage.RemovalAfterLoad | frontend/js/favorites.js:43-182 | after a load reporting `total`, a removal shows `total - 1` |
| FavoritesPage.TypeColor | frontend/js/favorites.js:81-87 | conference is the primary colour, concert `#EC4899`, workshop the secondary colour and meetup `#8B5CF6`; any other type falls back to the primary colour |
| FavoritesPage.ImageUrl | frontend/js/favorites.js:90-97 | the event's image, or the placeholder at `id mod 5` |
| FavoritesPage.Visible | frontend/js/favorites.js:198-212 | a card is visible iff its lower-cased title or location contains the trimmed, lower-cased term |
| FavoritesPage.EmptySearchShowsAll | frontend/js/favorites.js:198-212 | an empty search shows every card |
| AutomationPage.Base36Value | frontend/js/automation.js:85 | the value of a base-36 digit |
| AutomationPage.ToBase36 | frontend/js/automation.js:85 | `toString(36)` is a non-empty string of base-36 digits |
| AutomationPage.Base36RoundTrip | frontend/js/automation.js:85 | reading the base-36 text back gives the number |
| AutomationPage.JobIdsDistinct | frontend/js/automation.js:85 | jobs started at different milliseconds get different ids |
| AutomationPage.AddLogEntry | frontend/js/automation.js:125-128 | the new log goes first, the others follow unchanged, and nothing is persisted |
| AutomationPage.SaveLogs | frontend/js/automation.js:174-176 | the persisted list is the first min(20, n) logs |
| AutomationPage.AddAndSave | frontend/js/automation.js:179-183 | `window.addLogEntry` adds and then persists |
| AutomationPage.LoadLogs | frontend/js/automation.js:165-171 | the stored list when there is one, else nothing |
| AutomationPage.ReloadAfterSave | frontend/js/automation.js:165-183 | after a persisted entry a reload shows at most twenty logs, the new one first |
| AutomationPage.TriggerScraping | frontend/js/automation.js:51-122 | nothing is sent iff the trimmed city or keyword is empty; otherwise the trimmed pair is sent, the button is re-enabled, success and error each log a row first, and a sheet opens only on success |
| AutomationPage.TriggerLogNotPersisted | frontend/js/automation.js:83-104 | the trigger's own log row never reaches storage |
| AutomationPage.StatusIcon | frontend/js/automation.js:149-150 | `success` gets check_circle, `warning` warning, anything else error |
| AutomationPage.KeywordFromLink | frontend/js/automation.js:39-48 | an event link pre-fills `event venues` |

## Left out

- The SQL itself is not executed. Queries are sequences of literal pieces and placeholders, and the stores are values. The `?` placeholders of eventController.js, favoriteController.js and auth.js are kept as written, although the pool is PostgreSQL's; database.js is not part of this model. Likewise the `[rows]` destructuring of those files assumes mysql2-style results, which `pg` does not return; the success paths modelled are the ones that code was written for.
- Database failures are left out. The 500 branches of the handlers' `catch` blocks are modelled only where the outcome depends on the input: the three list handlers (getEvents, getScrapedVenues and getMyFavorites), whose `LIMIT`/`OFFSET` values the database refuses when `NaN` or negative; the scraping trigger; the AI route; and the passport callback.
- bcrypt, `jwt.sign` and `jwt.verify`, `fetch`, `JSON.parse`, `Math.random`, `Date.now`, `new Date().toISOString()`, and Joi's email, URI and date parsers are not modelled. Each is a parameter: a function, or an outcome value.
- Integers are unbounded. JavaScript's loss of precision above 2^53 is not modelled.
- Schemas.EventPriceValid: price is an integer in 0..99999, not a float up to 99999.99, because the model has no floating point. `parseFloat` and `formatPrice` are left out for the same reason.
- Joi's exact wording of its default messages is left out, apart from the `string.empty`, `any.required` and `object.unknown` texts. So is the `any.ref` message, which has its custom text.
- JSON objects are entry lists, and lookup takes the last occurrence of a key. Property enumeration order beyond that is not modelled.
- JSON numbers are integers, so `JSON.stringify` of fractional numbers is not modelled.
- The system prompt of the chat widget is a parameter.
- The rendering of messages is left out, including `formatMessage` and `escapeHtml`.
- The DOM, HTML templates, toasts, modals, debounce timers and `setTimeout` are left out. Page state is a value passed from handler to handler.
- `localStorage` is a field of the page state.
- VenuesPage.RelativeTime: from seven days on, the result is `None` rather than the locale date `toLocaleDateString` would give, because locale formatting is not modelled.
- events.js `handleEventSubmit`, `openEditEventModal` and `toggleFavorite` are not modelled. They call the API and redraw, and decide nothing beyond that.
- authController.js `getMe` and `googleAuthCallback` are not modelled. They read one row or redirect.
- The configuration logging at the top of passport.js is not modelled.
- The server bootstrap, body parsers, static serving, the API 404 and the global error handler of server.js are left out. So are the route files' wiring, beyond which guard precedes which handler.
- frontend/js/api.js is not part of this model. It is a fetch wrapper with date and price formatters. The pages' view of its answers is stated as response datatypes.
- backend/scripts are one-shot maintenance scripts and are not modelled.
- Query values are single strings. Express turns a repeated parameter such as `?order=a&order=b` into an array; `order.toUpperCase()` then throws and getEvents answers 500. That case is not modelled, nor are arrays in the scraped-venue filters.
- EventController.SortOrder: case mapping covers the ASCII and Latin-1 Supplement letters only, because Unicode's full case tables are not modelled; JavaScript also maps `ſ` (U+017F) to `S`, so `deſc` sorts descending there and ascending here.
- VenuesPage.Matching: the lower-casing of title, address and term covers the ASCII and Latin-1 Supplement letters only (`THÉÂTRE` does match `Théâtre`), not other scripts such as Greek or Cyrillic, because Unicode's full case tables are not modelled.
- Passport.Reconcile: states the callback under the corrected email-conflict test of "## Findings"; the callback as written is ReconcileWith with IsEmailConflictAsWritten.
- VenuesPage.Filter: same lower-casing limit as VenuesPage.Matching.
- FavoritesPage.Visible: same lower-casing limit as VenuesPage.Matching, for title, location and term.
- EventsPage.Capitalize: upper-cases the first character over the ASCII and Latin-1 Supplement letters only. It keeps `ß` as one character, where JavaScript gives `SS`. It treats a character beyond U+FFFF as one character, where `charAt(0)` takes half of a surrogate pair.
- VenuesPage.TruncateUrl: cuts after 30 characters, where `substring(0, 30)` cuts after 30 UTF-16 code units, because a cut inside a surrogate pair has no counterpart over Unicode scalar values.
- The check-then-insert race of registration and of Google provisioning is left out. Each handler runs to completion before the next starts.

## Findings

| source | as written | input that shows it | evidently intended | confidence | as-written member | corrected member |
|---|---|---|---|---|---|---|
| backend/config/passport.js:76 | a unique violation is treated as an email conflict and rethrown when `err.detail` contains `email` anywhere | a new Google user whose display name `emailfan` is already taken: PostgreSQL's detail is `Key (username)=(emailfan) already exists.`, so the callback fails instead of retrying with `emailfan_NNNN` | only a violation of the `email` key (`Key (email)=...`) is an email conflict; username collisions are retried | not executed | Passport.EmailInUsernameRethrown | Passport.TakenSeedRetried |

=== FILE: ai_chat.dfy ===
/** The chat widget of `frontend/js/ai-chat.js`: the submit guard, the
    ten-entry history window, the request body sent to the backend route and
    the guest session id kept in local storage. The system prompt, the
    logged-in user (`window.getUser()`) and the random guest suffix are
    inputs; the widget's state is a value threaded through its handlers. */
module AiChat {
  import opened Options
  import opened Strings
  import opened Json
  import AiRoute

  /** `chatHistory` keeps this many entries. */
  const HistoryWindow: nat := 10

  const ErrorReply := "Sorry, I encountered an error. Please try again later. \U{1F614}"

  /** One `chatHistory` entry. */
  datatype Entry = Entry(role: string, content: string)

  /** The role an entry gets from the sender of its message. */
  function RoleOf(sender: string): (r: string)
    ensures r == "user" <==> sender == "user"
    ensures r == "user" || r == "assistant"
  {
    if sender == "user" then "user" else "assistant"
  }

  /** The last `k` elements of `s`, or all of it when shorter. */
  function Last<T>(s: seq<T>, k: nat): (r: seq<T>)
    ensures |r| == if |s| > k then k else |s|
    ensures forall i :: 0 <= i < |r| ==> r[i] == s[|s| - |r| + i]
  {
    if |s| > k then s[|s| - k..] else s
  }

  /** `addMessage`'s effect on the history: push, then keep the last ten. */
  function AddMessage(history: seq<Entry>, content: string, sender: string): (r: seq<Entry>)
    ensures 0 < |r| <= HistoryWindow
    ensures |history| < HistoryWindow ==> |r| == |history| + 1 && r[..|history|] == history
    ensures r[|r| - 1] == Entry(RoleOf(sender), content)
  {
    var h := history + [Entry(RoleOf(sender), content)];
    var r := if |h| > HistoryWindow then h[|h| - HistoryWindow..] else h;
    assert r[|r| - 1] == h[|h| - 1];
    r
  }

  /** The entry of each message, as `(content, sender)` pairs. */
  function Entries(msgs: seq<(string, string)>): (r: seq<Entry>)
    ensures |r| == |msgs|
    ensures forall i :: 0 <= i < |msgs| ==> r[i] == Entry(RoleOf(msgs[i].1), msgs[i].0)
  {
    seq(|msgs|, i requires 0 <= i < |msgs| => Entry(RoleOf(msgs[i].1), msgs[i].0))
  }

  /** The history after adding `msgs` in order to an empty one. */
  function Replay(msgs: seq<(string, string)>): seq<Entry> {
    if |msgs| == 0 then []
    else
      var m := msgs[|msgs| - 1];
      AddMessage(Replay(msgs[..|msgs| - 1]), m.0, m.1)
  }

  /** The history is always the ten most recent entries, in order. */
  lemma {:induction false} ReplayWindow(msgs: seq<(string, string)>)
    ensures Replay(msgs) == Last(Entries(msgs), HistoryWindow)
  {
    if |msgs| > 0 {
      var init := msgs[..|msgs| - 1];
      var m := msgs[|msgs| - 1];
      ReplayWindow(init);
      var all := Entries(msgs);
      assert all == Entries(init) + [Entry(RoleOf(m.1), m.0)];
      LastSnoc(Entries(init), Entry(RoleOf(m.1), m.0), HistoryWindow);
    }
  }

  /** Taking the last `k` after a push is pushing onto the last `k`, then
      taking the last `k` again. */
  lemma LastSnoc<T>(s: seq<T>, x: T, k: nat)
    requires k > 0
    ensures Last(s + [x], k) == Last(Last(s, k) + [x], k)
  {
    var a := Last(s + [x], k);
    var b := Last(Last(s, k) + [x], k);
    assert |a| == |b|;
    forall i | 0 <= i < |a|
      ensures a[i] == b[i]
    {
      if i == |a| - 1 {
        assert a[i] == x == b[i];
      }
    }
  }

  /** The widget's state: `chatHistory`, `isLoading` and the stored
      `guest_session_id`. */
  datatype Widget = Widget(history: seq<Entry>, loading: bool, storedGuest: Option<string>)

  /** `guest_session_id`: the stored one when non-empty, otherwise a new
      `guest_` id built from the random suffix, which is then stored. */
  function GuestSession(stored: Option<string>, suffix: string): (r: (string, Option<string>))
    ensures r.1 == Some(r.0)
    ensures stored.Some? && stored.value != "" ==> r.0 == stored.value
    ensures stored.None? || stored.value == "" ==> r.0 == "guest_" + suffix
  {
    if stored.Some? && stored.value != "" then (stored.value, stored)
    else var id := "guest_" + suffix; (id, Some(id))
  }

  /** Once generated, the guest id is reused whatever suffix later calls draw. */
  lemma GuestSessionReused(stored: Option<string>, s1: string, s2: string)
    ensures var first := GuestSession(stored, s1);
            GuestSession(first.1, s2) == first
  {
  }

  /** A history entry as sent. */
  function EntryJson(e: Entry): Json {
    JObj([("role", JStr(e.role)), ("content", JStr(e.content))])
  }

  /** The body `sendMessage` posts: the system prompt, the history (which
      already ends with the new message), the message again, the user, and
      the guest id only when nobody is logged in. */
  function RequestBody(systemPrompt: string, history: seq<Entry>, message: string,
                       user: Json, guestId: string): (r: Json)
    ensures r.JObj?
    ensures Get(r, "messages") == Some(JArr([EntryJson(Entry("system", systemPrompt))]
                                             + seq(|history|, i requires 0 <= i < |history| => EntryJson(history[i]))
                                             + [EntryJson(Entry("user", message))]))
    ensures Get(r, "user") == Some(user)
    ensures Get(r, "sessionId") == Some(if Truthy(Some(user)) then JNull else JStr(guestId))
  {
    var ms := [EntryJson(Entry("system", systemPrompt))]
              + seq(|history|, i requires 0 <= i < |history| => EntryJson(history[i]))
              + [EntryJson(Entry("user", message))];
    var es := [("messages", JArr(ms)), ("user", user),
               ("sessionId", if Truthy(Some(user)) then JNull else JStr(guestId))];
    LookupSole(es, 0);
    LookupSole(es, 1);
    LookupSole(es, 2);
    JObj(es)
  }

  /** What `handleSubmit` does before it awaits the reply: `None` when the
      submit is ignored, otherwise the widget while the request is in
      flight and the body posted. */
  function Submit(w: Widget, input: string, systemPrompt: string, user: Json, suffix: string)
    : (r: Option<(Widget, Json)>)
    ensures r.None? <==> Trim(input) == "" || w.loading
    ensures r.Some? ==>
              var message := Trim(input);
              var history := AddMessage(w.history, message, "user");
              var guest := GuestSession(w.storedGuest, suffix);
              && r.value.0 == Widget(history, true, guest.1)
              && r.value.1 == RequestBody(systemPrompt, history, message, user, guest.0)
  {
    var message := Trim(input);
    if message == "" || w.loading then None
    else
      var history := AddMessage(w.history, message, "user");
      var guest := GuestSession(w.storedGuest, suffix);
      Some((Widget(history, true, guest.1), RequestBody(systemPrompt, history, message, user, guest.0)))
  }

  /** The reply as `sendMessage` resolves it: the answer's content, or
      `None` when it threw. */
  function Finish(w: Widget, reply: Option<string>): (r: Widget)
    ensures !r.loading && r.storedGuest == w.storedGuest
    ensures r.history == AddMessage(w.history, if reply.Some? then reply.value else ErrorReply, "ai")
  {
    var content := match reply case Some(c) => c case None => ErrorReply;
    Widget(AddMessage(w.history, content, "ai"), false, w.storedGuest)
  }

  /** A second submit while the first is in flight is ignored. */
  lemma NoSubmitInFlight(w: Widget, i1: string, i2: string, prompt: string, user: Json, s1: string, s2: string)
    requires Submit(w, i1, prompt, user, s1).Some?
    ensures Submit(Submit(w, i1, prompt, user, s1).value.0, i2, prompt, user, s2).None?
  {
  }

  /** The message sent also ends the history inside the body, so the model
      sees it twice in a row. */
  lemma MessageSentTwice(w: Widget, input: string, prompt: string, user: Json, suffix: string)
    requires Submit(w, input, prompt, user, suffix).Some?
    ensures var body := Submit(w, input, prompt, user, suffix).value.1;
            var items := Get(body, "messages").value.items;
            |items| >= 3 && items[|items| - 1] == items[|items| - 2] == EntryJson(Entry("user", Trim(input)))
  {
  }

  /** The backend route picks the message just typed as the query. */
  lemma RouteSeesMessage(w: Widget, input: string, prompt: string, user: Json, suffix: string)
    requires Submit(w, input, prompt, user, suffix).Some?
    ensures var body := Submit(w, input, prompt, user, suffix).value.1;
            AiRoute.LastUser(Get(body, "messages").value.items) == AiRoute.Found(EntryJson(Entry("user", Trim(input))))
  {
    var body := Submit(w, input, prompt, user, suffix).value.1;
    var items := Get(body, "messages").value.items;
    var m := EntryJson(Entry("user", Trim(input)));
    LookupSole(m.entries, 0);
    assert items == items[..|items| - 1] + [m];
    AiRoute.NewestUserMessageWins(items[..|items| - 1], m);
  }

  /** The memory key the route derives from the body: the user's when they
      have an id, the guest id when nobody is logged in, and the shared
      `anonymous_guest` for a user object without an id. */
  lemma RouteSession(systemPrompt: string, history: seq<Entry>, message: string, user: Json, guestId: string)
    requires guestId != ""
    ensures var body := RequestBody(systemPrompt, history, message, user, guestId);
            var sid := AiRoute.SessionId(Get(body, "user"), Get(body, "sessionId"));
            && (Truthy(Get(user, "id")) ==> sid == JStr("user_" + ToText(Get(user, "id").value)))
            && (!Truthy(Some(user)) ==> sid == JStr(guestId))
            && (Truthy(Some(user)) && !Truthy(Get(user, "id")) ==> sid == JStr("anonymous_guest"))
  {
  }
}

=== FILE: ai_route.dfy ===
/** `backend/routes/ai.js`: the chat proxy to the n8n agent. The request
    body is parsed JSON; the environment URL, the `fetch` outcome and
    `JSON.parse` are inputs. The handler's thrown errors, including the
    `TypeError`s JavaScript raises on `null` and on non-string answers, all
    end in its 500 branch. */
module AiRoute {
  import opened Options
  import opened Strings
  import opened Json
  import opened Fetch
  import Numbers

  const MessagesRequired := "Messages array is required"
  const NoUserMessage := "No user message found"
  const DefaultAnswer := "I'm having trouble connecting to my brain right now. Please try again."
  const EmptyReply := "n8n returned empty response. Make sure the workflow is active."

  /** `m.role === 'user'` */
  predicate IsUser(m: Json) {
    Get(m, "role") == Some(JStr("user"))
  }

  /** A message the backwards search passes over without stopping. */
  predicate Passed(m: Json) {
    !IsUser(m) && !m.JNull?
  }

  /** `[...messages].reverse().find(m => m.role === 'user')`: the search
      runs from the end and throws on a `null` it meets before a match. */
  datatype Search = Found(message: Json) | NotFound | NullMessage

  /** The search over the first `n` messages, for a given test of `role`. */
  function Scan(ms: seq<Json>, n: nat, user: Json -> bool): (r: Search)
    requires n <= |ms|
    ensures r.Found? ==>
              exists i :: 0 <= i < n && ms[i] == r.message && user(ms[i])
                && forall j :: i < j < n ==> !user(ms[j]) && !ms[j].JNull?
    ensures r.NotFound? <==> forall j :: 0 <= j < n ==> !user(ms[j]) && !ms[j].JNull?
    ensures r.NullMessage? ==>
              exists i :: 0 <= i < n && ms[i].JNull?
                && forall j :: i < j < n ==> !user(ms[j]) && !ms[j].JNull?
  {
    if n == 0 then NotFound
    else if ms[n - 1].JNull? then NullMessage
    else if user(ms[n - 1]) then Found(ms[n - 1])
    else Scan(ms, n - 1, user)
  }

  function LastUser(ms: seq<Json>): (r: Search)
    ensures r.Found? ==>
              exists i :: 0 <= i < |ms| && ms[i] == r.message && IsUser(ms[i])
                && forall j :: i < j < |ms| ==> Passed(ms[j])
    ensures r.NotFound? <==> forall j :: 0 <= j < |ms| ==> Passed(ms[j])
    ensures r.NullMessage? ==>
              exists i :: 0 <= i < |ms| && ms[i].JNull?
                && forall j :: i < j < |ms| ==> Passed(ms[j])
  {
    Scan(ms, |ms|, IsUser)
  }

  /** A message from the user appended to any history is the one sent. */
  lemma NewestUserMessageWins(ms: seq<Json>, m: Json)
    requires IsUser(m)
    ensures LastUser(ms + [m]) == Found(m)
  {
    assert (ms + [m])[|ms|] == m;
  }

  /** The search over a prefix does not look past it. */
  lemma {:induction false} ScanPrefix(ms: seq<Json>, extra: seq<Json>, n: nat, user: Json -> bool)
    requires n <= |ms|
    ensures Scan(ms + extra, n, user) == Scan(ms, n, user)
  {
    if n > 0 {
      assert (ms + extra)[n - 1] == ms[n - 1];
      ScanPrefix(ms, extra, n - 1, user);
    }
  }

  /** Messages the search passes over do not change its outcome. */
  lemma {:induction false} ScanPassed(ms: seq<Json>, lo: nat, n: nat, user: Json -> bool)
    requires lo <= n <= |ms|
    requires forall j :: lo <= j < n ==> !user(ms[j]) && !ms[j].JNull?
    ensures Scan(ms, n, user) == Scan(ms, lo, user)
  {
    if lo < n {
      ScanPassed(ms, lo, n - 1, user);
    }
  }

  /** Replies appended after the user's message do not change the query,
      as long as they are not `null`. */
  lemma RepliesIgnored(ms: seq<Json>, replies: seq<Json>)
    requires forall j :: 0 <= j < |replies| ==> Passed(replies[j])
    ensures LastUser(ms + replies) == LastUser(ms)
  {
    var all := ms + replies;
    assert forall j :: |ms| <= j < |all| ==> all[j] == replies[j - |ms|];
    ScanPassed(all, |ms|, |all|, IsUser);
    ScanPrefix(ms, replies, |ms|, IsUser);
  }

  /** The memory key: `user_<id>` for a truthy `user.id`, else the client's
      truthy `sessionId`, else `anonymous_guest`. */
  function SessionId(user: Option<Json>, client: Option<Json>): (r: Json)
    ensures Truthy(GetOpt(user, "id")) ==> r == JStr("user_" + ToText(GetOpt(user, "id").value))
    ensures !Truthy(GetOpt(user, "id")) && Truthy(client) ==> r == client.value
    ensures !Truthy(GetOpt(user, "id")) && !Truthy(client) ==> r == JStr("anonymous_guest")
  {
    var id := GetOpt(user, "id");
    if Truthy(id) then JStr("user_" + ToText(id.value))
    else if Truthy(client) then client.value
    else JStr("anonymous_guest")
  }

  /** A signed-in user's memory key does not depend on what the client
      sends as its session. */
  lemma SignedInSessionIgnoresClient(user: Json, c1: Option<Json>, c2: Option<Json>)
    requires Truthy(Get(user, "id"))
    ensures SessionId(Some(user), c1) == SessionId(Some(user), c2)
  {
  }

  /** Two users with different numeric ids never share a memory key. */
  lemma SessionsOfUsersDiffer(a: nat, b: nat, c: Option<Json>)
    requires 0 < a && 0 < b && a != b
    ensures SessionId(Some(JObj([("id", JNum(a))])), c) != SessionId(Some(JObj([("id", JNum(b))])), c)
  {
    var ta := IntToString(a);
    var tb := IntToString(b);
    Numbers.NatToStringInjective(a, b);
    assert ("user_" + ta)[5..] == ta;
    assert ("user_" + tb)[5..] == tb;
  }

  /** The webhook body: `JSON.stringify` drops an `undefined` query. */
  function Outbound(query: Option<Json>, session: Json, history: Json): (r: Json)
    ensures r.JObj? && Lookup(r.entries, "sessionId") == Some(session) && Lookup(r.entries, "history") == Some(history)
    ensures Lookup(r.entries, "query") == query
  {
    var tail := [("sessionId", session), ("history", history)];
    var es := if query.Some? then [("query", query.value)] + tail else tail;
    assert Lookup(es, "query") == query by {
      if query.Some? { LookupSole(es, 0); }
    }
    assert Lookup(es, "sessionId") == Some(session) by {
      LookupSole(es, |es| - 2);
    }
    JObj(es)
  }

  /** `data`: the parsed reply, or plain text wrapped as `{output: text}`. */
  function ReplyData(text: string, parse: string -> Option<Json>): (r: Json)
    ensures parse(text).Some? ==> r == parse(text).value
    ensures parse(text).None? ==> r == JObj([("output", JStr(text))])
  {
    match parse(text)
    case Some(d) => d
    case None => JObj([("output", JStr(text))])
  }

  /** What the extraction gives: the answer, or the `TypeError` thrown on a
      `null` reply or a non-string answer. */
  datatype Answer = Text(text: string) | Thrown(message: string)

  /** The answer cascade: `data[0].output`, `data.output`, `data.text`, a
      string reply, the stringified first element, then the apology; the
      chosen value must be a string for the log line that follows. */
  function Extract(data: Json): (r: Answer)
    ensures data.JArr? && |data.items| > 0 && Truthy(Get(data.items[0], "output")) ==>
              r == (if Get(data.items[0], "output").value.JStr? then Text(Get(data.items[0], "output").value.s)
                    else Thrown("aiText.substring is not a function"))
    ensures data.JNull? ==> r == Thrown("Cannot read properties of null (reading 'output')")
    ensures data.JObj? && Truthy(Get(data, "output")) ==>
              r == (if Get(data, "output").value.JStr? then Text(Get(data, "output").value.s)
                    else Thrown("aiText.substring is not a function"))
    ensures data.JStr? ==> r == Text(data.s)
    ensures data.JArr? && |data.items| > 0 && !Truthy(Get(data.items[0], "output")) ==>
              r == Text(Stringify(data.items[0]))
    ensures data.JArr? && |data.items| == 0 ==> r == Text(DefaultAnswer)
    ensures data.JBool? || data.JNum? ==> r == Text(DefaultAnswer)
    ensures data.JObj? && !Truthy(Get(data, "output")) && Truthy(Get(data, "text")) ==>
              r == (if Get(data, "text").value.JStr? then Text(Get(data, "text").value.s)
                    else Thrown("aiText.substring is not a function"))
    ensures data.JObj? && !Truthy(Get(data, "output")) && !Truthy(Get(data, "text")) ==>
              r == Text(DefaultAnswer)
  {
    var chosen :=
      if data.JArr? && |data.items| > 0 && Truthy(Get(data.items[0], "output")) then
        Some(Get(data.items[0], "output").value)
      else if data.JNull? then None
      else if Truthy(Get(data, "output")) then Some(Get(data, "output").value)
      else if Truthy(Get(data, "text")) then Some(Get(data, "text").value)
      else if data.JStr? then Some(data)
      else if data.JArr? && |data.items| > 0 then Some(JStr(Stringify(data.items[0])))
      else Some(JStr(DefaultAnswer));
    match chosen
    case None => Thrown("Cannot read properties of null (reading 'output')")
    case Some(v) => if v.JStr? then Text(v.s) else Thrown("aiText.substring is not a function")
  }

  /** The two fields the agent's usual replies use, in their precedence. */
  lemma OutputBeforeText(out: string, text: string)
    requires out != ""
    ensures Extract(JObj([("output", JStr(out)), ("text", JStr(text))])) == Text(out)
    ensures Extract(JArr([JObj([("output", JStr(out))])])) == Text(out)
  {
    var es := [("output", JStr(out)), ("text", JStr(text))];
    LookupSole(es, 0);
    var one := [("output", JStr(out))];
    LookupSole(one, 0);
  }

  /** A plain-text reply is the answer itself. */
  lemma PlainTextAnswered(text: string, parse: string -> Option<Json>)
    requires text != "" && parse(text).None?
    ensures Extract(ReplyData(text, parse)) == Text(text)
  {
    var one := [("output", JStr(text))];
    LookupSole(one, 0);
  }

  /** What the route answers. */
  datatype ChatOutcome =
    | BadRequest(error: string)                          // 400 {error}
    | NotConfigured                                      // 500, before any call
    | Failed(message: string, request: Option<Json>)     // 500 {success: false, message}
    | Answered(content: string, sent: Json)              // {success: true, choices[0].message.content}

  /** The whole handler on a parsed body. `url` is `N8N_AI_AGENT_URL`,
      `fetched` the outcome of the call (consulted only when it is made). */
  function Chat(body: Json, url: Option<string>, fetched: FetchResult,
                parse: string -> Option<Json>): (r: ChatOutcome)
    ensures !(Get(body, "messages").Some? && Get(body, "messages").value.JArr?) ==>
              r == BadRequest(MessagesRequired)
    ensures (Get(body, "messages").Some? && Get(body, "messages").value.JArr?
             && LastUser(Get(body, "messages").value.items).NotFound?) ==> r == BadRequest(NoUserMessage)
    ensures r == NotConfigured ==> url.None? || url.value == ""
    ensures (url.None? || url.value == "") ==> r.BadRequest? || r.NotConfigured? || r == Failed("Cannot read properties of null (reading 'role')", None)
    ensures r.Answered? ==>
              && Get(body, "messages").Some? && Get(body, "messages").value.JArr?
              && LastUser(Get(body, "messages").value.items).Found?
              && var ms := Get(body, "messages").value;
              var found := LastUser(ms.items).message;
              && r.sent == Outbound(Get(found, "content"),
                                    SessionId(Get(body, "user"), Get(body, "sessionId")), ms)
              && fetched.Response? && fetched.ok && Trim(fetched.text) != ""
              && Extract(ReplyData(fetched.text, parse)) == Text(r.content)
    ensures (Get(body, "messages").Some? && Get(body, "messages").value.JArr?
             && LastUser(Get(body, "messages").value.items).NullMessage?) ==>
              r == Failed("Cannot read properties of null (reading 'role')", None)
    ensures (&& Get(body, "messages").Some? && Get(body, "messages").value.JArr?
             && LastUser(Get(body, "messages").value.items).Found?
             && url.Some? && url.value != "") ==>
              var ms := Get(body, "messages").value;
              var sent := Outbound(Get(LastUser(ms.items).message, "content"),
                                   SessionId(Get(body, "user"), Get(body, "sessionId")), ms);
              && (fetched.NetworkError? ==> r == Failed(fetched.message, Some(sent)))
              && (fetched.Response? && !fetched.ok ==>
                    r == Failed("n8n Error: " + IntToString(fetched.status) + " - " + fetched.text, Some(sent)))
              && (fetched.Response? && fetched.ok && Trim(fetched.text) == "" ==>
                    r == Failed(EmptyReply, Some(sent)))
              && (fetched.Response? && fetched.ok && Trim(fetched.text) != ""
                  && Extract(ReplyData(fetched.text, parse)).Thrown? ==>
                    r == Failed(Extract(ReplyData(fetched.text, parse)).message, Some(sent)))
              && (fetched.Response? && fetched.ok && Trim(fetched.text) != ""
                  && Extract(ReplyData(fetched.text, parse)).Text? ==>
                    r == Answered(Extract(ReplyData(fetched.text, parse)).text, sent))
  {
    match Get(body, "messages")
    case None => BadRequest(MessagesRequired)
    case Some(ms) =>
      if !ms.JArr? then BadRequest(MessagesRequired)
      else match LastUser(ms.items)
        case NotFound => BadRequest(NoUserMessage)
        case NullMessage => Failed("Cannot read properties of null (reading 'role')", None)
        case Found(m) =>
          var session := SessionId(Get(body, "user"), Get(body, "sessionId"));
          if url.None? || url.value == "" then NotConfigured
          else
            var sent := Outbound(Get(m, "content"), session, ms);
            match fetched
            case NetworkError(e) => Failed(e, Some(sent))
            case Response(ok, status, text) =>
              if !ok then Failed("n8n Error: " + IntToString(status) + " - " + text, Some(sent))
              else if text == "" || Trim(text) == "" then Failed(EmptyReply, Some(sent))
              else match Extract(ReplyData(text, parse))
                case Thrown(e) => Failed(e, Some(sent))
                case Text(answer) => Answered(answer, sent)
  }

  /** With no agent URL nothing is sent, whatever the call would have
      returned. */
  lemma NoUrlNoCall(body: Json, f1: FetchResult, f2: FetchResult, parse: string -> Option<Json>)
    ensures Chat(body, None, f1, parse) == Chat(body, None, f2, parse)
    ensures !Chat(body, None, f1, parse).Answered?
  {
  }

  /** A whitespace-only reply is an error even from a successful call. */
  lemma BlankReplyFails(body: Json, url: string, status: nat, text: string, parse: string -> Option<Json>)
    requires url != ""
    requires Get(body, "messages").Some? && Get(body, "messages").value.JArr?
    requires LastUser(Get(body, "messages").value.items).Found?
    requires forall k :: 0 <= k < |text| ==> IsWhite(text[k])
    ensures Chat(body, Some(url), Response(true, status, text), parse).Failed?
    ensures Chat(body, Some(url), Response(true, status, text), parse).message == EmptyReply
  {
    TrimEmptyIff(text);
  }
}

=== FILE: auth_controller.dfy ===
/** `backend/controllers/authController.js`: token expiry, cookie options,
    and the decision trees of `register`, `login` and `logout`. Password
    hashing and comparison are oracles; token signing is kept as the claims
    it would sign. */
module AuthController {
  import opened Options
  import opened Store

  /** `process.env.JWT_EXPIRES_IN || '7d'` */
  function TokenExpiry(configured: Option<string>): (r: string)
    ensures configured.Some? && configured.value != "" ==> r == configured.value
    ensures configured.None? || configured.value == "" ==> r == "7d"
  {
    if configured.Some? && configured.value != "" then configured.value else "7d"
  }

  /** The claims and lifetime `generateToken` signs. */
  datatype Token = Token(userId: nat, expiresIn: string)

  function GenerateToken(userId: nat, configured: Option<string>): (t: Token)
    ensures t.userId == userId && t.expiresIn == TokenExpiry(configured)
  {
    Token(userId, TokenExpiry(configured))
  }

  /** Seven days in milliseconds. */
  const SessionMillis: nat := 7 * 24 * 60 * 60 * 1000

  /** Options of the `token` cookie; `maxAge` is absent when clearing. */
  datatype CookieOptions = CookieOptions(httpOnly: bool, secure: bool, sameSite: string, maxAge: Option<nat>)

  /** `getCookieOptions`: secure when the request is, or when a proxy says it
      forwarded HTTPS. */
  function GetCookieOptions(reqSecure: bool, forwardedProto: Option<string>): (o: CookieOptions)
    ensures o.httpOnly
    ensures o.secure <==> reqSecure || forwardedProto == Some("https")
    ensures o.sameSite == (if o.secure then "none" else "lax")
    ensures o.maxAge == Some(604800000)
  {
    var secure := reqSecure || forwardedProto == Some("https");
    CookieOptions(true, secure, if secure then "none" else "lax", Some(SessionMillis))
  }

  /** The options `logout` clears the cookie with: those of the login, minus
      `maxAge`, so the browser matches and drops the same cookie. */
  function LogoutOptions(reqSecure: bool, forwardedProto: Option<string>): (o: CookieOptions)
    ensures o == GetCookieOptions(reqSecure, forwardedProto).(maxAge := None)
  {
    var opts := GetCookieOptions(reqSecure, forwardedProto);
    CookieOptions(opts.httpOnly, opts.secure, opts.sameSite, None)
  }

  /** The `user` object of a register or login answer. */
  datatype UserSummary = UserSummary(id: nat, username: string, avatar: Option<string>)

  function Summary(u: User): UserSummary {
    UserSummary(u.id, u.username, u.avatar)
  }

  /** The answer of `register` or `login`, with the table after it. */
  datatype AuthAnswer =
    | Refused(status: nat, message: string)
    | SignedIn(status: nat, user: UserSummary, token: Token, cookie: CookieOptions, users: Users)

  /** `register` on a validated body. `hash` stands for bcrypt with a fresh
      salt, `newId` for the id the database assigns and `now` for its
      `created_at`. */
  function Register(users: Users, username: string, email: string, password: string,
                    hash: string -> string, newId: nat, now: int, expiry: Option<string>,
                    reqSecure: bool, forwardedProto: Option<string>)
    : (r: AuthAnswer)
    requires FreshId(users, newId)
    ensures r.Refused? <==> exists u :: u in users && (u.email == email || u.username == username)
    ensures r.Refused? ==> r == Refused(400, "User with this email or username already exists")
    ensures r.SignedIn? ==>
              && r.status == 201
              && r.users == users + [User(newId, username, email, Some(hash(password)), None, None, now)]
              && r.user == UserSummary(newId, username, None)
              && r.token == GenerateToken(newId, expiry)
              && r.cookie == GetCookieOptions(reqSecure, forwardedProto)
  {
    if exists u :: u in users && (u.email == email || u.username == username) then
      Refused(400, "User with this email or username already exists")
    else
      var u := User(newId, username, email, Some(hash(password)), None, None, now);
      SignedIn(201, Summary(u), GenerateToken(newId, expiry),
               GetCookieOptions(reqSecure, forwardedProto), users + [u])
  }

  const BadCredentials := "Invalid email or password"
  const GoogleOnly := "Please log in with Google"

  /** `login` on a validated body. `compare(password, hash)` stands for
      `bcrypt.compare`. The first row with the email is the account. */
  function Login(users: Users, email: string, password: string,
                 compare: (string, string) -> bool, expiry: Option<string>,
                 reqSecure: bool, forwardedProto: Option<string>)
    : (r: AuthAnswer)
    ensures ByEmail(users, email).None? ==> r == Refused(401, BadCredentials)
    ensures ByEmail(users, email).Some? && !HasPassword(ByEmail(users, email).value) ==>
              r == Refused(401, GoogleOnly)
    ensures r.SignedIn? ==>
              && ByEmail(users, email).Some?
              && var u := ByEmail(users, email).value;
              && HasPassword(u) && compare(password, u.password.value)
              && r == SignedIn(200, Summary(u), GenerateToken(u.id, expiry),
                               GetCookieOptions(reqSecure, forwardedProto), users)
    ensures r.Refused? ==> r.status == 401 && (r.message == BadCredentials || r.message == GoogleOnly)
    ensures r.SignedIn? <==>
              && ByEmail(users, email).Some?
              && HasPassword(ByEmail(users, email).value)
              && compare(password, ByEmail(users, email).value.password.value)
    ensures ByEmail(users, email).Some? && HasPassword(ByEmail(users, email).value)
            && !compare(password, ByEmail(users, email).value.password.value) ==>
              r == Refused(401, BadCredentials)
  {
    match ByEmail(users, email)
    case None => Refused(401, BadCredentials)
    case Some(u) =>
      if !HasPassword(u) then Refused(401, GoogleOnly)
      else if !compare(password, u.password.value) then Refused(401, BadCredentials)
      else SignedIn(200, Summary(u), GenerateToken(u.id, expiry),
                    GetCookieOptions(reqSecure, forwardedProto), users)
  }

  /** `user.password` is truthy. */
  predicate HasPassword(u: User) {
    u.password.Some? && u.password.value != ""
  }

  /** A wrong password and an unknown email are indistinguishable to the
      client. */
  lemma WrongPasswordLikeUnknownEmail(users: Users, email: string, password: string,
                                      compare: (string, string) -> bool, other: string,
                                      expiry: Option<string>, reqSecure: bool, proto: Option<string>)
    requires ByEmail(users, email).Some? && HasPassword(ByEmail(users, email).value)
    requires !compare(password, ByEmail(users, email).value.password.value)
    requires ByEmail(users, other).None?
    ensures Login(users, email, password, compare, expiry, reqSecure, proto)
              == Login(users, other, password, compare, expiry, reqSecure, proto)
  {
  }

  /** A Google-only account is refused whatever the password comparison
      would say: it is never consulted. */
  lemma GoogleAccountIgnoresCompare(users: Users, email: string, password: string,
                                    c1: (string, string) -> bool, c2: (string, string) -> bool,
                                    expiry: Option<string>, reqSecure: bool, proto: Option<string>)
    requires ByEmail(users, email).Some? && !HasPassword(ByEmail(users, email).value)
    ensures Login(users, email, password, c1, expiry, reqSecure, proto)
              == Login(users, email, password, c2, expiry, reqSecure, proto)
              == Refused(401, GoogleOnly)
  {
  }

  /** Someone who has just registered can log in with the same email and
      password, as the new account, provided the hash oracle's output is
      accepted by the comparison oracle. */
  lemma RegisterThenLogin(users: Users, username: string, email: string, password: string,
                          hash: string -> string, compare: (string, string) -> bool,
                          newId: nat, now: int, expiry: Option<string>,
                          reqSecure: bool, proto: Option<string>)
    requires FreshId(users, newId)
    requires Register(users, username, email, password, hash, newId, now, expiry, reqSecure, proto).SignedIn?
    requires hash(password) != "" && compare(password, hash(password))
    ensures var after := Register(users, username, email, password, hash, newId, now, expiry,
                                  reqSecure, proto).users;
            var r := Login(after, email, password, compare, expiry, reqSecure, proto);
            r.SignedIn? && r.user.id == newId && r.token.userId == newId
  {
    var reg := Register(users, username, email, password, hash, newId, now, expiry, reqSecure, proto);
    var after := reg.users;
    var u := User(newId, username, email, Some(hash(password)), None, None, now);
    assert after == users + [u];
    ByEmailAppend(users, u, email);
  }

  /** With no earlier row having the email, the first row with it is the
      appended one. */
  lemma ByEmailAppend(users: Users, u: User, email: string)
    requires forall v :: v in users ==> v.email != email
    requires u.email == email
    ensures ByEmail(users + [u], email) == Some(u)
  {
    var all := users + [u];
    var k := FindFirst(all, (v: User) => v.email == email);
    assert all[|users|] == u;
    assert forall i :: 0 <= i < |users| ==> all[i] == users[i];
    assert k == |users|;
  }
}

=== FILE: auth_middleware.dfy ===
/** `backend/middleware/auth.js`: the mandatory `authMiddleware` and the
    lenient `optionalAuth`. Token verification is an oracle; the user lookup
    reads the abstract `users` table. */
module AuthMiddleware {
  import opened Options
  import opened Strings
  import opened Store

  /** What `jwt.verify` does with a token: decode it, or throw one of the
      named errors. */
  datatype Verified =
    | Decoded(userId: nat)
    | JsonWebTokenError
    | TokenExpiredError
    | OtherError

  /** The parts of a request the middleware could read. Only the
      `authorization` header is consulted; the cookies are there to show
      they are not. */
  datatype Request = Request(headers: map<string, string>, cookies: map<string, string>)

  function Authorization(req: Request): Option<string> {
    if "authorization" in req.headers then Some(req.headers["authorization"]) else None
  }

  /** The bearer token of the header, in the shape of section 2.1 of RFC
      6750: absent unless the header is present, non-empty and starts with
      `Bearer ` (case-sensitive); then the second space-separated segment. */
  function BearerToken(header: Option<string>): (r: Option<string>)
    ensures r.Some? <==> header.Some? && StartsWith(header.value, "Bearer ")
  {
    if header.None? || header.value == "" || !StartsWith(header.value, "Bearer ") then None
    else
      var parts := Split(header.value, ' ');
      assert header.value == "Bearer" + [' '] + header.value[7..];
      SplitAfterWord("Bearer", ' ', header.value[7..]);
      Some(parts[1])
  }

  /** The token is the text after `Bearer ` up to the next space (all of it
      when there is none). */
  lemma BearerTokenIsFirstWord(rest: string)
    ensures BearerToken(Some("Bearer " + rest)) == Some(Split(rest, ' ')[0])
    ensures ' ' !in rest ==> BearerToken(Some("Bearer " + rest)) == Some(rest)
  {
    var h := "Bearer " + rest;
    assert h == "Bearer" + [' '] + rest;
    assert h[7..] == rest;
    SplitAfterWord("Bearer", ' ', rest);
    if ' ' !in rest {
      SplitNoSeparator(rest, ' ');
    }
  }

  /** A lowercase scheme is not accepted. */
  lemma SchemeIsCaseSensitive(rest: string)
    ensures BearerToken(Some("bearer " + rest)).None?
  {
    assert ("bearer " + rest)[0] == 'b';
  }

  /** What `authMiddleware` does with the request. */
  datatype AuthOutcome =
    | Reject(status: nat, message: string)
    | Accept(user: PublicUser)           // `req.user` set, `next()` called

  function AuthMiddleware(req: Request, verify: string -> Verified, users: Users): (r: AuthOutcome)
    ensures BearerToken(Authorization(req)).None? ==>
              r == Reject(401, "Access denied. No token provided.")
    ensures r.Accept? ==>
              && BearerToken(Authorization(req)).Some?
              && verify(BearerToken(Authorization(req)).value).Decoded?
              && exists u :: u in users
                   && u.id == verify(BearerToken(Authorization(req)).value).userId
                   && r.user == Public(u)
    ensures r.Reject? ==> r.status == 401 || r.status == 500
    ensures r == Reject(500, "Server error during authentication.") ==>
              verify(BearerToken(Authorization(req)).value) == OtherError
    ensures BearerToken(Authorization(req)).Some? ==>
              var v := verify(BearerToken(Authorization(req)).value);
              && (v == JsonWebTokenError ==> r == Reject(401, "Invalid token."))
              && (v == TokenExpiredError ==> r == Reject(401, "Token expired."))
              && (v == OtherError ==> r == Reject(500, "Server error during authentication."))
              && (v.Decoded? && (forall u :: u in users ==> u.id != v.userId) ==>
                    r == Reject(401, "Invalid token. User not found."))
              && (v.Decoded? && (exists u :: u in users && u.id == v.userId) ==>
                    r == Accept(Public(ById(users, v.userId).value)))
  {
    match BearerToken(Authorization(req))
    case None => Reject(401, "Access denied. No token provided.")
    case Some(token) =>
      match verify(token)
      case JsonWebTokenError => Reject(401, "Invalid token.")
      case TokenExpiredError => Reject(401, "Token expired.")
      case OtherError => Reject(500, "Server error during authentication.")
      case Decoded(id) =>
        match ById(users, id)
        case None => Reject(401, "Invalid token. User not found.")
        case Some(u) => Accept(Public(u))
  }

  /** `optionalAuth`: never rejects; `req.user` is the user or `null`. */
  function OptionalAuth(req: Request, verify: string -> Verified, users: Users): (r: Option<PublicUser>)
    ensures BearerToken(Authorization(req)).None? ==> r.None?
    ensures r.Some? <==>
              && BearerToken(Authorization(req)).Some?
              && verify(BearerToken(Authorization(req)).value).Decoded?
              && exists u :: u in users && u.id == verify(BearerToken(Authorization(req)).value).userId
    ensures r.Some? ==>
              r.value == Public(ById(users, verify(BearerToken(Authorization(req)).value).userId).value)
  {
    match BearerToken(Authorization(req))
    case None => None
    case Some(token) =>
      match verify(token)
      case Decoded(id) =>
        (match ById(users, id)
         case None => None
         case Some(u) => Some(Public(u)))
      case _ => None
  }

  /** The optional guard attaches a user exactly when the mandatory guard
      would accept the request, and the same user. */
  lemma OptionalAgreesWithMandatory(req: Request, verify: string -> Verified, users: Users)
    ensures OptionalAuth(req, verify, users).Some? <==> AuthMiddleware(req, verify, users).Accept?
    ensures AuthMiddleware(req, verify, users).Accept? ==>
              OptionalAuth(req, verify, users) == Some(AuthMiddleware(req, verify, users).user)
  {
  }

  /** Cookies play no part: a request carrying the session cookie but no
      header is refused, and requests that differ only in cookies get the
      same outcome. */
  lemma CookiesIgnored(headers: map<string, string>, c1: map<string, string>, c2: map<string, string>,
                       verify: string -> Verified, users: Users)
    ensures AuthMiddleware(Request(headers, c1), verify, users)
              == AuthMiddleware(Request(headers, c2), verify, users)
    ensures OptionalAuth(Request(headers, c1), verify, users)
              == OptionalAuth(Request(headers, c2), verify, users)
    ensures "authorization" !in headers ==>
              AuthMiddleware(Request(headers, c1), verify, users).Reject?
  {
  }
}

=== FILE: automation_page.dfy ===
/** The automation page of `frontend/js/automation.js`: the scraping trigger
    and its guard, the job log list with its newest-first order, the copy
    of the log kept in local storage and the status icons. The clock and the
    backend's answer are inputs; local storage holds a value, not text. */
module AutomationPage {
  import opened Options
  import opened Strings

  /** Logs persisted by `saveLogs`. */
  const SavedLogs: nat := 20

  /** One row of the log table. */
  datatype Log = Log(status: string, jobId: string, trigger: string, city: string, keyword: string, time: string)

  /** The page's state: `scrapingLogs`, what local storage holds under
      `scrapingLogs`, whether the trigger button is disabled, and the "last
      run" line. */
  datatype Automation = Automation(logs: seq<Log>, stored: Option<seq<Log>>, disabled: bool, lastRun: Option<string>)

  /** The digit of value `d` in base 36, as `Number.prototype.toString(36)`
      writes it. */
  function Base36Digit(d: nat): (c: char)
    requires d < 36
  {
    if d < 10 then ('0' as int + d) as char else ('a' as int + d - 10) as char
  }

  predicate IsBase36Digit(c: char) {
    '0' <= c <= '9' || 'a' <= c <= 'z'
  }

  function Base36Value(c: char): (d: nat)
    requires IsBase36Digit(c)
    ensures d < 36 && Base36Digit(d) == c
  {
    if '0' <= c <= '9' then c as int - '0' as int else c as int - 'a' as int + 10
  }

  /** `n.toString(36)` */
  function ToBase36(n: nat): (r: string)
    ensures |r| > 0 && forall i :: 0 <= i < |r| ==> IsBase36Digit(r[i])
  {
    var last := Base36Digit(n % 36);
    if n < 36 then [last] else ToBase36(n / 36) + [last]
  }

  /** The number a base-36 numeral denotes. */
  function FromBase36(s: string): nat
    requires forall i :: 0 <= i < |s| ==> IsBase36Digit(s[i])
  {
    if |s| == 0 then 0
    else
      assert IsBase36Digit(s[|s| - 1]);
      FromBase36(s[..|s| - 1]) * 36 + Base36Value(s[|s| - 1])
  }

  /** Reading the numeral back gives the number. */
  lemma {:induction false} Base36RoundTrip(n: nat)
    ensures FromBase36(ToBase36(n)) == n
  {
    var r := ToBase36(n);
    var d := Base36Digit(n % 36);
    assert Base36Value(d) == n % 36 by {
      assert Base36Digit(Base36Value(d)) == d;
      Base36DigitInjective(Base36Value(d), n % 36);
    }
    if n >= 36 {
      assert r[..|r| - 1] == ToBase36(n / 36);
      Base36RoundTrip(n / 36);
    }
  }

  lemma Base36DigitInjective(a: nat, b: nat)
    requires a < 36 && b < 36 && Base36Digit(a) == Base36Digit(b)
    ensures a == b
  {
  }

  /** `#job_${Date.now().toString(36)}` */
  function JobId(now: nat): string {
    "#job_" + ToBase36(now)
  }

  /** Jobs started at different milliseconds get different ids. */
  lemma JobIdsDistinct(t1: nat, t2: nat)
    requires t1 != t2
    ensures JobId(t1) != JobId(t2)
  {
    Base36RoundTrip(t1);
    Base36RoundTrip(t2);
    assert JobId(t1)[5..] == ToBase36(t1);
    assert JobId(t2)[5..] == ToBase36(t2);
  }

  /** The log row a finished trigger adds. */
  function JobLog(status: string, now: nat, city: string, keyword: string): Log {
    Log(status, JobId(now), "Manual Trigger", city, keyword, "Just now")
  }

  /** `addLogEntry`: the newest entry first, nothing persisted. */
  function AddLogEntry(a: Automation, log: Log): (r: Automation)
    ensures |r.logs| == |a.logs| + 1 && r.logs[0] == log && r.logs[1..] == a.logs
    ensures r.stored == a.stored
  {
    a.(logs := [log] + a.logs)
  }

  /** `saveLogs`: the twenty newest entries. */
  function SaveLogs(logs: seq<Log>): (r: seq<Log>)
    ensures |r| == if |logs| < SavedLogs then |logs| else SavedLogs
    ensures r <= logs
  {
    if |logs| < SavedLogs then logs else logs[..SavedLogs]
  }

  /** `window.addLogEntry`: add, then persist. */
  function AddAndSave(a: Automation, log: Log): (r: Automation)
    ensures r.logs == AddLogEntry(a, log).logs
    ensures r.stored == Some(SaveLogs(r.logs))
  {
    var added := AddLogEntry(a, log);
    added.(stored := Some(SaveLogs(added.logs)))
  }

  /** `loadScrapingLogs` on a fresh page: the stored list when there is one. */
  function LoadLogs(stored: Option<seq<Log>>): (r: seq<Log>)
    ensures stored.Some? ==> r == stored.value
    ensures stored.None? ==> r == []
  {
    if stored.Some? then stored.value else []
  }

  /** After a persisted entry, reloading the page shows the twenty newest
      entries, the new one first. */
  lemma ReloadAfterSave(a: Automation, log: Log)
    ensures var shown := LoadLogs(AddAndSave(a, log).stored);
            |shown| <= SavedLogs && shown[0] == log && shown <= [log] + a.logs
  {
  }

  /** What `api.triggerScraping` resolved to: a thrown error, or the
      answer's `success`, `message` and `sheetUrl`. */
  datatype ScrapeResponse = Threw(error: string) | Answered(success: bool, message: Option<string>, sheetUrl: Option<string>)

  /** What a click on the trigger led to: the request sent (if any) and the
      sheet opened (if any). */
  datatype Triggered = Triggered(page: Automation, request: Option<Job>, sheet: Option<string>)

  /** The body posted to the scraping endpoint. */
  datatype Job = Job(city: string, keyword: string)

  /** `triggerScraping` with the two inputs' text, the clock at the answer
      and the answer. The in-file `addLogEntry` is the unwrapped one. */
  function TriggerScraping(a: Automation, cityInput: string, keywordInput: string, now: nat,
                           resp: ScrapeResponse): (r: Triggered)
    ensures r.request.None? <==> Trim(cityInput) == "" || Trim(keywordInput) == ""
    ensures r.request.None? ==> r.page == a && r.sheet.None?
    ensures r.request.Some? ==> r.request.value == Job(Trim(cityInput), Trim(keywordInput)) && !r.page.disabled
    ensures r.page.stored == a.stored
    ensures r.request.Some? && resp.Threw? ==>
              r.page.logs == [JobLog("error", now, Trim(cityInput), Trim(keywordInput))] + a.logs
    ensures r.request.Some? && resp.Answered? && resp.success ==>
              r.page.logs == [JobLog("success", now, Trim(cityInput), Trim(keywordInput))] + a.logs
    ensures resp.Answered? && !resp.success ==> r.page.logs == a.logs && r.sheet.None?
    ensures r.sheet.Some? ==> resp.Answered? && resp.success && r.sheet == resp.sheetUrl
  {
    var city := Trim(cityInput);
    var keyword := Trim(keywordInput);
    if city == "" || keyword == "" then Triggered(a, None, None)
    else
      var request := Some(Job(city, keyword));
      match resp
      case Threw(_) =>
        Triggered(AddLogEntry(a, JobLog("error", now, city, keyword)).(disabled := false), request, None)
      case Answered(success, message, sheetUrl) =>
        if !success then Triggered(a.(disabled := false), request, None)
        else
          var run := if message.Some? && message.value != "" then message.value else "Processing";
          var logged := AddLogEntry(a.(lastRun := Some(run)), JobLog("success", now, city, keyword));
          Triggered(logged.(disabled := false), request,
                    if sheetUrl.Some? && sheetUrl.value != "" then sheetUrl else None)
  }

  /** A trigger's own log row is lost on reload: the page never persists it. */
  lemma TriggerLogNotPersisted(a: Automation, city: string, keyword: string, now: nat, resp: ScrapeResponse)
    ensures LoadLogs(TriggerScraping(a, city, keyword, now, resp).page.stored) == LoadLogs(a.stored)
  {
  }

  /** The status column's icon. */
  function StatusIcon(status: string): (r: string)
    ensures r == "check_circle" <==> status == "success"
    ensures r == "warning" <==> status == "warning"
    ensures r == "error" <==> status != "success" && status != "warning"
  {
    if status == "success" then "check_circle" else if status == "warning" then "warning" else "error"
  }

  /** The keyword a link from an event pre-fills. */
  function KeywordFromLink(eventId: Option<string>, keyword: string): (r: string)
    ensures eventId.Some? && eventId.value != "" ==> r == "event venues"
    ensures eventId.None? || eventId.value == "" ==> r == keyword
  {
    if eventId.Some? && eventId.value != "" then "event venues" else keyword
  }
}

=== FILE: cors.dfy ===
/** The CORS origin policy of `backend/server.js`: the fixed list of
    development and deployment origins, the optional `FRONTEND_URL`, and the
    pattern rules that admit any Vercel preview. The `Origin` header is
    `None` when the request carries none. */
module Cors {
  import opened Options
  import opened Strings

  const DeployedOrigin := "https://gestion-dvnements-git-main-amin3aliouas-projects-6c824046.vercel.app"

  const FixedOrigins: seq<string> := [
    "http://localhost:5500",
    "http://127.0.0.1:5500",
    "http://localhost:3000",
    "http://127.0.0.1:3000",
    DeployedOrigin
  ]

  /** The list after `.filter(Boolean)`: `FRONTEND_URL` joins it only when
      set to a non-empty string. */
  function AllowedOrigins(frontendUrl: Option<string>): (r: seq<string>)
    ensures |r| >= |FixedOrigins| && r[..|FixedOrigins|] == FixedOrigins
    ensures forall o :: o in r ==> o != ""
    ensures frontendUrl.Some? && frontendUrl.value != "" <==> |r| == |FixedOrigins| + 1
    ensures |r| == |FixedOrigins| + 1 ==> r[|FixedOrigins|] == frontendUrl.value
  {
    FixedOrigins + (if frontendUrl.Some? && frontendUrl.value != "" then [frontendUrl.value] else [])
  }

  /** The `origin` callback's verdict. */
  function OriginAllowed(origin: Option<string>, frontendUrl: Option<string>): (r: bool)
    ensures origin.None? || origin.value == "" ==> r
  {
    match origin
    case None => true
    case Some(o) =>
      o == "" || o in AllowedOrigins(frontendUrl) || EndsWith(o, ".vercel.app") || Contains(o, "gestion-dvnements")
  }

  /** The origins the policy admits, stated without the list: no origin, one
      of the local development servers, the configured frontend, or anything
      looking like a Vercel deployment of this project. */
  lemma OriginAllowedIff(origin: Option<string>, frontendUrl: Option<string>)
    ensures OriginAllowed(origin, frontendUrl) <==>
              || origin.None? || origin.value == ""
              || origin.value in FixedOrigins[..4]
              || (frontendUrl.Some? && origin.value == frontendUrl.value)
              || EndsWith(origin.value, ".vercel.app")
              || Contains(origin.value, "gestion-dvnements")
  {
    if origin.Some? && origin.value == DeployedOrigin {
      assert EndsWith(DeployedOrigin, ".vercel.app");
    }
    var list := AllowedOrigins(frontendUrl);
    assert list == FixedOrigins[..4] + [DeployedOrigin] + list[|FixedOrigins|..];
  }

  /** Every Vercel deployment is admitted whatever `FRONTEND_URL` says; the
      listed deployment URL is one of them. */
  lemma VercelAlwaysAllowed(o: string, f1: Option<string>, f2: Option<string>)
    requires EndsWith(o, ".vercel.app")
    ensures OriginAllowed(Some(o), f1) && OriginAllowed(Some(o), f2)
  {
  }

  /** The configured frontend is admitted. */
  lemma FrontendAllowed(url: string)
    ensures OriginAllowed(Some(url), Some(url))
  {
    if url != "" {
      assert AllowedOrigins(Some(url))[|FixedOrigins|] == url;
    }
  }

  /** A string without the first character of `t` does not contain `t`. */
  lemma MissingFirst(s: string, t: string)
    requires |t| > 0 && t[0] !in s
    ensures !Contains(s, t)
  {
    forall i | 0 <= i <= |s| - |t|
      ensures !OccursAt(s, t, i)
    {
      assert s[i..i + |t|][0] == s[i] != t[0];
    }
    ContainsIff(s, t);
  }

  /** Any other site is refused when no frontend is configured. */
  lemma OtherSiteRefused()
    ensures !OriginAllowed(Some(ExampleSite), None)
  {
    ExampleSiteUnmatched();
  }

  const ExampleSite := "https://example.com"

  lemma ExampleSiteUnmatched()
    ensures !Contains(ExampleSite, "gestion-dvnements")
    ensures !EndsWith(ExampleSite, ".vercel.app")
    ensures ExampleSite !in AllowedOrigins(None)
  {
    var o := ExampleSite;
    assert forall k :: 0 <= k < |o| ==> o[k] != 'g';
    MissingFirst(o, "gestion-dvnements");
    assert o[|o| - 1] == 'm';
    assert |o| == 19;
    assert forall k :: 0 <= k < |FixedOrigins| ==> |FixedOrigins[k]| > 19;
  }
}

=== FILE: event_controller.dfy ===
/** The event handlers of `backend/controllers/eventController.js`: the list
    query builder of `getEvents`, the favourite flags, the single-event read,
    the insert defaults of `createEvent`, and the guard order and dynamic SET
    list of `updateEvent` and `deleteEvent`. Query text keeps the MySQL-style
    `?` placeholders the handlers are written with. */
module EventController {
  import opened Options
  import opened Strings
  import opened Numbers
  import opened SqlText
  import opened Store

  /** A bound query parameter. */
  datatype Param = PText(s: string) | PNum(n: Number)

  const WhereBase := "WHERE 1=1"
  const SearchClause: seq<Fragment> :=
    [Sql(" AND (name LIKE "), Question, Sql(" OR location LIKE "), Question,
     Sql(" OR description LIKE "), Question, Sql(")")]
  const TypeClause: seq<Fragment> := [Sql(" AND type = "), Question]
  const StatusClause: seq<Fragment> := [Sql(" AND status = "), Question]

  /** Every literal the WHERE builder may emit. */
  const WhereTexts: set<string> :=
    {WhereBase, " AND (name LIKE ", " OR location LIKE ", " OR description LIKE ", ")",
     " AND type = ", " AND status = "}

  const ValidSortColumns: seq<string> := ["date", "name", "price", "created_at"]

  /** WHERE clause and its bound parameters. */
  datatype Filter = Filter(where: seq<Fragment>, params: seq<Param>)

  /** The search wildcard pattern `%search%`. */
  function Pattern(search: string): string {
    "%" + search + "%"
  }

  /** Placeholder counts of the fixed clauses. */
  lemma ClauseQuestions()
    ensures Questions(SearchClause) == 3
    ensures Questions(TypeClause) == 1 && Questions(StatusClause) == 1
  {
    var s := SearchClause;
    QuestionsSnoc(s[..0], s[0]);
    assert s[..1] == s[..0] + [s[0]];
    QuestionsSnoc(s[..1], s[1]);
    assert s[..2] == s[..1] + [s[1]];
    QuestionsSnoc(s[..2], s[2]);
    assert s[..3] == s[..2] + [s[2]];
    QuestionsSnoc(s[..3], s[3]);
    assert s[..4] == s[..3] + [s[3]];
    QuestionsSnoc(s[..4], s[4]);
    assert s[..5] == s[..4] + [s[4]];
    QuestionsSnoc(s[..5], s[5]);
    assert s[..6] == s[..5] + [s[5]];
    QuestionsSnoc(s[..6], s[6]);
    assert s == s[..6] + [s[6]];
    PairQuestions(Sql(" AND type = "));
    PairQuestions(Sql(" AND status = "));
  }

  /** A literal piece followed by one placeholder. */
  lemma PairQuestions(f: Fragment)
    requires f.Sql?
    ensures Questions([f, Question]) == 1
  {
    QuestionsSnoc([f], Question);
    assert [f, Question] == [f] + [Question];
    QuestionsSnoc([], f);
    assert [f] == [] + [f];
  }

  /** The WHERE clause of `getEvents`: search, then type, then status, each
      only when non-empty. */
  function EventsFilter(search: string, kind: string, status: string): (f: Filter)
    ensures f.where == [Sql(WhereBase)] + Bound(search != "", SearchClause) + Bound(kind != "", TypeClause)
                       + Bound(status != "", StatusClause)
    ensures Questions(f.where) == |f.params|
    ensures f.params == Bound(search != "", SearchValues(search)) + Bound(kind != "", [PText(kind)])
                        + Bound(status != "", [PText(status)])
    ensures OnlyFixedText(f.where, WhereTexts)
  {
    ClauseQuestions();
    ClauseTexts();
    var base := Filter([Sql(WhereBase)], []);
    QuestionsSnoc([], Sql(WhereBase));
    assert base.where == [] + [Sql(WhereBase)];
    var f1 := AndClause(base, search != "", SearchClause, SearchValues(search));
    var f2 := AndClause(f1, kind != "", TypeClause, [PText(kind)]);
    var f3 := AndClause(f2, status != "", StatusClause, [PText(status)]);
    assert f1.params == Bound(search != "", SearchValues(search));
    f3
  }

  /** The three values of the search clause, one per column. */
  function SearchValues(search: string): seq<Param> {
    [PText(Pattern(search)), PText(Pattern(search)), PText(Pattern(search))]
  }

  /** An optional clause or its values: present only when `on`. */
  function Bound<T>(on: bool, s: seq<T>): seq<T> {
    if on then s else []
  }

  /** The parameters line up with the placeholders: the search pattern three
      times first, then the type, then the status, each only when set. */
  lemma EventsFilterParams(search: string, kind: string, status: string)
    ensures var ps := EventsFilter(search, kind, status).params;
            && |ps| == (if search != "" then 3 else 0) + (if kind != "" then 1 else 0)
                       + (if status != "" then 1 else 0)
            && (search != "" ==> ps[0] == ps[1] == ps[2] == PText(Pattern(search)))
            && (kind != "" ==> ps[if search != "" then 3 else 0] == PText(kind))
            && (status != "" ==> ps[|ps| - 1] == PText(status))
  {
  }

  /** The fixed clauses only hold WHERE literals. */
  lemma ClauseTexts()
    ensures OnlyFixedText(SearchClause, WhereTexts)
    ensures OnlyFixedText(TypeClause, WhereTexts) && OnlyFixedText(StatusClause, WhereTexts)
  {
  }

  /** One optional `AND` clause and its values, appended when `on`. */
  function AndClause(f: Filter, on: bool, clause: seq<Fragment>, values: seq<Param>): (r: Filter)
    requires Questions(f.where) == |f.params| && Questions(clause) == |values|
    requires OnlyFixedText(f.where, WhereTexts) && OnlyFixedText(clause, WhereTexts)
    ensures r.where == f.where + Bound(on, clause)
    ensures r.params == f.params + Bound(on, values)
    ensures Questions(r.where) == |r.params|
    ensures OnlyFixedText(r.where, WhereTexts)
  {
    QuestionsAppend(f.where, clause);
    if on then Filter(f.where + clause, f.params + values) else f
  }

  /** The WHERE text depends only on which filters are present, never on
      their values: request text reaches the database only as bound
      parameters. */
  lemma WhereIgnoresValues(s1: string, k1: string, t1: string, s2: string, k2: string, t2: string)
    requires (s1 == "") == (s2 == "") && (k1 == "") == (k2 == "") && (t1 == "") == (t2 == "")
    ensures EventsFilter(s1, k1, t1).where == EventsFilter(s2, k2, t2).where
  {
  }

  /** `validSortColumns.includes(sort) ? sort : 'date'` */
  function SortColumn(sort: string): (r: string)
    ensures r in ValidSortColumns
    ensures r == sort || r == "date"
    ensures sort !in ValidSortColumns ==> r == "date"
  {
    if sort in ValidSortColumns then sort else "date"
  }

  /** `order.toUpperCase() === 'DESC' ? 'DESC' : 'ASC'` */
  function SortOrder(order: string): (r: string)
    ensures r == "ASC" || r == "DESC"
    ensures r == "DESC" <==> ToUpper(order) == "DESC"
  {
    if ToUpper(order) == "DESC" then "DESC" else "ASC"
  }

  /** Lower- and mixed-case spellings of `desc` all sort descending. */
  lemma SortOrderIgnoresCase()
    ensures SortOrder("desc") == "DESC" && SortOrder("Desc") == "DESC"
    ensures SortOrder("descending") == "ASC"
  {
    assert ToUpper("desc") == "DESC";
    assert ToUpper("Desc") == "DESC";
    assert |ToUpper("descending")| != |"DESC"|;
  }

  /** The two queries `getEvents` sends and the pagination numbers it
      reports. */
  datatype ListPlan = ListPlan(
    where: seq<Fragment>,
    params: seq<Param>,
    column: string,
    order: string,
    pageParams: seq<Param>,
    page: Number,
    limit: Number,
    offset: Number)
  {
    function CountSql(): seq<Fragment> {
      CountHead + where
    }

    function PageSql(): seq<Fragment> {
      PageHead + where + PageTail(column, order)
    }
  }

  const CountHead: seq<Fragment> := [Sql("SELECT COUNT(*) as total FROM events ")]
  const PageHead: seq<Fragment> :=
    [Sql("SELECT e.*, u.username as creator_username, u.avatar as creator_avatar FROM events e LEFT JOIN users u ON e.creator_id = u.id ")]

  function PageTail(column: string, order: string): seq<Fragment> {
    [Sql(" ORDER BY " + column + " " + order + " LIMIT "), Question, Sql(" OFFSET "), Question]
  }

  lemma PageTailQuestions(column: string, order: string)
    ensures Questions(PageTail(column, order)) == 2
  {
    var t := PageTail(column, order);
    PairQuestions(t[0]);
    assert t[..2] == [t[0], Question];
    QuestionsSnoc(t[..2], t[2]);
    assert t[..3] == t[..2] + [t[2]];
    QuestionsSnoc(t[..3], t[3]);
    assert t == t[..3] + [t[3]];
  }

  /** Both queries carry as many placeholders as they are given values: the
      count query the filter values, the page query those plus limit and
      offset. */
  lemma PlanPlaceholders(p: ListPlan)
    requires Questions(p.where) == |p.params|
    requires p.pageParams == p.params + [PNum(p.limit), PNum(p.offset)]
    ensures Questions(p.CountSql()) == |p.params|
    ensures Questions(p.PageSql()) == |p.pageParams|
  {
    QuestionsSnoc([], CountHead[0]);
    assert CountHead == [] + [CountHead[0]];
    QuestionsSnoc([], PageHead[0]);
    assert PageHead == [] + [PageHead[0]];
    QuestionsAppend(CountHead, p.where);
    QuestionsAppend(PageHead, p.where);
    QuestionsAppend(PageHead + p.where, PageTail(p.column, p.order));
    PageTailQuestions(p.column, p.order);
  }

  /** `getEvents` up to the two queries. The query string's absent keys take
      the destructuring defaults (page 1, limit 6, sort `date`, order
      `ASC`); `parseInt` has no fallback, so `page=abc` gives `NaN`. */
  function GetEventsPlan(query: map<string, string>): (p: ListPlan)
    ensures Questions(p.where) == |p.params|
    ensures p.pageParams == p.params + [PNum(p.limit), PNum(p.offset)]
    ensures p.column in ValidSortColumns && (p.order == "ASC" || p.order == "DESC")
    ensures p.page == ParseInt(QueryValue(query, "page", "1"))
    ensures p.limit == ParseInt(QueryValue(query, "limit", "6"))
    ensures p.offset == Offset(p.page, p.limit)
  {
    var f := EventsFilter(QueryValue(query, "search", ""), QueryValue(query, "type", ""),
                          QueryValue(query, "status", ""));
    var paging := ReadPaging(query, "1", "6");
    ListPlan(f.where, f.params, SortColumn(QueryValue(query, "sort", "date")),
             SortOrder(QueryValue(query, "order", "ASC")),
             f.params + [PNum(paging.limit), PNum(paging.offset)], paging.page, paging.limit, paging.offset)
  }

  /** Every `getEvents` plan binds exactly one value per placeholder in both
      queries. */
  lemma EventsPlanPlaceholders(query: map<string, string>)
    ensures Questions(GetEventsPlan(query).CountSql()) == |GetEventsPlan(query).params|
    ensures Questions(GetEventsPlan(query).PageSql()) == |GetEventsPlan(query).pageParams|
  {
    PlanPlaceholders(GetEventsPlan(query));
  }

  /** Absent page and limit give page 1, limit 6 and offset 0. */
  lemma DefaultEventsPage(query: map<string, string>)
    requires "page" !in query && "limit" !in query
    ensures GetEventsPlan(query).page == Finite(1)
    ensures GetEventsPlan(query).limit == Finite(6)
    ensures GetEventsPlan(query).offset == Finite(0)
  {
    assert NatToString(1) == "1";
    assert NatToString(6) == "6";
    ParseIntNatToString(1);
    ParseIntNatToString(6);
    var p := GetEventsPlan(query);
    assert p.page == ParseInt("1") && p.limit == ParseInt("6");
  }

  /** An event row as returned to the client. */
  datatype EventRow = EventRow(id: nat, event: Event, isFavorite: bool)

  /** The favourite flags: with a caller, `isFavorite` is membership of the
      event id in the caller's favourites; without one it is `false`. */
  function MarkFavorites(rows: seq<(nat, Event)>, caller: Option<nat>, favorites: Favorites)
    : (r: seq<EventRow>)
    ensures |r| == |rows|
    ensures forall i :: 0 <= i < |r| ==> r[i].id == rows[i].0 && r[i].event == rows[i].1
    ensures forall i :: 0 <= i < |r| ==>
              (r[i].isFavorite <==> caller.Some? && (caller.value, rows[i].0) in favorites)
  {
    var ids := if caller.Some? then set p | p in favorites && p.0 == caller.value :: p.1 else {};
    seq(|rows|, i requires 0 <= i < |rows| => EventRow(rows[i].0, rows[i].1, rows[i].0 in ids))
  }

  /** An anonymous caller sees no event marked as favourite. */
  lemma AnonymousSeesNoFavorites(rows: seq<(nat, Event)>, favorites: Favorites)
    ensures forall r :: r in MarkFavorites(rows, None, favorites) ==> !r.isFavorite
  {
  }

  /** The JSON body of a list response. */
  datatype ListResponse = ListResponse(
    data: seq<EventRow>, page: Number, limit: Number, total: nat, totalPages: Number)

  /** `getEvents` once the database has answered the two queries with the
      page rows `rows` and the count `total`. `None` is the 500 answer the
      page query ends in when its `LIMIT` or `OFFSET` value is `NaN` or
      negative, as for `page=0`, `page=abc` or `limit=-1`. */
  function GetEvents(query: map<string, string>, caller: Option<nat>, favorites: Favorites,
                     rows: seq<(nat, Event)>, total: nat): (r: Option<ListResponse>)
    ensures r.Some? <==> Bindable(ReadPaging(query, "1", "6"))
    ensures r.Some? ==>
              && r.value.data == MarkFavorites(rows, caller, favorites)
              && r.value.page == GetEventsPlan(query).page
              && r.value.limit == GetEventsPlan(query).limit
              && r.value.total == total
    ensures r.Some? && r.value.limit.v > 0 ==>
              r.value.totalPages.Finite? && (r.value.totalPages.v - 1) * r.value.limit.v < total <= r.value.totalPages.v * r.value.limit.v
    ensures r.Some? && r.value.limit.v == 0 ==> r.value.totalPages == (if total == 0 then NaN else Infinity)
  {
    var plan := GetEventsPlan(query);
    if !Bindable(ReadPaging(query, "1", "6")) then None
    else Some(ListResponse(MarkFavorites(rows, caller, favorites), plan.page, plan.limit, total,
                           TotalPages(total, plan.limit)))
  }

  /** `?page=0` puts a negative `OFFSET` in the page query: the answer is
      the 500, not an empty page. */
  lemma PageZeroFails(caller: Option<nat>, favorites: Favorites, rows: seq<(nat, Event)>, total: nat)
    ensures GetEvents(map["page" := "0"], caller, favorites, rows, total).None?
  {
    assert NatToString(0) == "0";
    assert NatToString(6) == "6";
    ParseIntNatToString(0);
    ParseIntNatToString(6);
    assert ReadPaging(map["page" := "0"], "1", "6").offset == Finite(-6);
  }

  datatype Status = Ok200 | Created201 | BadRequest400 | Forbidden403 | NotFound404

  /** `getEventById`: 404 for an unknown id; otherwise the row with its
      favourite flag. */
  function GetEventById(events: Events, id: nat, caller: Option<nat>, favorites: Favorites)
    : (r: Result)
    ensures r.status == NotFound404 <==> id !in events
    ensures id in events ==> r.row == Some(EventRow(id, events[id],
                                caller.Some? && (caller.value, id) in favorites))
  {
    if id !in events then Result(NotFound404, None)
    else Result(Ok200, Some(EventRow(id, events[id], caller.Some? && (caller.value, id) in favorites)))
  }

  datatype Result = Result(status: Status, row: Option<EventRow>)

  /** Value of `body[key]`; an absent key binds as SQL NULL. */
  function Col(body: map<string, Value>, key: string): Value {
    if key in body then body[key] else Null
  }

  /** JavaScript's `value || fallback`. */
  function Or(value: Value, fallback: Value): Value {
    if Truthy(value) then value else fallback
  }

  /** The value `createEvent` binds for column `f`. */
  function Column(body: map<string, Value>, f: string): Value {
    if f in Defaults then Or(Col(body, f), Defaults[f]) else Col(body, f)
  }

  /** The columns `createEvent` fills with `|| fallback`, and their
      fallbacks. */
  const Defaults: map<string, Value> :=
    map["description" := Null, "end_date" := Null, "capacity" := Int(100), "price" := Int(0),
        "status" := Text("upcoming"), "image" := Null]

  /** The row `createEvent` inserts for a validated body: description, end
      date and image fall back to NULL, capacity to 100, price to 0 and
      status to `upcoming` whenever the supplied value is falsy; the other
      columns bind as supplied; the creator is the caller. */
  function NewEvent(body: map<string, Value>, caller: nat): (e: Event)
    ensures e.creatorId == caller
    ensures e.fields.Keys == set f | f in AllowedFields
    ensures forall f :: f in AllowedFields && f !in Defaults ==> e.fields[f] == Col(body, f)
    ensures forall f :: f in Defaults && f in body && Truthy(body[f]) ==> e.fields[f] == body[f]
    ensures forall f :: f in Defaults && !(f in body && Truthy(body[f])) ==> e.fields[f] == Defaults[f]
    ensures Truthy(e.fields["capacity"]) && Truthy(e.fields["status"])
  {
    Event(caller, map f | f in AllowedFields :: Column(body, f))
  }

  /** `createEvent`: the new row is stored under the id the database
      assigns; nothing else changes. */
  function CreateEvent(events: Events, body: map<string, Value>, caller: nat, newId: nat)
    : (r: Events)
    requires newId !in events
    ensures r.Keys == events.Keys + {newId}
    ensures forall id :: id in events ==> r[id] == events[id]
    ensures r[newId] == NewEvent(body, caller)
  {
    events[newId := NewEvent(body, caller)]
  }

  const AllowedFields: seq<string> :=
    ["name", "type", "description", "date", "end_date", "location", "capacity", "price",
     "status", "image"]

  /** No name occurs twice in `fields`. */
  predicate Distinct(fields: seq<string>) {
    forall i, j :: 0 <= i < j < |fields| ==> fields[i] != fields[j]
  }

  /** The fields of `fields` the body supplies (`!== undefined`; a `null`
      value counts as supplied), in the order of `fields`. */
  function Supplied(fields: seq<string>, body: map<string, Value>): seq<string> {
    if |fields| == 0 then []
    else Supplied(fields[..|fields| - 1], body)
         + (if fields[|fields| - 1] in body then [fields[|fields| - 1]] else [])
  }

  /** Exactly the supplied fields are listed. */
  lemma {:induction false} SuppliedMembers(fields: seq<string>, body: map<string, Value>)
    ensures forall f :: f in Supplied(fields, body) <==> f in fields && f in body
  {
    if |fields| > 0 {
      SuppliedMembers(fields[..|fields| - 1], body);
      assert fields == fields[..|fields| - 1] + [fields[|fields| - 1]];
    }
  }

  /** Position of `f` in `fields`. */
  function IndexIn(fields: seq<string>, f: string): (k: nat)
    requires f in fields
    ensures k < |fields| && fields[k] == f
    ensures forall i :: 0 <= i < k ==> fields[i] != f
  {
    if fields[0] == f then 0 else 1 + IndexIn(fields[1..], f)
  }

  lemma IndexInPrefix(init: seq<string>, last: string, f: string)
    requires f in init
    ensures IndexIn(init + [last], f) == IndexIn(init, f)
  {
    var k := IndexIn(init, f);
    assert (init + [last])[k] == f;
  }

  lemma IndexInLast(init: seq<string>, last: string)
    requires last !in init
    ensures IndexIn(init + [last], last) == |init|
  {
    assert (init + [last])[|init|] == last;
  }

  /** Over a list of distinct names the supplied fields appear in the list's
      order, each once. */
  lemma {:induction false} SuppliedOrdered(fields: seq<string>, body: map<string, Value>)
    requires Distinct(fields)
    ensures forall i, j :: 0 <= i < j < |Supplied(fields, body)| ==>
              Supplied(fields, body)[i] in fields && Supplied(fields, body)[j] in fields &&
              IndexIn(fields, Supplied(fields, body)[i]) < IndexIn(fields, Supplied(fields, body)[j])
  {
    if |fields| > 0 {
      var init := fields[..|fields| - 1];
      var last := fields[|fields| - 1];
      assert fields == init + [last];
      assert forall k :: 0 <= k < |init| ==> init[k] == fields[k];
      var s := Supplied(init, body);
      SuppliedOrdered(init, body);
      SuppliedMembers(init, body);
      var r := Supplied(fields, body);
      assert r[..|s|] == s;
      forall i, j | 0 <= i < j < |r|
        ensures r[i] in fields && r[j] in fields && IndexIn(fields, r[i]) < IndexIn(fields, r[j])
      {
        assert r[i] == s[i] && r[i] in s;
        IndexInPrefix(init, last, r[i]);
        if j < |s| {
          assert r[j] == s[j] && r[j] in s;
          IndexInPrefix(init, last, r[j]);
        } else {
          assert r[j] == last;
          IndexInLast(init, last);
        }
      }
      assert forall i, j :: 0 <= i < j < |r| ==>
              r[i] in fields && r[j] in fields && IndexIn(fields, r[i]) < IndexIn(fields, r[j]);
    } else {
      assert Supplied(fields, body) == [];
    }
  }

  /** `field = ?` for each name, joined by `, `. */
  function SetList(names: seq<string>): seq<Fragment> {
    if |names| == 0 then []
    else if |names| == 1 then [Sql(names[0] + " = "), Question]
    else SetList(names[..|names| - 1]) + [Sql(", "), Sql(names[|names| - 1] + " = "), Question]
  }

  /** The literal pieces `SetList` may emit for names drawn from `fields`. */
  function SetTexts(fields: seq<string>): set<string> {
    {", "} + set f | f in fields :: f + " = "
  }

  /** One placeholder per listed field, and only allow-listed column names
      reach the query text. */
  lemma {:induction false} SetListShape(names: seq<string>, fields: seq<string>)
    requires forall i :: 0 <= i < |names| ==> names[i] in fields
    ensures Questions(SetList(names)) == |names|
    ensures OnlyFixedText(SetList(names), SetTexts(fields))
  {
    if |names| > 1 {
      var init := names[..|names| - 1];
      SetListShape(init, fields);
      var tail := [Sql(", "), Sql(names[|names| - 1] + " = "), Question];
      QuestionsAppend(SetList(init), tail);
      PairQuestions(tail[1]);
      QuestionsSnoc([tail[0]], tail[1]);
      QuestionsSnoc([], tail[0]);
      assert [tail[0]] == [] + [tail[0]];
      QuestionsAppend([tail[0]], [tail[1], Question]);
      assert tail == [tail[0]] + [tail[1], Question];
    } else if |names| == 1 {
      PairQuestions(Sql(names[0] + " = "));
    }
  }

  /** What `updateEvent` answers, checked in this order. */
  datatype UpdateOutcome =
    | UpdateNotFound                  // 404 Event not found
    | UpdateForbidden                 // 403 not the creator
    | NothingToUpdate                 // 400 No valid fields to update
    | Updated(sql: seq<Fragment>, values: seq<Value>, events: Events)

  function UpdateSql(names: seq<string>): seq<Fragment> {
    [Sql("UPDATE events SET ")] + SetList(names) + [Sql(" WHERE id = "), Question]
  }

  function FieldValues(names: seq<string>, body: map<string, Value>): (r: seq<Value>)
    requires forall i :: 0 <= i < |names| ==> names[i] in body
    ensures |r| == |names|
    ensures forall i :: 0 <= i < |r| ==> r[i] == body[names[i]]
  {
    seq(|names|, i requires 0 <= i < |names| => body[names[i]])
  }

  /** `updateEvent` on a validated body by the caller `caller`. */
  function UpdateEvent(events: Events, id: nat, caller: nat, body: map<string, Value>)
    : (r: UpdateOutcome)
    ensures r.UpdateNotFound? <==> id !in events
    ensures r.UpdateForbidden? <==> id in events && events[id].creatorId != caller
    ensures r.NothingToUpdate? <==>
              id in events && events[id].creatorId == caller
              && forall f :: f in AllowedFields ==> f !in body
    ensures r.Updated? ==>
              && Questions(r.sql) == |r.values|
              && |r.values| >= 2 && r.values[|r.values| - 1] == Int(id)
              && r.sql == UpdateSql(Supplied(AllowedFields, body))
              && |r.values| == |Supplied(AllowedFields, body)| + 1
              && (forall i :: 0 <= i < |r.values| - 1 ==>
                    Supplied(AllowedFields, body)[i] in body
                    && r.values[i] == body[Supplied(AllowedFields, body)[i]])
              && r.events.Keys == events.Keys
              && (forall k :: k in events && k != id ==> r.events[k] == events[k])
              && r.events[id].creatorId == events[id].creatorId
              && (forall f :: f in AllowedFields && f in body ==>
                    f in r.events[id].fields && r.events[id].fields[f] == body[f])
              && (forall f :: f in events[id].fields && !(f in AllowedFields && f in body) ==>
                    f in r.events[id].fields && r.events[id].fields[f] == events[id].fields[f])
  {
    if id !in events then UpdateNotFound
    else if events[id].creatorId != caller then UpdateForbidden
    else
      var names := Supplied(AllowedFields, body);
      SuppliedMembers(AllowedFields, body);
      if |names| == 0 then
        NothingToUpdate
      else
        var values := FieldValues(names, body) + [Int(id)];
        assert forall i :: 0 <= i < |names| ==> names[i] in body && values[i] == body[names[i]];
        SetListShape(names, AllowedFields);
        QuestionsAppend([Sql("UPDATE events SET ")], SetList(names));
        QuestionsAppend([Sql("UPDATE events SET ")] + SetList(names), [Sql(" WHERE id = "), Question]);
        PairQuestions(Sql(" WHERE id = "));
        QuestionsSnoc([], Sql("UPDATE events SET "));
        assert [Sql("UPDATE events SET ")] == [] + [Sql("UPDATE events SET ")];
        Updated(UpdateSql(names), values, events[id := Patch(events[id], body)])
  }

  /** The row after the update: every allow-listed column the body supplies
      takes the supplied value, every other column and the creator stay. */
  function Patch(e: Event, body: map<string, Value>): (r: Event)
    ensures r.creatorId == e.creatorId
    ensures forall f :: f in AllowedFields && f in body ==> f in r.fields && r.fields[f] == body[f]
    ensures forall f :: f in e.fields && !(f in AllowedFields && f in body) ==>
              f in r.fields && r.fields[f] == e.fields[f]
    ensures r.fields.Keys == e.fields.Keys + (set f | f in AllowedFields && f in body)
  {
    Event(e.creatorId, e.fields + map f | f in AllowedFields && f in body :: body[f])
  }

  /** The SET list names each supplied allow-listed column once, in the
      allow-list's order. */
  lemma UpdateColumns(body: map<string, Value>)
    ensures forall f :: f in Supplied(AllowedFields, body) <==> f in AllowedFields && f in body
    ensures forall i, j :: 0 <= i < j < |Supplied(AllowedFields, body)| ==>
              IndexIn(AllowedFields, Supplied(AllowedFields, body)[i])
                < IndexIn(AllowedFields, Supplied(AllowedFields, body)[j])
  {
    SuppliedMembers(AllowedFields, body);
    SuppliedOrdered(AllowedFields, body);
  }

  /** What `deleteEvent` answers, checked in this order. */
  datatype DeleteOutcome = DeleteNotFound | DeleteForbidden | Deleted(events: Events)

  function DeleteEvent(events: Events, id: nat, caller: nat): (r: DeleteOutcome)
    ensures r.DeleteNotFound? <==> id !in events
    ensures r.DeleteForbidden? <==> id in events && events[id].creatorId != caller
    ensures r.Deleted? ==>
              r.events.Keys == events.Keys - {id}
              && forall k :: k in r.events ==> r.events[k] == events[k]
  {
    if id !in events then DeleteNotFound
    else if events[id].creatorId != caller then DeleteForbidden
    else Deleted(events - {id})
  }

  /** Only the creator changes an event: any other caller leaves the table
      as it was, for both update and delete. */
  lemma OnlyCreatorMutates(events: Events, id: nat, caller: nat, body: map<string, Value>)
    requires id in events && events[id].creatorId != caller
    ensures !UpdateEvent(events, id, caller, body).Updated?
    ensures !DeleteEvent(events, id, caller).Deleted?
  {
  }

  /** A created event can be deleted by its creator, which restores the
      table. */
  lemma CreateThenDelete(events: Events, body: map<string, Value>, caller: nat, newId: nat)
    requires newId !in events
    ensures DeleteEvent(CreateEvent(events, body, caller, newId), newId, caller)
              == Deleted(events)
  {
    var after := CreateEvent(events, body, caller, newId);
    assert after - {newId} == events;
  }
}

=== FILE: events_page.dfy ===
/** The events page of `frontend/js/events.js`: the filter and pager state,
    the request parameters, the merge of each answer into the list, the
    derivations of an event card and the delete selection. The grid is the
    list of events whose cards it shows. */
module EventsPage {
  import opened Options
  import opened Json
  import Strings

  /** Events per request. */
  const Limit: nat := 6

  /** The fields of an event the card derives something from. */
  datatype CardEvent = CardEvent(id: nat, status: string, creatorId: int, image: Option<string>)

  /** The page's state: the filters, `currentPage`, `totalPages`,
      `allEvents`, the grid, the "load more" and empty-state visibility, and
      `eventToDelete`. */
  datatype Page = Page(page: nat, eventType: string, status: string, search: string,
                       totalPages: int, events: seq<CardEvent>, grid: seq<CardEvent>,
                       loadMoreHidden: bool, emptyShown: bool, toDelete: Option<int>)

  /** A type chip was clicked. */
  function ChooseType(p: Page, t: string): (r: Page)
    ensures r.page == 1 && r.eventType == t
    ensures r.status == p.status && r.search == p.search && r.events == p.events
  {
    p.(eventType := t, page := 1)
  }

  /** The status select changed. */
  function ChooseStatus(p: Page, s: string): (r: Page)
    ensures r.page == 1 && r.status == s
    ensures r.eventType == p.eventType && r.search == p.search && r.events == p.events
  {
    p.(status := s, page := 1)
  }

  /** The (debounced) search input changed; the text is trimmed. */
  function ChooseSearch(p: Page, input: string): (r: Page)
    ensures r.page == 1 && r.search == Strings.Trim(input)
    ensures r.eventType == p.eventType && r.status == p.status && r.events == p.events
  {
    p.(search := Strings.Trim(input), page := 1)
  }

  /** The parameters of `api.getEvents`: a filter is sent only when set. */
  datatype Params = Params(page: nat, limit: nat, eventType: Option<string>, status: Option<string>,
                           search: Option<string>)

  function RequestParams(p: Page): (r: Params)
    ensures r.page == p.page && r.limit == Limit
    ensures r.eventType.Some? <==> p.eventType != ""
    ensures r.status.Some? <==> p.status != ""
    ensures r.search.Some? <==> p.search != ""
    ensures r.eventType.Some? ==> r.eventType.value == p.eventType
    ensures r.status.Some? ==> r.status.value == p.status
    ensures r.search.Some? ==> r.search.value == p.search
  {
    Params(p.page, Limit,
           if p.eventType != "" then Some(p.eventType) else None,
           if p.status != "" then Some(p.status) else None,
           if p.search != "" then Some(p.search) else None)
  }

  /** Every filter change asks for the first page with the new filter. */
  lemma FilterChangeAsksFirstPage(p: Page, t: string, s: string, input: string)
    ensures RequestParams(ChooseType(p, t)).page == 1
    ensures RequestParams(ChooseStatus(p, s)).page == 1
    ensures RequestParams(ChooseSearch(p, input)).page == 1
    ensures RequestParams(ChooseType(p, t)).eventType == (if t == "" then None else Some(t))
  {
  }

  /** How `api.getEvents` resolved: thrown, or the answer's `success`,
      `data` and `pagination.totalPages`. */
  datatype EventsResponse = Threw | Answer(success: bool, data: seq<CardEvent>, totalPages: int)

  /** `loadEvents(append)` from the state of the request to the state after
      the answer. A fresh load clears the grid first. */
  function LoadEvents(p: Page, append: bool, resp: EventsResponse): (r: Page)
    ensures r.page == p.page && r.eventType == p.eventType && r.status == p.status
            && r.search == p.search && r.toDelete == p.toDelete
    ensures !(resp.Answer? && resp.success) ==>
              r.events == p.events && r.grid == (if append then p.grid else [])
    ensures resp.Answer? && resp.success && |resp.data| == 0 && !append ==>
              r.emptyShown && r.loadMoreHidden && r.grid == [] && r.events == p.events
    ensures resp.Answer? && resp.success && (|resp.data| > 0 || append) ==>
              && r.events == (if append then p.events + resp.data else resp.data)
              && r.grid == (if append then p.grid + resp.data else resp.data)
              && (r.loadMoreHidden <==> p.page >= resp.totalPages)
              && !r.emptyShown
  {
    var cleared := if append then p.grid else [];
    var started := p.(grid := cleared, emptyShown := false);
    match resp
    case Threw => started
    case Answer(success, data, pages) =>
      if !success then started
      else if |data| == 0 && !append then
        started.(totalPages := pages, emptyShown := true, loadMoreHidden := true)
      else
        started.(totalPages := pages,
                 events := if append then p.events + data else data,
                 grid := if append then p.grid + data else data,
                 loadMoreHidden := p.page >= pages)
  }

  /** `loadMoreEvents`: the next page, appended. */
  function LoadMoreEvents(p: Page, resp: EventsResponse): (r: Page)
    ensures r.page == p.page + 1
    ensures resp.Answer? && resp.success ==>
              && r.events == p.events + resp.data && r.grid == p.grid + resp.data
              && (r.loadMoreHidden <==> p.page + 1 >= resp.totalPages)
  {
    LoadEvents(p.(page := p.page + 1), true, resp)
  }

  /** Successive pages accumulate in the order they arrive. */
  lemma PagesAccumulate(p: Page, a: seq<CardEvent>, b: seq<CardEvent>, t1: int, t2: int)
    requires |a| > 0
    ensures var first := LoadEvents(p, false, Answer(true, a, t1));
            var second := LoadMoreEvents(first, Answer(true, b, t2));
            second.events == a + b && second.grid == a + b && second.page == p.page + 1
  {
  }

  /** The status badge: the status's own class when known, else the
      "upcoming" one. */
  function BadgeClass(status: string): (r: string)
    ensures status in {"upcoming", "completed", "cancelled"} ==> r == "badge-" + status
    ensures status !in {"upcoming", "completed", "cancelled"} ==> r == "badge-upcoming"
  {
    if status == "upcoming" then "badge-upcoming"
    else if status == "completed" then "badge-completed"
    else if status == "cancelled" then "badge-cancelled"
    else "badge-upcoming"
  }

  /** `s.charAt(0).toUpperCase() + s.slice(1)` */
  function Capitalize(s: string): (r: string)
    ensures |r| == |s|
    ensures |s| > 0 ==> r[0] == Strings.UpperChar(s[0]) && r[1..] == s[1..]
  {
    if |s| == 0 then "" else [Strings.UpperChar(s[0])] + s[1..]
  }

  const Placeholders: seq<string> := [
    "https://images.unsplash.com/photo-1540575467063-178a50c2df87?w=600",
    "https://images.unsplash.com/photo-1505373877841-8d25f7d46678?w=600",
    "https://images.unsplash.com/photo-1475721027785-f74eccf877e2?w=600",
    "https://images.unsplash.com/photo-1492684223066-81342ee5ff30?w=600",
    "https://images.unsplash.com/photo-1559223607-a43c990c692c?w=600",
    "https://images.unsplash.com/photo-1528605248644-14dd04022da1?w=600"
  ]

  /** The card's picture: the event's image, or a placeholder chosen by the
      id. */
  function ImageUrl(e: CardEvent): (r: string)
    ensures e.image.Some? && e.image.value != "" ==> r == e.image.value
    ensures e.image.None? || e.image.value == "" ==> r == Placeholders[e.id % |Placeholders|]
  {
    if e.image.Some? && e.image.value != "" then e.image.value else Placeholders[e.id % |Placeholders|]
  }

  /** Events whose ids differ by a multiple of six share a placeholder. */
  lemma PlaceholderCycle(e: CardEvent, k: nat)
    requires e.image.None?
    ensures ImageUrl(e.(id := e.id + 6 * k)) == ImageUrl(e)
  {
    assert (e.id + 6 * k) % 6 == e.id % 6;
  }

  /** `user && user.id === event.creator_id`: the edit and delete buttons. */
  predicate IsOwner(user: Json, e: CardEvent) {
    Truthy(Some(user)) && Get(user, "id") == Some(JNum(e.creatorId))
  }

  /** Without a user no card offers edit or delete; a user whose id is the
      creator's always gets them. */
  lemma OwnerControls(e: CardEvent, id: int)
    ensures !IsOwner(JNull, e)
    ensures IsOwner(JObj([("id", JNum(id))]), e) <==> id == e.creatorId
  {
  }

  /** `openDeleteModal` */
  function OpenDelete(p: Page, id: int): (r: Page)
    ensures r.toDelete == Some(id)
  {
    p.(toDelete := Some(id))
  }

  /** `closeDeleteModal` */
  function CloseDelete(p: Page): (r: Page)
    ensures r.toDelete.None?
  {
    p.(toDelete := None)
  }

  /** The confirm button: with a selected (truthy) id it asks for the
      deletion; after success it closes the modal and goes back to the first
      page, after a failure it leaves everything as it was. */
  function ConfirmDelete(p: Page, deleted: bool): (r: (Page, Option<int>))
    ensures p.toDelete.None? || p.toDelete.value == 0 ==> r == (p, None)
    ensures p.toDelete.Some? && p.toDelete.value != 0 ==>
              r.1 == p.toDelete
              && r.0 == (if deleted then p.(toDelete := None, page := 1) else p)
  {
    match p.toDelete
    case None => (p, None)
    case Some(id) =>
      if id == 0 then (p, None)
      else if deleted then (p.(toDelete := None, page := 1), Some(id))
      else (p, Some(id))
  }

  /** Closing the modal cancels the pending deletion. */
  lemma CloseCancelsDelete(p: Page, id: int, deleted: bool)
    ensures ConfirmDelete(CloseDelete(OpenDelete(p, id)), deleted).1.None?
  {
  }
}

=== FILE: favorite_controller.dfy ===
/** The handlers of `backend/controllers/favoriteController.js` over the
    `favorites` table, a set of (user id, event id) pairs. */
module FavoriteController {
  import opened Options
  import opened Numbers
  import opened Strings
  import opened Store
  import opened EventController

  /** What `addFavorite` answers, checked in this order. */
  datatype AddOutcome =
    | AddNotFound                    // 404 Event not found
    | AlreadyFavorite                // 400 Event is already in your favorites
    | Added(favorites: Favorites)    // 201

  function AddFavorite(events: Events, favorites: Favorites, user: nat, eventId: nat)
    : (r: AddOutcome)
    ensures r.AddNotFound? <==> eventId !in events
    ensures r.AlreadyFavorite? <==> eventId in events && (user, eventId) in favorites
    ensures r.Added? ==>
              (user, eventId) !in favorites && r.favorites == favorites + {(user, eventId)}
  {
    if eventId !in events then AddNotFound
    else if (user, eventId) in favorites then AlreadyFavorite
    else Added(favorites + {(user, eventId)})
  }

  /** What `removeFavorite` answers. It does not look at the events table. */
  datatype RemoveOutcome =
    | NotInFavorites                 // 404 Event is not in your favorites
    | Removed(favorites: Favorites)  // 200

  function RemoveFavorite(favorites: Favorites, user: nat, eventId: nat): (r: RemoveOutcome)
    ensures r.NotInFavorites? <==> (user, eventId) !in favorites
    ensures r.Removed? ==> r.favorites == favorites - {(user, eventId)}
  {
    if (user, eventId) !in favorites then NotInFavorites
    else Removed(favorites - {(user, eventId)})
  }

  /** Adding and then removing the same favourite restores the table. */
  lemma AddThenRemove(events: Events, favorites: Favorites, user: nat, eventId: nat)
    requires AddFavorite(events, favorites, user, eventId).Added?
    ensures RemoveFavorite(AddFavorite(events, favorites, user, eventId).favorites, user, eventId)
              == Removed(favorites)
  {
    var added := AddFavorite(events, favorites, user, eventId).favorites;
    assert added - {(user, eventId)} == favorites;
  }

  /** Removing and then adding back a favourite of an existing event
      restores the table. */
  lemma RemoveThenAdd(events: Events, favorites: Favorites, user: nat, eventId: nat)
    requires eventId in events && (user, eventId) in favorites
    ensures AddFavorite(events, RemoveFavorite(favorites, user, eventId).favorites, user, eventId)
              == Added(favorites)
  {
    var removed := RemoveFavorite(favorites, user, eventId).favorites;
    assert removed + {(user, eventId)} == favorites;
  }

  /** A second add of the same pair is refused, so the table never holds a
      pair twice and add is not silently repeated. */
  lemma AddTwiceRefused(events: Events, favorites: Favorites, user: nat, eventId: nat)
    requires AddFavorite(events, favorites, user, eventId).Added?
    ensures AddFavorite(events, AddFavorite(events, favorites, user, eventId).favorites,
                        user, eventId) == AlreadyFavorite
  {
  }

  /** Neither handler touches another user's favourites. */
  lemma OtherUsersUnchanged(events: Events, favorites: Favorites, user: nat, eventId: nat, other: nat)
    requires other != user
    ensures var a := AddFavorite(events, favorites, user, eventId);
            a.Added? ==> forall e :: (other, e) in a.favorites <==> (other, e) in favorites
    ensures var d := RemoveFavorite(favorites, user, eventId);
            d.Removed? ==> forall e :: (other, e) in d.favorites <==> (other, e) in favorites
  {
  }

  /** The event ids `user` has marked. */
  function FavoriteIds(favorites: Favorites, user: nat): set<nat> {
    set p | p in favorites && p.0 == user :: p.1
  }

  /** The JSON body of a `getMyFavorites` answer. */
  datatype FavoritesPage = FavoritesPage(
    data: seq<EventRow>, page: Number, limit: Number, total: nat, totalPages: Number)

  /** `getMyFavorites`. `newestFirst` is the caller's favourite event ids in
      the order `ORDER BY f.created_at DESC` returns them; the page is the
      `LIMIT`/`OFFSET` window of it, joined with the events table; a pair
      occurs once in the favourites table, so no id repeats. Absent page
      and limit default to 1 and 10. `None` is the 500 answer the
      database causes when `LIMIT` or `OFFSET` is not a non-negative
      integer. */
  function GetMyFavorites(events: Events, favorites: Favorites, user: nat,
                          newestFirst: seq<nat>, query: map<string, string>)
    : (r: Option<FavoritesPage>)
    requires forall id :: id in newestFirst <==> id in FavoriteIds(favorites, user)
    requires forall i, j :: 0 <= i < j < |newestFirst| ==> newestFirst[i] != newestFirst[j]
    ensures r.Some? <==> Bindable(ReadPaging(query, "1", "10"))
    ensures r.Some? ==>
              && r.value.page == ReadPaging(query, "1", "10").page
              && r.value.limit == ReadPaging(query, "1", "10").limit
              && r.value.total == |FavoriteIds(favorites, user)|
              && r.value.limit.Finite? && |r.value.data| <= r.value.limit.v
              && r.value.totalPages == TotalPages(r.value.total, r.value.limit)
    ensures r.Some? ==>
              forall i :: 0 <= i < |r.value.data| ==>
                && r.value.data[i].isFavorite
                && r.value.data[i].id in FavoriteIds(favorites, user)
                && r.value.data[i].id in events
                && r.value.data[i].event == events[r.value.data[i].id]
    ensures r.Some? ==>
              var window := Window(Joined(events, newestFirst), ReadPaging(query, "1", "10").offset.v,
                                   r.value.limit.v);
              && |r.value.data| == |window|
              && forall i :: 0 <= i < |window| ==> r.value.data[i].id == window[i]
  {
    var paging := ReadPaging(query, "1", "10");
    var limit := paging.limit;
    var offset := paging.offset;
    if !Bindable(paging) then None
    else
      var joined := Joined(events, newestFirst);
      var window := Window(joined, offset.v, limit.v);
      var rows := seq(|window|, i requires 0 <= i < |window| =>
                        EventRow(window[i], events[window[i]], true));
      Some(FavoritesPage(rows, paging.page, limit, |FavoriteIds(favorites, user)|,
                         TotalPages(|FavoriteIds(favorites, user)|, limit)))
  }

  /** Without `page` and `limit` the answer is the ten newest favourites
      that still name an event, in order. */
  lemma DefaultFavoritesPage(events: Events, favorites: Favorites, user: nat,
                             newestFirst: seq<nat>, query: map<string, string>)
    requires forall id :: id in newestFirst <==> id in FavoriteIds(favorites, user)
    requires forall i, j :: 0 <= i < j < |newestFirst| ==> newestFirst[i] != newestFirst[j]
    requires "page" !in query && "limit" !in query
    ensures var r := GetMyFavorites(events, favorites, user, newestFirst, query);
            var joined := Joined(events, newestFirst);
            && r.Some? && r.value.limit == Finite(10)
            && |r.value.data| == (if |joined| < 10 then |joined| else 10)
            && forall i :: 0 <= i < |r.value.data| ==> r.value.data[i].id == joined[i]
  {
    assert NatToString(1) == "1";
    assert NatToString(10) == "10";
    ParseIntNatToString(1);
    ParseIntNatToString(10);
    var paging := ReadPaging(query, "1", "10");
    assert paging.page == Finite(1) && paging.limit == Finite(10);
  }

  /** The ids of `ids` that name an existing event, in order (the inner
      `JOIN events`). */
  function Joined(events: Events, ids: seq<nat>): (r: seq<nat>)
    ensures forall i :: 0 <= i < |r| ==> r[i] in events && r[i] in ids
    ensures forall id :: id in ids && id in events ==> id in r
  {
    if |ids| == 0 then []
    else Joined(events, ids[..|ids| - 1])
         + (if ids[|ids| - 1] in events then [ids[|ids| - 1]] else [])
  }

  /** The join of two runs of ids is the join of the first followed by the
      join of the second: with the one-id case, the join keeps the ids'
      order and multiplicity and drops only the ids without an event. */
  lemma {:induction false} JoinedAppend(events: Events, a: seq<nat>, b: seq<nat>)
    ensures Joined(events, a + b) == Joined(events, a) + Joined(events, b)
  {
    if b == [] {
      assert a + b == a;
    } else {
      var n := |b| - 1;
      assert (a + b)[..|a + b| - 1] == a + b[..n];
      JoinedAppend(events, a, b[..n]);
    }
  }

  /** One id joins to itself exactly when it names an event. */
  lemma JoinedOne(events: Events, id: nat)
    ensures Joined(events, [id]) == if id in events then [id] else []
  {
    assert [id][..0] == [];
  }

  /** `LIMIT limit OFFSET offset` over `rows`. */
  function Window<T>(rows: seq<T>, offset: nat, limit: nat): (r: seq<T>)
    ensures |r| <= limit
    ensures offset >= |rows| ==> r == []
    ensures forall i :: 0 <= i < |r| ==> offset + i < |rows| && r[i] == rows[offset + i]
    ensures offset + limit <= |rows| ==> |r| == limit
    ensures offset < |rows| < offset + limit ==> |r| == |rows| - offset
  {
    if offset >= |rows| then []
    else if offset + limit <= |rows| then rows[offset..offset + limit]
    else rows[offset..]
  }
}

=== FILE: favorites_page.dfy ===
/** The favourites page of `frontend/js/favorites.js`: the pager, the saved
    count shown in the header and its update after a removal, the card
    derivations and the client-side search over the cards. */
module FavoritesPage {
  import opened Options
  import opened Strings
  import Numbers
  import EventsPage

  /** Favourites per request. */
  const Limit: nat := 9

  /** The fields of a favourite the card shows or derives something from. */
  datatype FavEvent = FavEvent(id: nat, name: string, location: string, eventType: string, image: Option<string>)

  /** The header line, as its text content reads. */
  function CountText(n: int): string {
    "You have " + IntToString(n) + " saved events."
  }

  /** The page's state: `currentPage`, `totalPages`, the cards in the grid,
      the header text and the empty-state and "load more" visibility. */
  datatype Page = Page(page: nat, totalPages: int, grid: seq<FavEvent>, countText: string,
                       emptyShown: bool, loadMoreHidden: bool)

  /** How `api.getFavorites` resolved: thrown, or the answer's `success`,
      `data`, `pagination.total` and `pagination.totalPages`. */
  datatype FavoritesResponse = Threw | Answer(success: bool, data: seq<FavEvent>, total: int, totalPages: int)

  /** The request `loadFavorites` makes: the current page, nine per page. */
  function RequestParams(p: Page): (r: (nat, nat))
    ensures r == (p.page, Limit)
  {
    (p.page, Limit)
  }

  /** `loadFavorites(append)` from the request to the state after the
      answer. */
  function LoadFavorites(p: Page, append: bool, resp: FavoritesResponse): (r: Page)
    ensures r.page == p.page
    ensures !(resp.Answer? && resp.success) ==>
              r == p.(grid := if append then p.grid else [], emptyShown := false)
    ensures resp.Answer? && resp.success ==> r.countText == CountText(resp.total) && r.totalPages == resp.totalPages
    ensures resp.Answer? && resp.success && |resp.data| == 0 && !append ==>
              r.emptyShown && r.loadMoreHidden && r.grid == []
    ensures resp.Answer? && resp.success && (|resp.data| > 0 || append) ==>
              && r.grid == (if append then p.grid + resp.data else resp.data)
              && (r.loadMoreHidden <==> p.page >= resp.totalPages)
              && !r.emptyShown
  {
    var started := p.(grid := if append then p.grid else [], emptyShown := false);
    match resp
    case Threw => started
    case Answer(success, data, total, pages) =>
      if !success then started
      else
        var counted := started.(totalPages := pages, countText := CountText(total));
        if |data| == 0 && !append then counted.(emptyShown := true, loadMoreHidden := true)
        else counted.(grid := if append then p.grid + data else data, loadMoreHidden := p.page >= pages)
  }

  /** `loadMoreFavorites`: the next page, appended to the grid. */
  function LoadMoreFavorites(p: Page, resp: FavoritesResponse): (r: Page)
    ensures r.page == p.page + 1
    ensures resp.Answer? && resp.success ==> r.grid == p.grid + resp.data
  {
    LoadFavorites(p.(page := p.page + 1), true, resp)
  }

  /** The first run of decimal digits of `s` (`s.match(/\d+/)[0]`), or `None`
      when there is none. */
  function FirstDigits(s: string): (r: Option<string>)
    ensures r.Some? ==> |r.value| > 0 && forall i :: 0 <= i < |r.value| ==> IsDigit(r.value[i])
  {
    if |s| == 0 then None
    else if IsDigit(s[0]) then
      var n := Numbers.DigitRun(s, 10);
      Some(s[..n])
    else FirstDigits(s[1..])
  }

  /** Text without digits before the first run is skipped. */
  lemma {:induction false} FirstDigitsSkip(p: string, s: string)
    requires forall i :: 0 <= i < |p| ==> !IsDigit(p[i])
    ensures FirstDigits(p + s) == FirstDigits(s)
  {
    if |p| > 0 {
      assert (p + s)[0] == p[0] && !IsDigit(p[0]);
      assert (p + s)[1..] == p[1..] + s;
      FirstDigitsSkip(p[1..], s);
    } else {
      assert p + s == s;
    }
  }

  /** A run of digits followed by a non-digit is read up to that point. */
  lemma {:induction false} DigitRunStops(t: string, rest: string)
    requires forall i :: 0 <= i < |t| ==> IsDigit(t[i])
    requires |rest| > 0 && !IsDigit(rest[0])
    ensures Numbers.DigitRun(t + rest, 10) == |t|
  {
    if |t| > 0 {
      assert (t + rest)[1..] == t[1..] + rest;
      DigitRunStops(t[1..], rest);
    } else {
      assert (t + rest)[0] == rest[0];
    }
  }

  /** The count after a removal: the number read from the header, minus
      one; `None` when the header holds no number (the update then throws). */
  function Decremented(countText: string): (r: Option<int>)
    ensures FirstDigits(countText).None? <==> r.None?
  {
    match FirstDigits(countText)
    case None => None
    case Some(d) =>
      var v := Numbers.ParseInt(d);
      Some(if v.Finite? then v.v - 1 else 0)
  }

  /** The header's number is read back exactly, so each removal lowers the
      shown count by one. */
  lemma DecrementedCount(n: nat)
    ensures Decremented(CountText(n)) == Some(n - 1)
  {
    var digits := NatToString(n);
    var rest := " saved events.";
    assert CountText(n) == "You have " + (digits + rest);
    FirstDigitsSkip("You have ", digits + rest);
    DigitRunStops(digits, rest);
    assert (digits + rest)[..|digits|] == digits;
    assert FirstDigits(digits + rest) == Some(digits);
    Numbers.ParseIntNatToString(n);
  }

  /** The removal of the card at `i` once `api.removeFavorite` succeeded:
      the card goes, the empty state appears when it was the last, and the
      header's count goes down by one. A failed call changes nothing. */
  function RemoveCard(p: Page, i: nat, removed: bool): (r: Page)
    requires i < |p.grid|
    ensures !removed ==> r == p
    ensures removed ==> r.grid == p.grid[..i] + p.grid[i + 1..] && |r.grid| == |p.grid| - 1
    ensures removed && r.grid == [] ==> r.emptyShown && r.loadMoreHidden
    ensures removed && r.grid != [] ==> r.emptyShown == p.emptyShown && r.loadMoreHidden == p.loadMoreHidden
    ensures removed && Decremented(p.countText).Some? ==> r.countText == CountText(Decremented(p.countText).value)
    ensures removed && Decremented(p.countText).None? ==> r.countText == p.countText
  {
    if !removed then p
    else
      var grid := p.grid[..i] + p.grid[i + 1..];
      var shown := if grid == [] then p.(grid := grid, emptyShown := true, loadMoreHidden := true)
                   else p.(grid := grid);
      match Decremented(p.countText)
      case None => shown
      case Some(c) => shown.(countText := CountText(c))
  }

  /** After a load that reported `total` saved events, a removal shows
      `total - 1`. */
  lemma RemovalAfterLoad(p: Page, append: bool, data: seq<FavEvent>, total: nat, pages: int, i: nat)
    requires var q := LoadFavorites(p, append, Answer(true, data, total, pages)); i < |q.grid|
    ensures var q := LoadFavorites(p, append, Answer(true, data, total, pages));
            RemoveCard(q, i, true).countText == CountText(total - 1)
  {
    DecrementedCount(total);
  }

  /** The type badge colour: its own for the four types, primary otherwise. */
  function TypeColor(t: string): (r: string)
    ensures t == "conference" ==> r == "var(--primary)"
    ensures t == "concert" ==> r == "#EC4899"
    ensures t == "workshop" ==> r == "var(--secondary)"
    ensures t == "meetup" ==> r == "#8B5CF6"
    ensures t !in {"concert", "workshop", "meetup"} ==> r == "var(--primary)"
  {
    if t == "conference" then "var(--primary)"
    else if t == "concert" then "#EC4899"
    else if t == "workshop" then "var(--secondary)"
    else if t == "meetup" then "#8B5CF6"
    else "var(--primary)"
  }

  /** The favourites page cycles through the first five of the events
      page's pictures. */
  function ImageUrl(e: FavEvent): (r: string)
    ensures e.image.Some? && e.image.value != "" ==> r == e.image.value
    ensures e.image.None? || e.image.value == "" ==> r == EventsPage.Placeholders[e.id % 5]
  {
    if e.image.Some? && e.image.value != "" then e.image.value
    else EventsPage.Placeholders[..5][e.id % 5]
  }

  /** The search: which cards stay visible for the typed text. */
  function Visible(grid: seq<FavEvent>, input: string): (r: seq<bool>)
    ensures |r| == |grid|
    ensures forall i :: 0 <= i < |grid| ==>
              (r[i] <==> Contains(ToLower(grid[i].name), Trim(ToLower(input)))
                         || Contains(ToLower(grid[i].location), Trim(ToLower(input))))
  {
    var term := Trim(ToLower(input));
    seq(|grid|, i requires 0 <= i < |grid| =>
      Contains(ToLower(grid[i].name), term) || Contains(ToLower(grid[i].location), term))
  }

  /** Clearing the search box shows every card again. */
  lemma EmptySearchShowsAll(grid: seq<FavEvent>, input: string)
    requires Trim(ToLower(input)) == ""
    ensures forall i :: 0 <= i < |grid| ==> Visible(grid, input)[i]
  {
    forall i | 0 <= i < |grid|
      ensures Visible(grid, input)[i]
    {
      assert OccursAt(ToLower(grid[i].name), "", 0);
      ContainsIff(ToLower(grid[i].name), "");
    }
  }
}

=== FILE: json.dfy ===
/** Optional values: `None` models JavaScript's `undefined` / a missing row. */
module Options {
  datatype Option<+T> = None | Some(value: T)
}

/** The outcome of a `fetch` to a webhook. */
module Fetch {
  /** A thrown network error, or an HTTP response with its status and body
      text. */
  datatype FetchResult = NetworkError(message: string) | Response(ok: bool, status: nat, text: string)
}

/** JSON values as `JSON.parse` and `express.json()` produce them, with the
    JavaScript operations the handlers apply to them: property access,
    truthiness, `String(x)` and `JSON.stringify`. Numbers are integers. */
module Json {
  import opened Options
  import opened Strings

  /** An object keeps its entries in source order. */
  datatype Json =
    | JNull
    | JBool(b: bool)
    | JNum(n: int)
    | JStr(s: string)
    | JArr(items: seq<Json>)
    | JObj(entries: seq<(string, Json)>)

  /** Value of the last entry named `key` (`JSON.parse` keeps the last
      duplicate), or `None` for `undefined`. */
  function Lookup(entries: seq<(string, Json)>, key: string): (r: Option<Json>)
    ensures r.Some? ==> exists i :: 0 <= i < |entries| && entries[i] == (key, r.value)
    ensures r.None? ==> forall i :: 0 <= i < |entries| ==> entries[i].0 != key
  {
    if |entries| == 0 then None
    else if entries[|entries| - 1].0 == key then Some(entries[|entries| - 1].1)
    else Lookup(entries[..|entries| - 1], key)
  }

  /** A key that occurs once, at `i`, looks up to the value there. */
  lemma LookupSole(entries: seq<(string, Json)>, i: nat)
    requires i < |entries|
    requires forall j :: 0 <= j < |entries| && j != i ==> entries[j].0 != entries[i].0
    ensures Lookup(entries, entries[i].0) == Some(entries[i].1)
  {
  }

  /** `v.key` on a value that is not `null`: only objects have own
      properties the handlers read. */
  function Get(v: Json, key: string): Option<Json> {
    if v.JObj? then Lookup(v.entries, key) else None
  }

  /** `v.key` where `v` may itself be `undefined` (`v?.key`). */
  function GetOpt(v: Option<Json>, key: string): Option<Json> {
    if v.Some? && v.value.JObj? then Lookup(v.value.entries, key) else None
  }

  /** JavaScript truthiness of a possibly-`undefined` value. */
  predicate Truthy(v: Option<Json>) {
    match v
    case None => false
    case Some(JNull) => false
    case Some(JBool(b)) => b
    case Some(JNum(n)) => n != 0
    case Some(JStr(s)) => s != ""
    case Some(_) => true
  }

  /** `String(v)`, as a template literal renders a value. */
  function ToText(v: Json): string {
    match v
    case JNull => "null"
    case JBool(b) => if b then "true" else "false"
    case JNum(n) => IntToString(n)
    case JStr(s) => s
    case JArr(items) =>
      Join(seq(|items|, i requires 0 <= i < |items| =>
                 if items[i].JNull? then "" else ToText(items[i])), ',')
    case JObj(_) => "[object Object]"
  }

  function HexDigit(d: nat): char
    requires d < 16
  {
    "0123456789abcdef"[d]
  }

  /** The JSON escape of one code unit inside a string literal. */
  function EscapeChar(c: char): string {
    if c == '"' then "\\\""
    else if c == '\\' then "\\\\"
    else if c as int == 0x08 then "\\b"
    else if c as int == 0x0C then "\\f"
    else if c == '\n' then "\\n"
    else if c == '\r' then "\\r"
    else if c == '\t' then "\\t"
    else if (c as int) < 0x20 then "\\u00" + [HexDigit(c as int / 16), HexDigit(c as int % 16)]
    else [c]
  }

  function Escape(s: string): string {
    if |s| == 0 then "" else EscapeChar(s[0]) + Escape(s[1..])
  }

  function Quote(s: string): string {
    "\"" + Escape(s) + "\""
  }

  /** `JSON.stringify(v)` without indentation. */
  function Stringify(v: Json): string {
    match v
    case JNull => "null"
    case JBool(b) => if b then "true" else "false"
    case JNum(n) => IntToString(n)
    case JStr(s) => Quote(s)
    case JArr(items) =>
      "[" + Join(seq(|items|, i requires 0 <= i < |items| => Stringify(items[i])), ',') + "]"
    case JObj(entries) =>
      "{" + Join(seq(|entries|, i requires 0 <= i < |entries| =>
                       Quote(entries[i].0) + ":" + Stringify(entries[i].1)), ',') + "}"
  }
}

=== FILE: numbers.dfy ===
/** The JavaScript number arithmetic behind the list endpoints' pagination:
    `parseInt`, `(page - 1) * limit` and `Math.ceil(total / limit)`. */
module Numbers {
  import opened Strings

  /** The numbers pagination arithmetic can produce: integers, `NaN` (from
      `parseInt` of text without digits) and `Infinity` (from dividing by a
      zero limit). */
  datatype Number = Finite(v: int) | NaN | Infinity

  predicate IsRadixDigit(c: char, radix: nat) {
    if radix == 16 then IsDigit(c) || 'a' <= c <= 'f' || 'A' <= c <= 'F'
    else IsDigit(c)
  }

  function DigitValue(c: char, radix: nat): nat
    requires IsRadixDigit(c, radix)
  {
    if IsDigit(c) then c as int - '0' as int
    else if 'a' <= c <= 'f' then c as int - 'a' as int + 10
    else c as int - 'A' as int + 10
  }

  /** Length of the longest prefix of `s` made of digits of the radix. */
  function DigitRun(s: string, radix: nat): (n: nat)
    ensures n <= |s|
    ensures forall i :: 0 <= i < n ==> IsRadixDigit(s[i], radix)
    ensures n < |s| ==> !IsRadixDigit(s[n], radix)
  {
    if |s| > 0 && IsRadixDigit(s[0], radix) then 1 + DigitRun(s[1..], radix) else 0
  }

  /** Value of a string of digits, most significant first. */
  function DigitsValue(s: string, radix: nat): nat
    requires forall i :: 0 <= i < |s| ==> IsRadixDigit(s[i], radix)
  {
    if |s| == 0 then 0
    else DigitsValue(s[..|s| - 1], radix) * radix + DigitValue(s[|s| - 1], radix)
  }

  /** `parseInt(s)` with no radix argument: leading white space is skipped, one
      sign is accepted, a `0x`/`0X` prefix switches to base 16, and the longest
      run of digits that follows is read; no digit at all gives `NaN`. */
  function ParseInt(s: string): (r: Number)
    ensures !r.Infinity?
  {
    ParseSigned(s[SkipWhite(s, 0)..])
  }

  function ParseSigned(t: string): (r: Number)
    ensures !r.Infinity?
  {
    if |t| > 0 && t[0] == '-' then
      (match ParseUnsigned(t[1..])
       case Finite(m) => Finite(-m)
       case _ => NaN)
    else if |t| > 0 && t[0] == '+' then ParseUnsigned(t[1..])
    else ParseUnsigned(t)
  }

  function ParseUnsigned(u: string): (r: Number)
    ensures !r.Infinity?
  {
    if |u| >= 2 && u[0] == '0' && (u[1] == 'x' || u[1] == 'X') then ReadDigits(u[2..], 16)
    else ReadDigits(u, 10)
  }

  function ReadDigits(w: string, radix: nat): (r: Number)
    ensures !r.Infinity?
  {
    var n := DigitRun(w, radix);
    if n == 0 then NaN else Finite(DigitsValue(w[..n], radix))
  }

  lemma {:induction false} NatToStringValue(n: nat)
    ensures DigitsValue(NatToString(n), 10) == n
  {
    if n >= 10 {
      var s := NatToString(n);
      assert s[..|s| - 1] == NatToString(n / 10);
      NatToStringValue(n / 10);
    }
  }

  /** Different numbers render differently. */
  lemma NatToStringInjective(a: nat, b: nat)
    requires a != b
    ensures NatToString(a) != NatToString(b)
  {
    NatToStringValue(a);
    NatToStringValue(b);
  }

  /** `parseInt` reads back exactly the number `String(n)` renders. */
  lemma ParseIntNatToString(n: nat)
    ensures ParseInt(NatToString(n)) == Finite(n)
  {
    var s := NatToString(n);
    assert IsDigit(s[0]);
    assert SkipWhite(s, 0) == 0;
    assert s[0..] == s;
    assert ParseInt(s) == ParseSigned(s);
    assert ParseSigned(s) == ParseUnsigned(s);
    assert !(|s| >= 2 && s[0] == '0');
    assert ParseUnsigned(s) == ReadDigits(s, 10);
    DigitRunAll(s, 10);
    assert s[..|s|] == s;
    NatToStringValue(n);
    assert ReadDigits(s, 10) == Finite(n);
  }

  lemma {:induction false} DigitRunAll(s: string, radix: nat)
    requires forall i :: 0 <= i < |s| ==> IsRadixDigit(s[i], radix)
    ensures DigitRun(s, radix) == |s|
  {
    if |s| > 0 {
      DigitRunAll(s[1..], radix);
    }
  }

  /** Text with no digit after the optional sign is `NaN`, so `page=abc`
      yields `NaN` and not a default page. */
  lemma ParseIntNoDigits(s: string)
    requires |s| > 0 && !IsDigit(s[0]) && !IsWhite(s[0]) && s[0] != '-' && s[0] != '+'
    ensures ParseInt(s) == NaN
  {
    assert SkipWhite(s, 0) == 0;
    assert s[0..] == s;
  }

  /** The mathematical ceiling of `a / b`. */
  function CeilDiv(a: int, b: int): (r: int)
    requires b != 0
    ensures b > 0 ==> (r - 1) * b < a <= r * b
    ensures b < 0 ==> r * b <= a < (r - 1) * b
  {
    if b > 0 then CeilDivPos(a, b) else CeilDivPos(-a, -b)
  }

  function CeilDivPos(a: int, b: int): (r: int)
    requires b > 0
    ensures (r - 1) * b < a <= r * b
  {
    var q := (a + b - 1) / b;
    var m := (a + b - 1) % b;
    assert q * b + m == a + b - 1;
    assert (q - 1) * b == q * b - b;
    q
  }

  /** `x - 1` */
  function Pred(x: Number): Number {
    match x
    case Finite(v) => Finite(v - 1)
    case _ => x
  }

  /** `x * y` for the numbers `parseInt` produces. */
  function Mul(x: Number, y: Number): Number
    requires !x.Infinity? && !y.Infinity?
  {
    if x.Finite? && y.Finite? then Finite(x.v * y.v) else NaN
  }

  /** `(parseInt(page) - 1) * parseInt(limit)` */
  function Offset(page: Number, limit: Number): (r: Number)
    requires !page.Infinity? && !limit.Infinity?
    ensures r.Finite? <==> page.Finite? && limit.Finite?
    ensures r.Finite? ==> r.v == (page.v - 1) * limit.v
  {
    Mul(Pred(page), limit)
  }

  /** `Math.ceil(total / limit)` for a row count `total`. */
  function TotalPages(total: nat, limit: Number): (r: Number)
    requires !limit.Infinity?
    ensures limit.Finite? && limit.v > 0 ==>
              r.Finite? && r.v >= 0 && (r.v - 1) * limit.v < total <= r.v * limit.v
    ensures limit.NaN? ==> r.NaN?
    ensures limit == Finite(0) ==> r == (if total == 0 then NaN else Infinity)
  {
    match limit
    case NaN => NaN
    case Finite(l) =>
      if l == 0 then (if total == 0 then NaN else Infinity)
      else Finite(CeilDiv(total, l))
  }

  /** A query-string value, or the default the handler destructures with when
      the key is absent. An empty value is kept: only `undefined` takes the
      default. */
  function QueryValue(query: map<string, string>, key: string, default: string): string {
    if key in query then query[key] else default
  }

  /** The `page` and `limit` query values read by `parseInt`, and the
      offset `(page - 1) * limit` derived from them. */
  datatype Paging = Paging(page: Number, limit: Number, offset: Number)

  /** Paging of a list handler whose absent `page` and `limit` default to
      the given texts. */
  function ReadPaging(query: map<string, string>, pageDefault: string, limitDefault: string): (p: Paging)
    ensures p.page == ParseInt(QueryValue(query, "page", pageDefault))
    ensures p.limit == ParseInt(QueryValue(query, "limit", limitDefault))
    ensures !p.page.Infinity? && !p.limit.Infinity?
    ensures p.offset.Finite? <==> p.page.Finite? && p.limit.Finite?
    ensures p.offset.Finite? ==> p.offset.v == (p.page.v - 1) * p.limit.v
  {
    var page := ParseInt(QueryValue(query, "page", pageDefault));
    var limit := ParseInt(QueryValue(query, "limit", limitDefault));
    Paging(page, limit, Offset(page, limit))
  }

  /** Whether the database accepts the paging as the `LIMIT` and `OFFSET`
      values: both MySQL and PostgreSQL refuse `NaN` and negative numbers,
      and the list handlers' `catch` then answers 500. */
  predicate Bindable(p: Paging) {
    p.limit.Finite? && p.limit.v >= 0 && p.offset.Finite? && p.offset.v >= 0
  }
}

=== FILE: passport.dfy ===
/** The Google strategy's verify callback of `backend/config/passport.js`:
    find the account by Google id, else link it by email, else insert a new
    account, retrying on username collisions at most five times. Run
    sequentially over the abstract `users` table, whose `username` column is
    unique. */
module Passport {
  import opened Options
  import opened Strings
  import opened Store

  /** The fields of the Google profile the callback reads. */
  datatype Profile = Profile(
    id: string,
    displayName: Option<string>,
    emails: seq<string>,
    photos: Option<seq<string>>)   // `None`: the profile has no `photos` array

  /** Why the callback passed an error to passport. */
  datatype Failure =
    | NoEmail                       // `profile.emails[0]` is undefined
    | UniqueViolation(detail: string)
    | DatabaseFault                 // any other database error
    | RetriesExhausted              // Failed to create user after multiple retries
    | PhotosUndefined               // `profile.photos[0]` read on `undefined`

  datatype Reconciled =
    | Authenticated(user: User, users: Users, attempts: nat)
    | Failed(failure: Failure, users: Users)

  /** `profile.displayName || profile.emails[0].value.split('@')[0]` */
  function NameSeed(p: Profile): (r: string)
    requires |p.emails| > 0
    ensures p.displayName.Some? && p.displayName.value != "" ==> r == p.displayName.value
    ensures !(p.displayName.Some? && p.displayName.value != "") ==>
              r == Split(p.emails[0], '@')[0] && '@' !in r
  {
    if p.displayName.Some? && p.displayName.value != "" then p.displayName.value
    else
      var parts := Split(p.emails[0], '@');
      SplitPartsFree(p.emails[0], '@');
      parts[0]
  }

  /** No part of a split holds the separator. */
  lemma SplitPartsFree(s: string, c: char)
    ensures c !in Split(s, c)[0]
  {
    var k := IndexOf(s, c);
    if k < |s| {
      assert Split(s, c)[0] == s[..k];
    }
  }

  /** The retry name: the seed without white space, `_`, and
      `Math.floor(1000 + Math.random() * 9000)`, here `1000 + roll % 9000`
      for an arbitrary draw `roll`. */
  function RetryName(seed: string, roll: nat): (r: string)
    ensures exists n :: 1000 <= n <= 9999 && r == StripWhite(seed) + "_" + NatToString(n)
  {
    StripWhite(seed) + "_" + NatToString(1000 + roll % 9000)
  }

  /** The `detail` PostgreSQL reports for a duplicate username. */
  function UsernameDetail(name: string): string {
    "Key (username)=(" + name + ") already exists."
  }

  /** The usernames in the table. */
  function Usernames(users: Users): (r: seq<string>)
    ensures |r| == |users| && forall i :: 0 <= i < |r| ==> r[i] == users[i].username
  {
    seq(|users|, i requires 0 <= i < |users| => users[i].username)
  }

  /** When a unique violation is treated as an email conflict and rethrown;
      otherwise it is taken for a username conflict and retried. */
  type ConflictRule = string -> bool

  /** As written: any detail mentioning `email`. */
  function IsEmailConflictAsWritten(detail: string): (r: bool)
    ensures r <==> exists i :: OccursAt(detail, "email", i)
  {
    ContainsIff(detail, "email");
    Contains(detail, "email")
  }

  /** As intended: a violation of the `email` key. */
  function IsEmailConflict(detail: string): (r: bool)
    ensures r <==> |detail| >= 12 && detail[..12] == "Key (email)="
  {
    StartsWith(detail, "Key (email)=")
  }

  /** No username collision is mistaken for an email conflict under the
      intended rule. */
  lemma UsernameDetailNotEmail(name: string)
    ensures !IsEmailConflict(UsernameDetail(name))
  {
    assert UsernameDetail(name)[5] == 'u';
    assert "Key (email)="[5] == 'e';
  }

  /** The insert loop from attempt `attempt` on (`retries` in the source),
      trying `name`. `fault(i)` says attempt `i` hits a database error other
      than a unique violation; `roll(i)` is the draw after collision `i`. */
  function InsertLoop(users: Users, p: Profile, name: string, attempt: nat,
                      roll: nat -> nat, fault: nat -> bool, rule: ConflictRule, newId: nat, now: int)
    : (r: Reconciled)
    requires |p.emails| > 0 && attempt <= 5
    ensures r.Authenticated? ==> attempt <= r.attempts < 5
    ensures r.Failed? ==> r.users == users
    ensures r.Authenticated? ==>
              && r.user.id == newId && r.user.email == p.emails[0]
              && r.user.googleId == Some(p.id) && r.user.password.None?
              && r.user.username !in Usernames(users)
              && r.users == users + [r.user]
              && p.photos.Some?
              && r.user.avatar == (if |p.photos.value| > 0 then Some(p.photos.value[0]) else None)
    ensures attempt < 5 && p.photos.None? ==> r == Failed(PhotosUndefined, users)
    decreases 5 - attempt
  {
    if attempt == 5 then Failed(RetriesExhausted, users)
    else if p.photos.None? then Failed(PhotosUndefined, users)
    else if fault(attempt) then Failed(DatabaseFault, users)
    else if name in Usernames(users) then
      var detail := UsernameDetail(name);
      if rule(detail) then Failed(UniqueViolation(detail), users)
      else InsertLoop(users, p, RetryName(NameSeed(p), roll(attempt)), attempt + 1,
                      roll, fault, rule, newId, now)
    else
      var avatar := if |p.photos.value| > 0 then Some(p.photos.value[0]) else None;
      var u := User(newId, name, p.emails[0], None, Some(p.id), avatar, now);
      Authenticated(u, users + [u], attempt)
  }

  /** Index of the first account linked to the Google id. */
  function ByGoogleId(users: Users, gid: string): (k: nat)
    ensures k <= |users|
    ensures forall i :: 0 <= i < k ==> users[i].googleId != Some(gid)
    ensures k < |users| ==> users[k].googleId == Some(gid)
  {
    FindFirst(users, (u: User) => u.googleId == Some(gid))
  }

  /** The verify callback with a given reading of unique violations; with
      `IsEmailConflictAsWritten` it is the callback as written. Whatever the
      reading: a linked account is returned and nothing is written; a
      profile without email fails; an account with the profile's email has
      only its Google id set; a failure writes nothing; and a new account is
      the one row appended. */
  function ReconcileWith(users: Users, p: Profile, roll: nat -> nat, fault: nat -> bool,
                         rule: ConflictRule, newId: nat, now: int)
    : (r: Reconciled)
    ensures ByGoogleId(users, p.id) < |users| ==> r == Authenticated(users[ByGoogleId(users, p.id)], users, 0)
    ensures ByGoogleId(users, p.id) == |users| && |p.emails| == 0 ==> r == Failed(NoEmail, users)
    ensures ByGoogleId(users, p.id) == |users| && |p.emails| > 0 ==>
              var e := FindFirst(users, (u: User) => u.email == p.emails[0]);
              e < |users| ==>
                && r.Authenticated? && r.attempts == 0
                && r.user == users[e].(googleId := Some(p.id))
                && r.users == LinkGoogleId(users, users[e].id, p.id)
    ensures r.Failed? ==> r.users == users
    ensures r.Authenticated? ==> r.user.googleId == Some(p.id) && r.attempts < 5
    ensures r.Authenticated? && |r.users| != |users| ==>
              r.users == users + [r.user] && r.user.id == newId && r.user.username !in Usernames(users)
  {
    var g := ByGoogleId(users, p.id);
    if g < |users| then Authenticated(users[g], users, 0)
    else if |p.emails| == 0 then Failed(NoEmail, users)
    else
      var e := FindFirst(users, (u: User) => u.email == p.emails[0]);
      if e < |users| then
        var linked := users[e].(googleId := Some(p.id));
        Authenticated(linked, LinkGoogleId(users, users[e].id, p.id), 0)
      else InsertLoop(users, p, NameSeed(p), 0, roll, fault, rule, newId, now)
  }

  /** `UPDATE users SET google_id = $1 WHERE id = $2` */
  function LinkGoogleId(users: Users, id: nat, gid: string): (r: Users)
    ensures |r| == |users|
    ensures forall i :: 0 <= i < |r| ==>
              r[i] == (if users[i].id == id then users[i].(googleId := Some(gid)) else users[i])
  {
    seq(|users|, i requires 0 <= i < |users| =>
          if users[i].id == id then users[i].(googleId := Some(gid)) else users[i])
  }

  /** The callback as intended: only an `email` key violation is rethrown. */
  function Reconcile(users: Users, p: Profile, roll: nat -> nat, fault: nat -> bool,
                     newId: nat, now: int)
    : (r: Reconciled)
    requires FreshId(users, newId)
    ensures (exists u :: u in users && u.googleId == Some(p.id)) ==>
              r.Authenticated? && r.users == users && r.user in users
              && r.user.googleId == Some(p.id)
    ensures r.Failed? ==> r.users == users
    ensures r.Failed? ==> !r.failure.UniqueViolation?
    ensures r.Authenticated? ==> r.attempts < 5 && r.user.googleId == Some(p.id)
  {
    var r := ReconcileWith(users, p, roll, fault, IsEmailConflict, newId, now);
    if ByGoogleId(users, p.id) == |users| && |p.emails| > 0
       && FindFirst(users, (u: User) => u.email == p.emails[0]) == |users| then
      NoUniqueViolation(users, p, NameSeed(p), 0, roll, fault, newId, now);
      r
    else r
  }

  /** Under the intended rule the loop never ends in a unique violation. */
  lemma {:induction false} NoUniqueViolation(users: Users, p: Profile, name: string, attempt: nat,
                                             roll: nat -> nat, fault: nat -> bool, newId: nat, now: int)
    requires |p.emails| > 0 && attempt <= 5
    ensures !InsertLoop(users, p, name, attempt, roll, fault, IsEmailConflict, newId, now).Failed?
            || !InsertLoop(users, p, name, attempt, roll, fault, IsEmailConflict, newId, now).failure.UniqueViolation?
    decreases 5 - attempt
  {
    if attempt < 5 && !fault(attempt) && name in Usernames(users) {
      UsernameDetailNotEmail(name);
      NoUniqueViolation(users, p, RetryName(NameSeed(p), roll(attempt)), attempt + 1,
                        roll, fault, newId, now);
    }
  }

  /** An account already linked to the Google id is returned as it is and
      nothing is written. */
  lemma KnownGoogleAccount(users: Users, p: Profile, roll: nat -> nat, fault: nat -> bool,
                           rule: ConflictRule, newId: nat, now: int)
    requires ByGoogleId(users, p.id) < |users|
    ensures ReconcileWith(users, p, roll, fault, rule, newId, now)
              == Authenticated(users[ByGoogleId(users, p.id)], users, 0)
  {
  }

  /** An account with the profile's email is linked: only its Google id
      changes, its password is kept, and the returned record is the old row
      with the Google id set. */
  lemma LinkByEmail(users: Users, p: Profile, roll: nat -> nat, fault: nat -> bool,
                    rule: ConflictRule, newId: nat, now: int, e: nat)
    requires UniqueIds(users)
    requires ByGoogleId(users, p.id) == |users| && |p.emails| > 0
    requires e == FindFirst(users, (u: User) => u.email == p.emails[0]) && e < |users|
    ensures var r := ReconcileWith(users, p, roll, fault, rule, newId, now);
            && r.Authenticated? && r.attempts == 0
            && r.user == users[e].(googleId := Some(p.id))
            && r.user.password == users[e].password
            && |r.users| == |users| && r.users[e] == r.user
            && forall i :: 0 <= i < |users| && i != e ==> r.users[i] == users[i]
  {
  }

  /** A new account first tries the seed name itself. */
  lemma FirstTryUsesSeed(users: Users, p: Profile, roll: nat -> nat, fault: nat -> bool,
                         rule: ConflictRule, newId: nat, now: int)
    requires ByGoogleId(users, p.id) == |users| && |p.emails| > 0
    requires FindFirst(users, (u: User) => u.email == p.emails[0]) == |users|
    requires !fault(0) && NameSeed(p) !in Usernames(users) && p.photos.Some?
    ensures var r := ReconcileWith(users, p, roll, fault, rule, newId, now);
            r.Authenticated? && r.user.username == NameSeed(p) && r.attempts == 0
            && r.user.avatar == (if |p.photos.value| > 0 then Some(p.photos.value[0]) else None)
  {
  }

  /** A new account for a profile without a `photos` array is never
      created: building the insert's parameters throws, and the error is
      not a unique violation, so it reaches passport. */
  lemma MissingPhotosFail(users: Users, p: Profile, roll: nat -> nat, fault: nat -> bool,
                          rule: ConflictRule, newId: nat, now: int)
    requires ByGoogleId(users, p.id) == |users| && |p.emails| > 0
    requires FindFirst(users, (u: User) => u.email == p.emails[0]) == |users|
    requires p.photos.None?
    ensures ReconcileWith(users, p, roll, fault, rule, newId, now) == Failed(PhotosUndefined, users)
  {
  }

  /** A database error other than a unique violation ends the loop at once. */
  lemma FaultNotRetried(users: Users, p: Profile, name: string, attempt: nat, roll: nat -> nat,
                        fault: nat -> bool, rule: ConflictRule, newId: nat, now: int)
    requires |p.emails| > 0 && attempt < 5 && fault(attempt) && p.photos.Some?
    ensures InsertLoop(users, p, name, attempt, roll, fault, rule, newId, now)
              == Failed(DatabaseFault, users)
  {
  }

  /** Five taken names in a row exhaust the retries: the seed name and the
      four retry names drawn after it. */
  lemma {:induction false} FiveCollisionsFail(users: Users, p: Profile, name: string, attempt: nat,
                                              roll: nat -> nat, fault: nat -> bool, newId: nat, now: int)
    requires |p.emails| > 0 && attempt <= 5
    requires attempt < 5 ==> name in Usernames(users)
    requires forall i :: attempt <= i < 4 ==> RetryName(NameSeed(p), roll(i)) in Usernames(users)
    requires forall i :: attempt <= i < 5 ==> !fault(i)
    requires attempt < 5 ==> p.photos.Some?
    ensures InsertLoop(users, p, name, attempt, roll, fault, IsEmailConflict, newId, now)
              == Failed(RetriesExhausted, users)
    decreases 5 - attempt
  {
    if attempt < 5 {
      UsernameDetailNotEmail(name);
      FiveCollisionsFail(users, p, RetryName(NameSeed(p), roll(attempt)), attempt + 1,
                         roll, fault, newId, now);
    }
  }

  /** Signing in twice with the same profile gives the same account and
      writes nothing the second time. */
  lemma ReconcileIdempotent(users: Users, p: Profile, roll: nat -> nat, fault: nat -> bool,
                            newId: nat, now: int, newId2: nat, now2: int)
    requires UniqueIds(users) && FreshId(users, newId)
    requires Reconcile(users, p, roll, fault, newId, now).Authenticated?
    ensures var r := Reconcile(users, p, roll, fault, newId, now);
            ReconcileWith(r.users, p, roll, fault, IsEmailConflict, newId2, now2)
              == Authenticated(r.user, r.users, 0)
  {
    var r := Reconcile(users, p, roll, fault, newId, now);
    var g := ByGoogleId(users, p.id);
    if g == |users| && |p.emails| > 0 {
      var e := FindFirst(users, (u: User) => u.email == p.emails[0]);
      if e < |users| {
        var after := r.users;
        assert after == LinkGoogleId(users, users[e].id, p.id);
        assert after[e].googleId == Some(p.id);
        forall i | 0 <= i < e ensures after[i].googleId != Some(p.id) {
          assert users[i].id != users[e].id;
        }
        assert ByGoogleId(after, p.id) == e;
      } else {
        var after := r.users;
        assert after == users + [r.user];
        assert after[|users|].googleId == Some(p.id);
        assert forall i :: 0 <= i < |users| ==> after[i] == users[i];
        assert ByGoogleId(after, p.id) == |users|;
      }
    }
  }

  /** As written, a taken username that contains `email` is rethrown
      instead of retried, because the collision detail quotes the name. */
  lemma EmailInUsernameRethrown(users: Users, p: Profile, roll: nat -> nat, fault: nat -> bool,
                                newId: nat, now: int)
    requires ByGoogleId(users, p.id) == |users| && |p.emails| > 0
    requires FindFirst(users, (u: User) => u.email == p.emails[0]) == |users|
    requires Contains(NameSeed(p), "email") && NameSeed(p) in Usernames(users) && !fault(0)
    requires p.photos.Some?
    ensures ReconcileWith(users, p, roll, fault, IsEmailConflictAsWritten, newId, now)
              == Failed(UniqueViolation(UsernameDetail(NameSeed(p))), users)
  {
    DetailQuotesName(NameSeed(p));
  }

  lemma DetailQuotesName(name: string)
    requires Contains(name, "email")
    ensures IsEmailConflictAsWritten(UsernameDetail(name))
  {
    ContainsInContext("Key (username)=(", name, ") already exists.", "email");
    ContainsIff(UsernameDetail(name), "email");
  }

  /** The display name `emailfan` is such a name. */
  lemma EmailfanMentionsEmail()
    ensures Contains("emailfan", "email")
  {
    assert "emailfan"[0..5] == "email";
    OccursContains("emailfan", "email", 0);
  }

  /** With the intended rule any taken seed name, `emailfan` included, is
      retried under a fresh name. */
  lemma TakenSeedRetried(users: Users, p: Profile, roll: nat -> nat, fault: nat -> bool,
                         newId: nat, now: int)
    requires FreshId(users, newId)
    requires ByGoogleId(users, p.id) == |users| && |p.emails| > 0
    requires FindFirst(users, (u: User) => u.email == p.emails[0]) == |users|
    requires NameSeed(p) in Usernames(users) && !fault(0) && !fault(1)
    requires RetryName(NameSeed(p), roll(0)) !in Usernames(users) && p.photos.Some?
    ensures var r := Reconcile(users, p, roll, fault, newId, now);
            r.Authenticated? && r.attempts == 1 && r.user.username == RetryName(NameSeed(p), roll(0))
  {
    var seed := NameSeed(p);
    UsernameDetailNotEmail(seed);
    assert InsertLoop(users, p, seed, 0, roll, fault, IsEmailConflict, newId, now)
           == InsertLoop(users, p, RetryName(seed, roll(0)), 1, roll, fault, IsEmailConflict, newId, now);
  }
}

=== FILE: schemas.dfy ===
/** The five Joi schemas of `backend/validators/validators.js`, written in
    the terms of the `Validators` interpreter, and what each promises the
    handler behind it. */
module Schemas {
  import opened Options
  import opened Json
  import opened Store
  import opened Validators
  import opened Strings

  const EventTypes: seq<string> := ["conference", "concert", "workshop", "meetup"]
  const EventStatuses: seq<string> := ["upcoming", "completed", "cancelled"]

  /** A required key with custom messages. */
  function Required(key: string, kind: Kind, messages: seq<(string, string)>): Field {
    Field(key, kind, true, false, None, messages)
  }

  /** The same checks with no presence requirement, default or custom
      message, as in the update schema. */
  function Optional(f: Field): Field {
    Field(f.key, f.kind, false, f.allowNull, None, [])
  }

  // ---- registration and login ----

  const Username := Required("username", StringKind([MinLen(3), MaxLen(50)], false),
    [("string.min", "Username must be at least 3 characters"),
     ("string.max", "Username cannot exceed 50 characters"),
     ("any.required", "Username is required")])

  const EmailField := Required("email", StringKind([EmailRule], false),
    [("string.email", "Please provide a valid email"), ("any.required", "Email is required")])

  const Password := Required("password", StringKind([MinLen(6)], false),
    [("string.min", "Password must be at least 6 characters"), ("any.required", "Password is required")])

  const LoginPassword := Required("password", StringKind([], false), [("any.required", "Password is required")])

  const RegisterSchema: Schema := [Username, EmailField, Password]
  const LoginSchema: Schema := [EmailField, LoginPassword]

  // ---- events ----

  const EventName := Required("name", StringKind([MinLen(3), MaxLen(200)], false),
    [("string.min", "Event name must be at least 3 characters"),
     ("string.max", "Event name cannot exceed 200 characters"),
     ("any.required", "Event name is required")])

  const EventType := Required("type", ValidKind(EventTypes),
    [("any.only", "Type must be one of: conference, concert, workshop, meetup"),
     ("any.required", "Event type is required")])

  const Description := Field("description", StringKind([MaxLen(2000)], true), false, false, None, [])

  const EventDate := Required("date", DateKind(None), [("any.required", "Event date is required")])

  /** `Joi.date().greater(Joi.ref('date')).allow(null)` */
  const EndDate := Field("end_date", DateKind(Some("date")), false, true, None,
    [("date.greater", "End date must be after start date")])

  const Location := Required("location", StringKind([MinLen(3), MaxLen(200)], false),
    [("string.min", "Location must be at least 3 characters"), ("any.required", "Location is required")])

  const Capacity := Field("capacity", NumberKind(1, 100000), false, false, Some(Int(100)), [])

  /** `Joi.number().min(0).max(99999.99)`; over integers the upper bound is
      99999. */
  const Price := Field("price", NumberKind(0, 99999), false, false, Some(Int(0)), [])

  const StatusField := Field("status", ValidKind(EventStatuses), false, false, Some(Text("upcoming")), [])

  const Image := Field("image", StringKind([UriRule], true), false, false, None, [])

  const EventSchema: Schema :=
    [EventName, EventType, Description, EventDate, EndDate, Location, Capacity, Price, StatusField, Image]

  /** Every key optional; the end date is a date or `null` with no
      reference to the start date. */
  const EventUpdateSchema: Schema :=
    [Optional(EventName), Optional(EventType), Optional(Description), Optional(EventDate),
     Field("end_date", DateKind(None), false, true, None, []),
     Optional(Location), Optional(Capacity), Optional(Price), Optional(StatusField), Optional(Image)]

  // ---- scraping ----

  const City := Required("city", StringKind([MinLen(2), MaxLen(100)], false),
    [("any.required", "City is required for scraping")])

  const Keyword := Required("keyword", StringKind([MinLen(2), MaxLen(100)], false),
    [("any.required", "Keyword is required for scraping")])

  const ScrapingSchema: Schema := [City, Keyword]

  // ---- what the schemas promise ----

  /** Each rule chain of these schemas fails at most once, so a 400 lists a
      text key once, and a `.valid(...)` key at most twice. */
  lemma AppSchemasSingleRuleFailure()
    ensures SingleRuleFailureSchema(RegisterSchema) && SingleRuleFailureSchema(LoginSchema)
    ensures SingleRuleFailureSchema(EventSchema) && SingleRuleFailureSchema(EventUpdateSchema)
    ensures SingleRuleFailureSchema(ScrapingSchema)
  {
  }

  /** An empty event type is reported twice: the custom `any.only` text,
      then Joi's default `string.empty` text. */
  lemma EmptyTypeTwoErrors(P: Parsers)
    ensures CheckValue(EventType, JStr(""), None, P)
              == Rejected([Detail("type", "any.only", "Type must be one of: conference, concert, workshop, meetup"),
                           Detail("type", "string.empty", Label("type") + " is not allowed to be empty")])
  {
    var m := EventType.messages;
    assert m[0].0 != "string.empty" && m[1].0 != "string.empty" by {
      assert m[0].0[0] == 'a' && m[1].0[0] == 'a';
    }
    assert Custom(m, "string.empty").None?;
  }

  /** No two keys of a schema coincide. */
  lemma EventUnique(i: nat)
    requires i < |EventSchema|
    ensures UniqueAt(EventSchema, i)
  {
  }

  lemma RegisterUnique(i: nat)
    requires i < |RegisterSchema|
    ensures UniqueAt(RegisterSchema, i)
  {
  }

  lemma ScrapingUnique(i: nat)
    requires i < |ScrapingSchema|
    ensures UniqueAt(ScrapingSchema, i)
  {
  }

  /** Text of at least `lo` and at most `hi` UTF-16 code units. */
  predicate TextWithin(v: map<string, Value>, key: string, lo: nat, hi: nat) {
    key in v && v[key].Text? && lo <= Utf16Length(v[key].s) <= hi
  }

  /** A text key with a minimum of at least one character and a maximum
      admits exactly the texts of a length in between. */
  lemma BoundedTextAdmits(f: Field, s: string, ref: Option<int>, P: Parsers, lo: nat, hi: nat)
    requires f.kind.StringKind? && !f.kind.allowEmpty && f.kind.rules == [MinLen(lo), MaxLen(hi)]
    requires lo >= 1
    ensures Admits(f, JStr(s), ref, P) <==> lo <= Utf16Length(s) <= hi
  {
    assert f.kind.rules[0] == MinLen(lo) && f.kind.rules[1] == MaxLen(hi);
  }

  /** A text key with one rule admits exactly the non-empty texts that meet
      it. */
  lemma OneRuleAdmits(f: Field, s: string, ref: Option<int>, P: Parsers, rule: Rule)
    requires f.kind.StringKind? && !f.kind.allowEmpty && f.kind.rules == [rule]
    ensures Admits(f, JStr(s), ref, P) <==> s != "" && RuleHolds(rule, s, P)
  {
    assert f.kind.rules[0] == rule;
  }

  /** What a validated text key with a minimum and a maximum holds. */
  lemma BoundedText(schema: Schema, body: Json, P: Parsers, i: nat, f: Field, lo: nat, hi: nat)
    requires i < |schema| && UniqueAt(schema, i) && Validate(schema, body, P).Valid?
    requires schema[i] == f && f.required && !f.allowNull
    requires f.kind.StringKind? && !f.kind.allowEmpty && f.kind.rules == [MinLen(lo), MaxLen(hi)]
    ensures TextWithin(Validate(schema, body, P).value, f.key, lo, hi)
  {
    ValidField(schema, body, P, i);
    var x := Lookup(body.entries, f.key).value;
    assert RuleHolds(MinLen(lo), x.s, P) && RuleHolds(MaxLen(hi), x.s, P) by {
      assert f.kind.rules[0] == MinLen(lo) && f.kind.rules[1] == MaxLen(hi);
    }
  }

  /** A key left out of a valid body takes its default, or stays out. */
  lemma DefaultWhenAbsent(schema: Schema, body: Json, P: Parsers, i: nat)
    requires i < |schema| && UniqueAt(schema, i) && Validate(schema, body, P).Valid?
    requires Lookup(body.entries, schema[i].key).None?
    ensures var v := Validate(schema, body, P).value;
            && (schema[i].default.Some? ==> schema[i].key in v && v[schema[i].key] == schema[i].default.value)
            && (schema[i].default.None? ==> schema[i].key !in v)
  {
    ValidField(schema, body, P, i);
  }

  /** What a validated number key holds, whether supplied or defaulted. */
  lemma BoundedNumber(schema: Schema, body: Json, P: Parsers, i: nat, lo: int, hi: int)
    requires i < |schema| && UniqueAt(schema, i) && Validate(schema, body, P).Valid?
    requires schema[i].kind == NumberKind(lo, hi) && !schema[i].allowNull
    requires schema[i].default.Some? && schema[i].default.value.Int?
    requires lo <= schema[i].default.value.n <= hi
    ensures var v := Validate(schema, body, P).value;
            schema[i].key in v && v[schema[i].key].Int? && lo <= v[schema[i].key].n <= hi
  {
    ValidField(schema, body, P, i);
  }

  /** What a validated choice key holds, whether supplied or defaulted. */
  lemma ChosenText(schema: Schema, body: Json, P: Parsers, i: nat, values: seq<string>)
    requires i < |schema| && UniqueAt(schema, i) && Validate(schema, body, P).Valid?
    requires schema[i].kind == ValidKind(values) && !schema[i].allowNull
    requires schema[i].required || (schema[i].default.Some? && schema[i].default.value.Text?
                                    && schema[i].default.value.s in values)
    ensures var v := Validate(schema, body, P).value;
            schema[i].key in v && v[schema[i].key].Text? && v[schema[i].key].s in values
  {
    ValidField(schema, body, P, i);
  }

  // ---- registration and login ----

  /** A validated registration has a username of 3 to 50 characters, an
      email the email parser accepts and a password of at least 6. */
  lemma RegisterValidated(body: Json, P: Parsers)
    requires Validate(RegisterSchema, body, P).Valid?
    ensures var v := Validate(RegisterSchema, body, P).value;
            && TextWithin(v, "username", 3, 50)
            && "email" in v && v["email"].Text? && v["email"].s != "" && P.isEmail(v["email"].s)
            && "password" in v && v["password"].Text? && Utf16Length(v["password"].s) >= 6
  {
    RegisterUnique(0);
    BoundedText(RegisterSchema, body, P, 0, Username, 3, 50);
    RegisterUnique(1);
    ValidField(RegisterSchema, body, P, 1);
    RegisterUnique(2);
    ValidField(RegisterSchema, body, P, 2);
    var v := Validate(RegisterSchema, body, P).value;
    assert RuleHolds(EmailField.kind.rules[0], v["email"].s, P);
    assert RuleHolds(Password.kind.rules[0], v["password"].s, P);
  }

  /** A registration body of exactly the three strings. */
  function RegisterBody(username: string, email: string, password: string): seq<(string, Json)> {
    [("username", JStr(username)), ("email", JStr(email)), ("password", JStr(password))]
  }

  lemma RegisterBodyLookups(username: string, email: string, password: string)
    ensures var es := RegisterBody(username, email, password);
            && Lookup(es, "username") == Some(JStr(username))
            && Lookup(es, "email") == Some(JStr(email))
            && Lookup(es, "password") == Some(JStr(password))
  {
    var es := RegisterBody(username, email, password);
    LookupSole(es, 0);
    LookupSole(es, 1);
    LookupSole(es, 2);
  }

  lemma UsernamePasses(username: string, email: string, password: string, P: Parsers)
    ensures FieldPasses(Username, RegisterBody(username, email, password), P) <==> 3 <= Utf16Length(username) <= 50
  {
    var es := RegisterBody(username, email, password);
    RegisterBodyLookups(username, email, password);
    BoundedTextAdmits(Username, username, Reference(Username, es, P), P, 3, 50);
  }

  /** Two emoji make a username of JavaScript length 4, which Joi accepts. */
  lemma EmojiUsernamePasses(email: string, password: string, P: Parsers)
    ensures FieldPasses(Username, RegisterBody("\U{1F600}\U{1F600}", email, password), P)
  {
    UsernamePasses("\U{1F600}\U{1F600}", email, password, P);
    TwoEmoji();
  }

  lemma EmailPasses(username: string, email: string, password: string, P: Parsers)
    ensures FieldPasses(EmailField, RegisterBody(username, email, password), P) <==> email != "" && P.isEmail(email)
  {
    var es := RegisterBody(username, email, password);
    RegisterBodyLookups(username, email, password);
    OneRuleAdmits(EmailField, email, Reference(EmailField, es, P), P, EmailRule);
  }

  lemma PasswordPasses(username: string, email: string, password: string, P: Parsers)
    ensures FieldPasses(Password, RegisterBody(username, email, password), P) <==> Utf16Length(password) >= 6
  {
    var es := RegisterBody(username, email, password);
    RegisterBodyLookups(username, email, password);
    OneRuleAdmits(Password, password, Reference(Password, es, P), P, MinLen(6));
  }

  /** Every key of the body is one the schema knows. */
  lemma RegisterBodyKnown(username: string, email: string, password: string)
    ensures var es := RegisterBody(username, email, password);
            forall j :: 0 <= j < |es| ==> es[j].0 in Keys(RegisterSchema)
  {
    assert Keys(RegisterSchema) == ["username", "email", "password"];
  }

  /** A three-key schema passes when each of its keys does. */
  lemma AllPasses3(schema: Schema, es: seq<(string, Json)>, P: Parsers)
    requires |schema| == 3
    ensures (forall i :: 0 <= i < |schema| ==> FieldPasses(schema[i], es, P)) <==>
              FieldPasses(schema[0], es, P) && FieldPasses(schema[1], es, P) && FieldPasses(schema[2], es, P)
  {
  }

  /** The converse, for a body of exactly the three strings. */
  lemma RegisterAccepts(username: string, email: string, password: string, P: Parsers)
    ensures Validate(RegisterSchema, JObj(RegisterBody(username, email, password)), P).Valid? <==>
              3 <= Utf16Length(username) <= 50 && email != "" && P.isEmail(email) && Utf16Length(password) >= 6
  {
    var es := RegisterBody(username, email, password);
    RegisterBodyKnown(username, email, password);
    ValidIff(RegisterSchema, es, P);
    AllPasses3(RegisterSchema, es, P);
    UsernamePasses(username, email, password, P);
    EmailPasses(username, email, password, P);
    PasswordPasses(username, email, password, P);
  }

  /** Login asks nothing of the password beyond being non-empty text. */
  lemma LoginAcceptsAnyPassword(email: string, password: string, P: Parsers)
    ensures var body := JObj(LoginBody(email, password));
            (Validate(LoginSchema, body, P).Valid? <==> email != "" && P.isEmail(email) && password != "")
  {
    var es := LoginBody(email, password);
    LoginBodyKnown(email, password);
    ValidIff(LoginSchema, es, P);
    AllPasses2(LoginSchema, es, P);
    LoginEmailPasses(email, password, P);
    LoginPasswordPasses(email, password, P);
  }

  /** A login body of exactly the two strings. */
  function LoginBody(email: string, password: string): seq<(string, Json)> {
    [("email", JStr(email)), ("password", JStr(password))]
  }

  lemma LoginBodyLookups(email: string, password: string)
    ensures Lookup(LoginBody(email, password), "email") == Some(JStr(email))
    ensures Lookup(LoginBody(email, password), "password") == Some(JStr(password))
  {
    LookupSole(LoginBody(email, password), 0);
    LookupSole(LoginBody(email, password), 1);
  }

  lemma LoginBodyKnown(email: string, password: string)
    ensures var es := LoginBody(email, password);
            forall j :: 0 <= j < |es| ==> es[j].0 in Keys(LoginSchema)
  {
    assert Keys(LoginSchema) == ["email", "password"];
  }

  lemma LoginEmailPasses(email: string, password: string, P: Parsers)
    ensures FieldPasses(EmailField, LoginBody(email, password), P) <==> email != "" && P.isEmail(email)
  {
    var es := LoginBody(email, password);
    LoginBodyLookups(email, password);
    OneRuleAdmits(EmailField, email, Reference(EmailField, es, P), P, EmailRule);
  }

  lemma LoginPasswordPasses(email: string, password: string, P: Parsers)
    ensures FieldPasses(LoginPassword, LoginBody(email, password), P) <==> password != ""
  {
    LoginBodyLookups(email, password);
  }

  /** A two-key schema passes when each of its keys does. */
  lemma AllPasses2(schema: Schema, es: seq<(string, Json)>, P: Parsers)
    requires |schema| == 2
    ensures (forall i :: 0 <= i < |schema| ==> FieldPasses(schema[i], es, P)) <==>
              FieldPasses(schema[0], es, P) && FieldPasses(schema[1], es, P)
  {
  }

  /** The custom messages do not cover an empty username: Joi's default
      text is reported, not "Username must be at least 3 characters". */
  lemma EmptyUsernameMessage(P: Parsers)
    ensures CheckValue(Username, JStr(""), None, P)
              == Rejected([Detail("username", "string.empty", Label("username") + " is not allowed to be empty")])
  {
    var m := Username.messages;
    assert m[0].0 != "string.empty" && m[1].0 != "string.empty" && m[2].0 != "string.empty" by {
      assert m[0].0[7] == 'm' && m[1].0[7] == 'm' && m[2].0[0] == 'a';
      assert "string.empty"[7] == 'e';
    }
    assert Custom(m, "string.empty").None?;
  }

  /** A short username is reported with its custom message. */
  lemma ShortUsernameMessage(name: string, P: Parsers)
    requires 0 < Utf16Length(name) < 3
    ensures CheckValue(Username, JStr(name), None, P)
              == Rejected([Detail("username", "string.min", "Username must be at least 3 characters")])
  {
    var f := Username;
    assert f.kind.rules[1..][1..] == [];
    assert RuleErrors(f, f.kind.rules[1..], name, P) == [];
  }

  // ---- events ----

  lemma EventNameValid(body: Json, P: Parsers)
    requires Validate(EventSchema, body, P).Valid?
    ensures TextWithin(Validate(EventSchema, body, P).value, "name", 3, 200)
  {
    EventUnique(0);
    BoundedText(EventSchema, body, P, 0, EventName, 3, 200);
  }

  lemma EventLocationValid(body: Json, P: Parsers)
    requires Validate(EventSchema, body, P).Valid?
    ensures TextWithin(Validate(EventSchema, body, P).value, "location", 3, 200)
  {
    EventUnique(5);
    BoundedText(EventSchema, body, P, 5, Location, 3, 200);
  }

  lemma EventTypeValid(body: Json, P: Parsers)
    requires Validate(EventSchema, body, P).Valid?
    ensures var v := Validate(EventSchema, body, P).value;
            "type" in v && v["type"].Text? && v["type"].s in EventTypes
  {
    EventUnique(1);
    ChosenText(EventSchema, body, P, 1, EventTypes);
  }

  lemma EventStatusValid(body: Json, P: Parsers)
    requires Validate(EventSchema, body, P).Valid?
    ensures var v := Validate(EventSchema, body, P).value;
            "status" in v && v["status"].Text? && v["status"].s in EventStatuses
  {
    EventUnique(8);
    ChosenText(EventSchema, body, P, 8, EventStatuses);
  }

  lemma EventCapacityValid(body: Json, P: Parsers)
    requires Validate(EventSchema, body, P).Valid?
    ensures var v := Validate(EventSchema, body, P).value;
            "capacity" in v && v["capacity"].Int? && 1 <= v["capacity"].n <= 100000
  {
    EventUnique(6);
    BoundedNumber(EventSchema, body, P, 6, 1, 100000);
  }

  lemma EventPriceValid(body: Json, P: Parsers)
    requires Validate(EventSchema, body, P).Valid?
    ensures var v := Validate(EventSchema, body, P).value;
            "price" in v && v["price"].Int? && 0 <= v["price"].n <= 99999
  {
    EventUnique(7);
    BoundedNumber(EventSchema, body, P, 7, 0, 99999);
  }

  /** A required date key with no reference holds the supplied date. */
  lemma RequiredDate(schema: Schema, body: Json, P: Parsers, i: nat, f: Field)
    requires i < |schema| && UniqueAt(schema, i) && Validate(schema, body, P).Valid?
    requires schema[i] == f && f.required && !f.allowNull && f.kind == DateKind(None)
    ensures var v := Validate(schema, body, P).value;
            var x := Lookup(body.entries, f.key);
            && x.Some? && AsDate(x.value, P).Some?
            && f.key in v && v[f.key] == Date(AsDate(x.value, P).value)
  {
    ValidField(schema, body, P, i);
  }

  /** A date key that refers to another holds `null` or a date later than
      the other key's supplied date. */
  lemma LaterDate(schema: Schema, body: Json, P: Parsers, i: nat, f: Field, other: string)
    requires i < |schema| && UniqueAt(schema, i) && Validate(schema, body, P).Valid?
    requires schema[i] == f && f.kind == DateKind(Some(other)) && f.default.None?
    ensures var v := Validate(schema, body, P).value;
            var x := Lookup(body.entries, other);
            f.key in v ==>
              v[f.key] == Null
              || (v[f.key].Date? && x.Some? && AsDate(x.value, P).Some? && v[f.key].ms > AsDate(x.value, P).value)
  {
    ValidField(schema, body, P, i);
  }

  /** The start date of a validated event is the supplied one, converted. */
  lemma EventStart(body: Json, P: Parsers)
    requires Validate(EventSchema, body, P).Valid?
    ensures var v := Validate(EventSchema, body, P).value;
            var date := Lookup(body.entries, "date");
            && date.Some? && AsDate(date.value, P).Some?
            && "date" in v && v["date"] == Date(AsDate(date.value, P).value)
  {
    EventUnique(3);
    RequiredDate(EventSchema, body, P, 3, EventDate);
  }

  /** The end date of a validated event is `null` or later than the
      supplied start date. */
  lemma EventEnd(body: Json, P: Parsers)
    requires Validate(EventSchema, body, P).Valid?
    ensures var v := Validate(EventSchema, body, P).value;
            var date := Lookup(body.entries, "date");
            "end_date" in v ==>
              v["end_date"] == Null
              || (v["end_date"].Date? && date.Some? && AsDate(date.value, P).Some?
                  && v["end_date"].ms > AsDate(date.value, P).value)
  {
    EventUnique(4);
    LaterDate(EventSchema, body, P, 4, EndDate, "date");
  }

  /** A validated event has a listed type and status, capacity and price
      within bounds (the defaults when absent), a date, and an end date that
      is `null` or later than the date. */
  lemma EventValidated(body: Json, P: Parsers)
    requires Validate(EventSchema, body, P).Valid?
    ensures var v := Validate(EventSchema, body, P).value;
            && TextWithin(v, "name", 3, 200)
            && "type" in v && v["type"].Text? && v["type"].s in EventTypes
            && "date" in v && v["date"].Date?
            && ("end_date" in v ==> v["end_date"] == Null || (v["end_date"].Date? && v["end_date"].ms > v["date"].ms))
            && TextWithin(v, "location", 3, 200)
            && "capacity" in v && v["capacity"].Int? && 1 <= v["capacity"].n <= 100000
            && "price" in v && v["price"].Int? && 0 <= v["price"].n <= 99999
            && "status" in v && v["status"].Text? && v["status"].s in EventStatuses
  {
    EventNameValid(body, P);
    EventTypeValid(body, P);
    EventStart(body, P);
    EventEnd(body, P);
    EventLocationValid(body, P);
    EventCapacityValid(body, P);
    EventPriceValid(body, P);
    EventStatusValid(body, P);
  }

  /** A key of the creation schema left out of a valid body takes its
      default, or stays out. */
  lemma EventDefault(body: Json, P: Parsers, i: nat, f: Field)
    requires i < |EventSchema| && EventSchema[i] == f && Validate(EventSchema, body, P).Valid?
    requires Lookup(body.entries, f.key).None?
    ensures var v := Validate(EventSchema, body, P).value;
            && (f.default.Some? ==> f.key in v && v[f.key] == f.default.value)
            && (f.default.None? ==> f.key !in v)
  {
    EventUnique(i);
    DefaultWhenAbsent(EventSchema, body, P, i);
  }

  /** Capacity, price and status take their defaults when the body leaves
      them out; a left-out description stays out. */
  lemma EventDefaults(body: Json, P: Parsers)
    requires Validate(EventSchema, body, P).Valid?
    ensures var v := Validate(EventSchema, body, P).value;
            && (Lookup(body.entries, "capacity").None? ==> "capacity" in v && v["capacity"] == Int(100))
            && (Lookup(body.entries, "price").None? ==> "price" in v && v["price"] == Int(0))
            && (Lookup(body.entries, "status").None? ==> "status" in v && v["status"] == Text("upcoming"))
            && (Lookup(body.entries, "description").None? ==> "description" !in v)
  {
    var es := body.entries;
    if Lookup(es, "description").None? { EventDefault(body, P, 2, Description); }
    if Lookup(es, "capacity").None? { EventDefault(body, P, 6, Capacity); }
    if Lookup(es, "price").None? { EventDefault(body, P, 7, Price); }
    if Lookup(es, "status").None? { EventDefault(body, P, 8, StatusField); }
  }

  /** Every key of an update is optional and none has a default: an empty
      body passes as an empty patch. */
  lemma EmptyUpdateAccepted(P: Parsers)
    ensures Validate(EventUpdateSchema, JObj([]), P) == Valid(map[])
  {
    EmptyBodyEmptyValue(EventUpdateSchema, P);
  }

  /** An update body of a start date and an end date. */
  function DatesBody(date: int, endDate: int): seq<(string, Json)> {
    [("date", JNum(date)), ("end_date", JNum(endDate))]
  }

  lemma DatesBodyPasses(date: int, endDate: int, P: Parsers, i: nat)
    requires i < |EventUpdateSchema|
    ensures FieldPasses(EventUpdateSchema[i], DatesBody(date, endDate), P)
  {
    var es := DatesBody(date, endDate);
    if i == 3 || i == 4 {
      LookupSole(es, i - 3);
    }
  }

  /** The update schema does not compare the end date with the date: an end
      date before the date passes. */
  lemma UpdateIgnoresDateOrder(date: int, endDate: int, P: Parsers)
    requires endDate <= date
    ensures Validate(EventUpdateSchema, JObj(DatesBody(date, endDate)), P).Valid?
  {
    var es := DatesBody(date, endDate);
    assert Keys(EventUpdateSchema)[3] == "date" && Keys(EventUpdateSchema)[4] == "end_date";
    ValidIff(EventUpdateSchema, es, P);
    forall i | 0 <= i < |EventUpdateSchema| ensures FieldPasses(EventUpdateSchema[i], es, P) {
      DatesBodyPasses(date, endDate, P, i);
    }
  }

  /** On creation an end date not after the date is refused with the custom
      message. */
  lemma CreateRefusesDateOrder(entries: seq<(string, Json)>, date: int, endDate: int, P: Parsers)
    requires endDate <= date
    requires Lookup(entries, "date") == Some(JNum(date)) && Lookup(entries, "end_date") == Some(JNum(endDate))
    ensures Validate(EventSchema, JObj(entries), P).Invalid?
    ensures Detail("end_date", "date.greater", "End date must be after start date")
              in Validate(EventSchema, JObj(entries), P).details
  {
    assert Reference(EndDate, entries, P) == Some(date);
    assert CheckField(EndDate, entries, P)
             == Rejected([Detail("end_date", "date.greater", "End date must be after start date")]);
    assert EventSchema[4] == EndDate;
    CheckAllReports(EventSchema, entries, P, 4);
  }

  // ---- scraping ----

  /** A validated scraping request has a city and a keyword of 2 to 100
      characters. */
  lemma ScrapingValidated(body: Json, P: Parsers)
    requires Validate(ScrapingSchema, body, P).Valid?
    ensures var v := Validate(ScrapingSchema, body, P).value;
            TextWithin(v, "city", 2, 100) && TextWithin(v, "keyword", 2, 100)
  {
    ScrapingUnique(0);
    BoundedText(ScrapingSchema, body, P, 0, City, 2, 100);
    ScrapingUnique(1);
    BoundedText(ScrapingSchema, body, P, 1, Keyword, 2, 100);
  }
}

=== FILE: scraping_controller.dfy ===
/** The handlers of `backend/controllers/scrapingController.js`: the
    numbered-placeholder query builder of `getScrapedVenues`, and the
    response handling and error-message choice of `triggerScraping`. */
module ScrapingController {
  import opened Options
  import opened Strings
  import opened Numbers
  import opened SqlText
  import opened Json
  import opened Fetch

  /** A WHERE clause with PostgreSQL `$n` placeholders, its bound values, and
      the number the next placeholder takes (`paramIndex`). */
  datatype NumberedFilter = NumberedFilter(where: seq<Fragment>, params: seq<string>, next: nat)

  /** The non-empty values of `filters`, in order. */
  function PresentValues(filters: seq<(string, string)>): (r: seq<string>)
    ensures forall v :: v in r ==> v != ""
  {
    if |filters| == 0 then []
    else PresentValues(filters[..|filters| - 1])
         + (if filters[|filters| - 1].1 != "" then [filters[|filters| - 1].1] else [])
  }

  /** Appends ` AND column = $n` for each (column, value) with a truthy
      value, numbering placeholders from 1. */
  function BuildNumbered(filters: seq<(string, string)>): (f: NumberedFilter)
    ensures |f.where| >= 1 && f.where[0] == Sql("WHERE 1=1")
    ensures f.params == PresentValues(filters)
    ensures f.next == |f.params| + 1
    ensures Dollars(f.where) == Range(1, f.next)
    ensures OnlyFixedText(f.where, ColumnTexts(filters))
  {
    if |filters| == 0 then
      NoDollarHead(Sql("WHERE 1=1"));
      NumberedFilter([Sql("WHERE 1=1")], [], 1)
    else
      var f := BuildNumbered(filters[..|filters| - 1]);
      var (column, value) := filters[|filters| - 1];
      if value == "" then f
      else
        var piece := [Sql(" AND " + column + " = "), Dollar(f.next)];
        DollarsAppend(f.where, piece);
        DollarPair(Sql(" AND " + column + " = "), f.next);
        RangeSnoc(1, f.next);
        assert ColumnTexts(filters[..|filters| - 1]) <= ColumnTexts(filters) by {
          forall k | 0 <= k < |filters| - 1 ensures filters[..|filters| - 1][k] == filters[k] { }
        }
        NumberedFilter(f.where + piece, f.params + [value], f.next + 1)
  }

  /** The literal texts a numbered WHERE clause may hold: its head, and
      ` AND column = ` for a column of the filters. No value is among them. */
  function ColumnTexts(filters: seq<(string, string)>): set<string> {
    {"WHERE 1=1"} + set k | 0 <= k < |filters| :: " AND " + filters[k].0 + " = "
  }

  /** A literal piece followed by the placeholder `$n`. */
  lemma DollarPair(f: Fragment, n: nat)
    requires f.Sql?
    ensures Dollars([f, Dollar(n)]) == [n]
  {
    NoDollarHead(f);
    DollarsSnoc([f], Dollar(n));
    assert [f, Dollar(n)] == [f] + [Dollar(n)];
  }

  /** The filters `getScrapedVenues` applies: city, then keyword. */
  function VenueFilters(query: map<string, string>): seq<(string, string)> {
    [("city", QueryValue(query, "city", "")), ("keyword", QueryValue(query, "keyword", ""))]
  }

  /** `getScrapedVenues`'s WHERE clause: `WHERE 1=1`, then ` AND city = $1`
      when a city is given, then ` AND keyword = $n` with the next number
      when a keyword is given; the bound values follow the same order, and
      the literal text is fixed, whatever the values. */
  lemma VenueFilterNumbering(query: map<string, string>)
    ensures var f := BuildNumbered(VenueFilters(query));
            var city := QueryValue(query, "city", "");
            var keyword := QueryValue(query, "keyword", "");
            && f.where == [Sql("WHERE 1=1")]
                          + (if city != "" then [Sql(" AND city = "), Dollar(1)] else [])
                          + (if keyword != "" then [Sql(" AND keyword = "), Dollar(if city != "" then 2 else 1)] else [])
            && f.params == (if city != "" then [city] else []) + (if keyword != "" then [keyword] else [])
            && OnlyFixedText(f.where, {"WHERE 1=1", " AND city = ", " AND keyword = "})
  {
    var fs := VenueFilters(query);
    var city := fs[0].1;
    assert fs[..1][..0] == [];
    assert fs[..|fs| - 1] == fs[..1];
    var f0 := BuildNumbered([]);
    var f1 := BuildNumbered(fs[..1]);
    assert f1.where == [Sql("WHERE 1=1")] + (if city != "" then [Sql(" AND city = "), Dollar(1)] else []);
    assert f1.next == if city != "" then 2 else 1;
    assert " AND " + fs[0].0 + " = " == " AND city = ";
    assert " AND " + fs[1].0 + " = " == " AND keyword = ";
    assert ColumnTexts(fs) == {"WHERE 1=1", " AND city = ", " AND keyword = "};
  }

  const VenueHead: seq<Fragment> := [Sql("SELECT * FROM scraped_venues ")]
  const CountHead: seq<Fragment> := [Sql("SELECT COUNT(*) as total FROM scraped_venues ")]

  /** The fixed ordering and the two paging placeholders after the filters. */
  function VenueTail(next: nat): seq<Fragment> {
    [Sql(" ORDER BY scraped_at DESC LIMIT "), Dollar(next), Sql(" OFFSET "), Dollar(next + 1)]
  }

  /** A value bound to a `$n` placeholder. */
  datatype Param = PText(s: string) | PNum(n: Number)

  function TextParams(ss: seq<string>): (r: seq<Param>)
    ensures |r| == |ss| && forall i :: 0 <= i < |ss| ==> r[i] == PText(ss[i])
  {
    seq(|ss|, i requires 0 <= i < |ss| => PText(ss[i]))
  }

  /** The queries and pagination numbers of `getScrapedVenues`. */
  datatype VenuePlan = VenuePlan(filter: NumberedFilter, page: Number, limit: Number, offset: Number)
  {
    function CountSql(): seq<Fragment> {
      CountHead + filter.where
    }

    function PageSql(): seq<Fragment> {
      VenueHead + filter.where + VenueTail(filter.next)
    }

    function PageParams(): seq<Param> {
      TextParams(filter.params) + [PNum(limit), PNum(offset)]
    }
  }

  /** `getScrapedVenues` up to the two queries. Absent page and limit take
      the defaults 1 and 20. */
  function GetScrapedVenuesPlan(query: map<string, string>): (p: VenuePlan)
    ensures p.page == ParseInt(QueryValue(query, "page", "1"))
    ensures p.limit == ParseInt(QueryValue(query, "limit", "20"))
    ensures p.offset == Offset(p.page, p.limit)
    ensures p.filter.params == PresentValues(VenueFilters(query))
    ensures Dollars(p.filter.where) == Range(1, p.filter.next)
    ensures p.filter.next == |p.filter.params| + 1
  {
    PlanOf(VenueFilters(query), ReadPaging(query, "1", "20"))
  }

  /** The plan for the given filters and paging. */
  function PlanOf(filters: seq<(string, string)>, paging: Paging): (p: VenuePlan)
    ensures p.page == paging.page && p.limit == paging.limit && p.offset == paging.offset
    ensures p.filter.params == PresentValues(filters)
    ensures Dollars(p.filter.where) == Range(1, p.filter.next)
    ensures p.filter.next == |p.filter.params| + 1
  {
    VenuePlan(BuildNumbered(filters), paging.page, paging.limit, paging.offset)
  }

  /** Both queries number their placeholders `$1, $2, ...` consecutively, one
      per bound value: the count query over the filter values, the page
      query over those plus limit and offset. */
  lemma VenuePlanNumbering(query: map<string, string>)
    ensures var p := GetScrapedVenuesPlan(query);
            && Dollars(p.CountSql()) == Range(1, |p.filter.params| + 1)
            && Dollars(p.PageSql()) == Range(1, |p.PageParams()| + 1)
  {
    var p := GetScrapedVenuesPlan(query);
    CountNumbering(p.filter);
    PageNumbering(p);
  }

  lemma CountNumbering(f: NumberedFilter)
    requires Dollars(f.where) == Range(1, f.next)
    ensures Dollars(CountHead + f.where) == Range(1, f.next)
  {
    NoDollarHead(CountHead[0]);
    assert CountHead == [CountHead[0]];
    DollarsAppend(CountHead, f.where);
  }

  lemma PageNumbering(p: VenuePlan)
    requires Dollars(p.filter.where) == Range(1, p.filter.next)
    requires p.filter.next == |p.filter.params| + 1
    ensures Dollars(p.PageSql()) == Range(1, |p.PageParams()| + 1)
  {
    var f := p.filter;
    var head := VenueHead + f.where;
    assert Dollars(head) == Range(1, f.next) by {
      NoDollarHead(VenueHead[0]);
      assert VenueHead == [VenueHead[0]];
      DollarsAppend(VenueHead, f.where);
    }
    assert Dollars(p.PageSql()) == Range(1, f.next) + [f.next, f.next + 1] by {
      DollarsAppend(head, VenueTail(f.next));
      TailDollars(f.next);
    }
    assert |p.PageParams()| + 1 == f.next + 2;
    RangeSnoc(1, f.next);
    RangeSnoc(1, f.next + 1);
    assert Range(1, f.next + 2) == Range(1, f.next) + [f.next, f.next + 1];
  }

  lemma NoDollarHead(f: Fragment)
    requires f.Sql?
    ensures Dollars([f]) == []
  {
    DollarsSnoc([], f);
    assert [f] == [] + [f];
  }

  lemma TailDollars(n: nat)
    ensures Dollars(VenueTail(n)) == [n, n + 1]
  {
    var t := VenueTail(n);
    DollarPair(t[0], n);
    assert t[..2] == [t[0], Dollar(n)];
    assert t[..3] == t[..2] + [t[2]];
    assert t == t[..3] + [t[3]];
    DollarsSnoc(t[..2], t[2]);
    DollarsSnoc(t[..3], t[3]);
  }

  /** The page query always sorts by `scraped_at DESC`, whatever the query
      string holds. */
  lemma VenuesNewestFirst(query: map<string, string>)
    ensures var p := GetScrapedVenuesPlan(query);
            |p.PageSql()| >= 4 && p.PageSql()[|p.PageSql()| - 4] == Sql(" ORDER BY scraped_at DESC LIMIT ")
  {
  }

  /** The pagination block of the answer, once the count query returned
      `total`. `None` is the 500 answer the page query ends in when its
      `LIMIT` or `OFFSET` value is `NaN` or negative. */
  function VenuePagination(query: map<string, string>, total: nat): (r: Option<(Number, Number, nat, Number)>)
    ensures r.Some? <==> Bindable(ReadPaging(query, "1", "20"))
    ensures r.Some? ==>
              && r.value.0 == GetScrapedVenuesPlan(query).page
              && r.value.1 == GetScrapedVenuesPlan(query).limit
              && r.value.2 == total
    ensures r.Some? && r.value.1.v > 0 ==>
              r.value.3.Finite? && (r.value.3.v - 1) * r.value.1.v < total <= r.value.3.v * r.value.1.v
    ensures r.Some? && r.value.1.v == 0 ==> r.value.3 == (if total == 0 then NaN else Infinity)
  {
    var p := GetScrapedVenuesPlan(query);
    if !Bindable(ReadPaging(query, "1", "20")) then None
    else Some((p.page, p.limit, total, TotalPages(total, p.limit)))
  }

  /** `?page=abc` makes the offset `NaN`: the answer is the 500, not a
      default page. */
  lemma TextPageFails(total: nat)
    ensures VenuePagination(map["page" := "abc"], total).None?
  {
    ParseIntNoDigits("abc");
  }

  // ---- triggerScraping ----

  /** What `triggerScraping` answers, and the effects it had on the way. */
  datatype TriggerOutcome = TriggerOutcome(
    status: nat,
    body: Json,
    sent: Option<Json>,               // the body POSTed to the webhook, if any
    logged: Option<(string, string)>) // the (city, keyword) row inserted, if any

  const GenericFailure := "Failed to trigger scraping workflow. Please check the system logs."
  const NotConfigured := "Scraping service is not configured"

  /** The error message the client sees: the thrown message if it mentions
      `n8n`, the fixed text otherwise. */
  function FailureMessage(thrown: string): (m: string)
    ensures Contains(thrown, "n8n") ==> m == thrown
    ensures !Contains(thrown, "n8n") ==> m == GenericFailure
  {
    if Contains(thrown, "n8n") then thrown else GenericFailure
  }

  function Failure(message: string): Json {
    JObj([("success", JBool(false)), ("message", JStr(message))])
  }

  /** The JSON body sent to the webhook; `triggeredAt` is the ISO clock
      reading, passed in. */
  function WebhookBody(city: string, keyword: string, email: string, triggeredAt: string): Json {
    JObj([("city", JStr(city)), ("keyword", JStr(keyword)), ("userEmail", JStr(email)),
          ("triggeredAt", JStr(triggeredAt))])
  }

  /** The webhook's answer as the handler reads it: empty text is `{}`, text
      `parse` accepts is its value, any other text is `{message: text}`.
      `parse` stands for `JSON.parse`, `None` meaning it threw. */
  function ReadReply(text: string, parse: string -> Option<Json>): (r: Json)
    ensures text == "" ==> r == JObj([])
    ensures text != "" && parse(text).Some? ==> r == parse(text).value
    ensures text != "" && parse(text).None? ==> r == JObj([("message", JStr(text))])
  {
    if text == "" then JObj([])
    else match parse(text)
      case Some(v) => v
      case None => JObj([("message", JStr(text))])
  }

  /** `result.sheetUrl || null`; reading a property of `null` throws. */
  function SheetUrl(result: Json): (r: Option<Json>)
    ensures r.None? <==> result.JNull?
    ensures r.Some? ==> r.value == (if Truthy(Get(result, "sheetUrl")) then Get(result, "sheetUrl").value else JNull)
  {
    if result.JNull? then None
    else if Truthy(Get(result, "sheetUrl")) then Some(Get(result, "sheetUrl").value)
    else Some(JNull)
  }

  const NullPropertyError := "Cannot read properties of null (reading 'sheetUrl')"

  /** `triggerScraping` on a validated body. `webhookUrl` is the configured
      `N8N_WEBHOOK_URL`; `fetched` the webhook call's result; `dbError` the
      message of a failed log insert, if it failed. */
  function TriggerScraping(city: string, keyword: string, email: string, triggeredAt: string,
                           webhookUrl: Option<string>, fetched: FetchResult,
                           parse: string -> Option<Json>, dbError: Option<string>)
    : (r: TriggerOutcome)
    ensures (webhookUrl.None? || webhookUrl.value == "") <==> r.status == 503
    ensures r.status == 503 ==> r.sent.None? && r.logged.None?
    ensures r.status != 503 ==> r.sent == Some(WebhookBody(city, keyword, email, triggeredAt))
    ensures r.status == 200 || r.status == 500 || r.status == 503
    ensures r.logged.Some? ==> r.logged.value == (city, keyword)
    ensures r.status == 200 ==> r.logged.Some? && fetched.Response? && fetched.ok
    ensures fetched.Response? && !fetched.ok && r.status != 503 ==>
              r.status == 500 && r.logged.None?
              && r.body == Failure("n8n webhook responded with status " + NatToString(fetched.status))
    ensures webhookUrl.Some? && webhookUrl.value != "" && fetched.NetworkError? ==>
              r.status == 500 && r.logged.None? && r.body == Failure(FailureMessage(fetched.message))
    ensures webhookUrl.Some? && webhookUrl.value != "" && fetched.Response? && fetched.ok
            && dbError.Some? ==>
              r.status == 500 && r.logged.None? && r.body == Failure(FailureMessage(dbError.value))
    ensures webhookUrl.Some? && webhookUrl.value != "" && fetched.Response? && fetched.ok
            && dbError.None? ==>
              && r.logged == Some((city, keyword))
              && (r.status == 200 <==> SheetUrl(ReadReply(fetched.text, parse)).Some?)
              && (r.status != 200 ==> r.body == Failure(FailureMessage(NullPropertyError)))
    ensures r.status == 200 ==>
              && Get(r.body, "success") == Some(JBool(true))
              && Get(r.body, "sheetUrl") == Some(SheetUrl(ReadReply(fetched.text, parse)).value)
              && Get(r.body, "data") == Some(ReadReply(fetched.text, parse))
  {
    if webhookUrl.None? || webhookUrl.value == "" then
      TriggerOutcome(503, Failure(NotConfigured), None, None)
    else
      var sent := Some(WebhookBody(city, keyword, email, triggeredAt));
      match fetched
      case NetworkError(msg) =>
        TriggerOutcome(500, Failure(FailureMessage(msg)), sent, None)
      case Response(ok, status, text) =>
        if !ok then
          var msg := "n8n webhook responded with status " + NatToString(status);
          assert Contains(msg, "n8n") by {
            assert msg[0..3] == "n8n";
            OccursContains(msg, "n8n", 0);
          }
          TriggerOutcome(500, Failure(FailureMessage(msg)), sent, None)
        else
          var result := ReadReply(text, parse);
          if dbError.Some? then
            TriggerOutcome(500, Failure(FailureMessage(dbError.value)), sent, None)
          else
            var logged := Some((city, keyword));
            match SheetUrl(result)
            case None =>
              TriggerOutcome(500, Failure(FailureMessage(NullPropertyError)), sent, logged)
            case Some(url) =>
              var payload := [("success", JBool(true)),
                              ("message", JStr("Scraping workflow triggered successfully")),
                              ("sheetUrl", url), ("data", result)];
              LookupSole(payload, 0);
              LookupSole(payload, 2);
              LookupSole(payload, 3);
              TriggerOutcome(200, JObj(payload), sent, logged)
  }

  /** A webhook answering with the JSON text `null` makes the handler fail
      with a `TypeError` after the trigger row was logged: the client gets a
      500 for a workflow that was started. */
  lemma NullReplyFailsAfterLogging(city: string, keyword: string, email: string, at: string,
                                   url: string, status: nat, parse: string -> Option<Json>)
    requires url != "" && parse("null") == Some(JNull)
    ensures var r := TriggerScraping(city, keyword, email, at, Some(url),
                                     Response(true, status, "null"), parse, None);
            r.status == 500 && r.logged == Some((city, keyword))
            && r.body == Failure(FailureMessage(NullPropertyError))
  {
  }

  /** A plain-text reply such as `success` is wrapped, and the answer carries
      no sheet link. */
  lemma PlainTextReply(city: string, keyword: string, email: string, at: string,
                       url: string, status: nat, text: string, parse: string -> Option<Json>)
    requires url != "" && text != "" && parse(text).None?
    ensures var r := TriggerScraping(city, keyword, email, at, Some(url),
                                     Response(true, status, text), parse, None);
            r.status == 200 && Get(r.body, "sheetUrl") == Some(JNull)
            && Get(r.body, "data") == Some(JObj([("message", JStr(text))]))
  {
    var r := TriggerScraping(city, keyword, email, at, Some(url),
                             Response(true, status, text), parse, None);
    var es := r.body.entries;
    assert es[..3] == [es[0], es[1], es[2]];
    assert Lookup(es, "sheetUrl") == Lookup(es[..3], "sheetUrl");
  }
}

=== FILE: sql_text.dfy ===
/** Query text as the controllers assemble it: literal SQL pieces and
    bound-parameter placeholders, either MySQL-style `?` or PostgreSQL-style
    `$n`. Keeping placeholders as their own fragments lets the model count and
    number them; `Render` gives the text sent to the database, up to the white
    space of the source's multi-line templates. */
module SqlText {
  import opened Strings

  datatype Fragment =
    | Sql(text: string)   // literal SQL written in the source
    | Question            // `?`
    | Dollar(n: nat)      // `$n`

  function RenderOne(f: Fragment): string {
    match f
    case Sql(t) => t
    case Question => "?"
    case Dollar(n) => "$" + NatToString(n)
  }

  /** The query text. */
  function Render(fs: seq<Fragment>): string {
    if |fs| == 0 then "" else Render(fs[..|fs| - 1]) + RenderOne(fs[|fs| - 1])
  }

  /** Number of `?` placeholders. */
  function Questions(fs: seq<Fragment>): nat {
    if |fs| == 0 then 0
    else Questions(fs[..|fs| - 1]) + (if fs[|fs| - 1].Question? then 1 else 0)
  }

  /** The numbers of the `$n` placeholders, left to right. */
  function Dollars(fs: seq<Fragment>): seq<nat> {
    if |fs| == 0 then []
    else Dollars(fs[..|fs| - 1]) + (if fs[|fs| - 1].Dollar? then [fs[|fs| - 1].n] else [])
  }

  /** `[lo, lo + 1, ..., hi - 1]` */
  function Range(lo: nat, hi: nat): (r: seq<nat>)
    ensures |r| == if lo <= hi then hi - lo else 0
    ensures forall i :: 0 <= i < |r| ==> r[i] == lo + i
    decreases hi - lo
  {
    if lo >= hi then [] else [lo] + Range(lo + 1, hi)
  }

  lemma RangeSnoc(lo: nat, hi: nat)
    requires lo <= hi
    ensures Range(lo, hi + 1) == Range(lo, hi) + [hi]
  {
  }

  lemma {:induction false} QuestionsAppend(a: seq<Fragment>, b: seq<Fragment>)
    ensures Questions(a + b) == Questions(a) + Questions(b)
    decreases |b|
  {
    if |b| > 0 {
      assert (a + b)[..|a + b| - 1] == a + b[..|b| - 1];
      QuestionsAppend(a, b[..|b| - 1]);
    } else {
      assert a + b == a;
    }
  }

  /** The placeholder count of a short literal list, one fragment at a time. */
  lemma QuestionsSnoc(fs: seq<Fragment>, f: Fragment)
    ensures Questions(fs + [f]) == Questions(fs) + (if f.Question? then 1 else 0)
  {
    assert (fs + [f])[..|fs|] == fs;
  }

  lemma DollarsSnoc(fs: seq<Fragment>, f: Fragment)
    ensures Dollars(fs + [f]) == Dollars(fs) + (if f.Dollar? then [f.n] else [])
  {
    assert (fs + [f])[..|fs|] == fs;
  }

  lemma {:induction false} DollarsAppend(a: seq<Fragment>, b: seq<Fragment>)
    ensures Dollars(a + b) == Dollars(a) + Dollars(b)
    decreases |b|
  {
    if |b| > 0 {
      assert (a + b)[..|a + b| - 1] == a + b[..|b| - 1];
      DollarsAppend(a, b[..|b| - 1]);
    } else {
      assert a + b == a;
    }
  }

  /** Every literal piece of `fs` is one of the texts in `fixed`: no value
      from the request is spliced into the query text. */
  ghost predicate OnlyFixedText(fs: seq<Fragment>, fixed: set<string>) {
    forall i :: 0 <= i < |fs| && fs[i].Sql? ==> fs[i].text in fixed
  }
}

=== FILE: store.dfy ===
/** The relational store, abstracted: the `events` table as a map from id to
    row, the `favorites` table as a set of (user id, event id) pairs, and the
    `users` table as a sequence of rows in the order the database returns
    them. Query execution itself is not modelled. */
module Store {
  import opened Options

  /** A column value as the handlers bind and read it. Dates are instants in
      milliseconds. */
  datatype Value = Null | Text(s: string) | Int(n: int) | Date(ms: int)

  /** JavaScript truthiness of a column value (`x || default`). */
  predicate Truthy(v: Value) {
    match v
    case Null => false
    case Text(s) => s != ""
    case Int(n) => n != 0
    case Date(_) => true
  }

  /** An `events` row without its id; `fields` holds the editable columns
      (name, type, description, date, end_date, location, capacity, price,
      status, image). */
  datatype Event = Event(creatorId: nat, fields: map<string, Value>)

  type Events = map<nat, Event>

  /** Rows of the `favorites` table, as (user_id, event_id). */
  type Favorites = set<(nat, nat)>

  /** A `users` row. `password` holds the bcrypt hash and is absent for
      accounts created through Google sign-in. */
  datatype User = User(
    id: nat,
    username: string,
    email: string,
    password: Option<string>,
    googleId: Option<string>,
    avatar: Option<string>,
    createdAt: int)

  /** The columns `SELECT id, username, email, avatar, created_at` returns:
      everything but the password hash and the Google id. */
  datatype PublicUser = PublicUser(
    id: nat,
    username: string,
    email: string,
    avatar: Option<string>,
    createdAt: int)

  function Public(u: User): PublicUser {
    PublicUser(u.id, u.username, u.email, u.avatar, u.createdAt)
  }

  /** The `users` table, in the order rows come back from a scan. */
  type Users = seq<User>

  /** The id the database assigns to a new row is not in use. */
  predicate FreshId(users: Users, id: nat) {
    forall u :: u in users ==> u.id != id
  }

  /** The primary key: no two rows share an id. */
  predicate UniqueIds(users: Users) {
    forall i, j :: 0 <= i < j < |users| ==> users[i].id != users[j].id
  }

  /** Index of the first row satisfying `p`, or `|users|` when none does. */
  function FindFirst(users: Users, p: User -> bool): (k: nat)
    ensures k <= |users|
    ensures forall i :: 0 <= i < k ==> !p(users[i])
    ensures k < |users| ==> p(users[k])
  {
    if |users| == 0 then 0
    else if p(users[0]) then 0
    else 1 + FindFirst(users[1..], p)
  }

  /** The first row satisfying `p`, if any: the row a `SELECT ... WHERE`
      reads as `rows[0]`. */
  function FirstWhere(users: Users, p: User -> bool): (r: Option<User>)
    ensures r.Some? ==> r.value in users && p(r.value)
    ensures r.None? ==> forall u :: u in users ==> !p(u)
  {
    var k := FindFirst(users, p);
    if k < |users| then Some(users[k]) else None
  }

  /** `SELECT ... WHERE id = $1`: the row with that id, if any. */
  function ById(users: Users, id: nat): (r: Option<User>)
    ensures r.Some? ==> r.value in users && r.value.id == id
    ensures r.None? ==> forall u :: u in users ==> u.id != id
  {
    FirstWhere(users, (u: User) => u.id == id)
  }

  /** `SELECT * FROM users WHERE email = $1`, first row. */
  function ByEmail(users: Users, email: string): (r: Option<User>)
    ensures r.Some? ==> r.value in users && r.value.email == email
    ensures r.None? ==> forall u :: u in users ==> u.email != email
  {
    FirstWhere(users, (u: User) => u.email == email)
  }
}

=== FILE: strings.dfy ===
/** String helpers with the semantics of the JavaScript string methods the
    application calls: `startsWith`, `endsWith`, `includes`, `split(' ')`,
    `trim`, `replace(/\s+/g, '')`, `toUpperCase` / `toLowerCase` (on the ASCII
    and Latin-1 letters), `substring` and decimal number rendering. Strings
    are sequences of characters (Unicode scalar values); `Utf16Length` gives
    the length JavaScript reports. */
module Strings {

  /** `s.startsWith(p)` */
  predicate StartsWith(s: string, p: string) {
    p <= s
  }

  /** `s.endsWith(p)` */
  predicate EndsWith(s: string, p: string) {
    |p| <= |s| && s[|s| - |p|..] == p
  }

  /** `t` occurs at position `i` of `s`. */
  ghost predicate OccursAt(s: string, t: string, i: int) {
    0 <= i <= |s| - |t| && s[i..i + |t|] == t
  }

  /** `s.includes(t)`, computed by scanning `s` from the left. */
  predicate Contains(s: string, t: string)
    decreases |s|
  {
    if |t| > |s| then false
    else if t <= s then true
    else Contains(s[1..], t)
  }

  /** The scan agrees with the textbook definition: `t` occurs somewhere in `s`. */
  lemma ContainsIff(s: string, t: string)
    ensures Contains(s, t) <==> exists i :: OccursAt(s, t, i)
  {
    if Contains(s, t) {
      var i := ContainsWitness(s, t);
    }
    if exists i :: OccursAt(s, t, i) {
      var i :| OccursAt(s, t, i);
      OccursContains(s, t, i);
    }
  }

  /** Where the scan finds `t`. */
  lemma {:induction false} ContainsWitness(s: string, t: string) returns (i: int)
    requires Contains(s, t)
    ensures OccursAt(s, t, i)
    decreases |s|
  {
    if t <= s {
      i := 0;
    } else {
      var j := ContainsWitness(s[1..], t);
      assert s[1..][j..j + |t|] == s[j + 1..j + 1 + |t|];
      i := j + 1;
    }
  }

  /** The scan finds every occurrence. */
  lemma {:induction false} OccursContains(s: string, t: string, i: int)
    requires OccursAt(s, t, i)
    ensures Contains(s, t)
    decreases |s|
  {
    if i == 0 {
      assert s[..|t|] == t;
    } else if !(t <= s) {
      assert s[1..][i - 1..i - 1 + |t|] == s[i..i + |t|];
      OccursContains(s[1..], t, i - 1);
    }
  }

  /** A string contains each of its own slices. */
  lemma ContainsSlice(s: string, i: nat, j: nat)
    requires i <= j <= |s|
    ensures Contains(s, s[i..j])
  {
    assert OccursAt(s, s[i..j], i);
    ContainsIff(s, s[i..j]);
  }

  /** A string containing `t` still contains it once text is added around it. */
  lemma ContainsInContext(a: string, s: string, b: string, t: string)
    requires Contains(s, t)
    ensures Contains(a + s + b, t)
  {
    ContainsIff(s, t);
    var i :| OccursAt(s, t, i);
    assert (a + s + b)[|a| + i..|a| + i + |t|] == s[i..i + |t|];
    assert OccursAt(a + s + b, t, |a| + i);
    ContainsIff(a + s + b, t);
  }

  /** Number of occurrences of `c` in `s`. */
  function Count(s: string, c: char): nat {
    if |s| == 0 then 0 else (if s[0] == c then 1 else 0) + Count(s[1..], c)
  }

  lemma {:induction false} CountAppend(a: string, b: string, c: char)
    ensures Count(a + b, c) == Count(a, c) + Count(b, c)
    decreases |a|
  {
    if |a| == 0 {
      assert a + b == b;
    } else {
      assert (a + b)[1..] == a[1..] + b;
      CountAppend(a[1..], b, c);
    }
  }

  lemma {:induction false} CountAbsent(s: string, c: char)
    requires forall i :: 0 <= i < |s| ==> s[i] != c
    ensures Count(s, c) == 0
    decreases |s|
  {
    if |s| > 0 {
      CountAbsent(s[1..], c);
    }
  }

  lemma CountSingle(c: char)
    ensures Count([c], c) == 1
  {
  }

  /** `toUpperCase` of one character, on the ASCII and Latin-1 Supplement
      letters whose upper case is a single character. */
  function UpperChar(c: char): char {
    var n := c as int;
    if 'a' <= c <= 'z' || (0xE0 <= n <= 0xFE && n != 0xF7) then (n - 32) as char
    else if n == 0xFF then 0x178 as char
    else if n == 0xB5 then 0x39C as char
    else c
  }

  /** `toLowerCase` of one character, on the ASCII and Latin-1 Supplement
      letters. */
  function LowerChar(c: char): char {
    var n := c as int;
    if 'A' <= c <= 'Z' || (0xC0 <= n <= 0xDE && n != 0xD7) then (n + 32) as char else c
  }

  /** `s.toUpperCase()` on the letters `UpperChar` maps. */
  function ToUpper(s: string): (r: string)
    ensures |r| == |s|
    ensures forall i :: 0 <= i < |s| ==> r[i] == UpperChar(s[i])
  {
    seq(|s|, i requires 0 <= i < |s| => UpperChar(s[i]))
  }

  /** `s.toLowerCase()` on the letters `LowerChar` maps. */
  function ToLower(s: string): (r: string)
    ensures |r| == |s|
    ensures forall i :: 0 <= i < |s| ==> r[i] == LowerChar(s[i])
  {
    seq(|s|, i requires 0 <= i < |s| => LowerChar(s[i]))
  }

  /** Accented French capitals lower-case as JavaScript lower-cases them. */
  lemma FrenchLowerCase()
    ensures ToLower("TH\U{C9}\U{C2}TRE") == "th\U{E9}\U{E2}tre"
    ensures ToUpper("\U{E9}t\U{E9}") == "\U{C9}T\U{C9}"
  {
  }

  /** The UTF-16 code units of one character: two beyond U+FFFF. */
  function Units(c: char): nat {
    if c as int >= 0x1_0000 then 2 else 1
  }

  /** `s.length`: JavaScript counts UTF-16 code units, so a character
      beyond the Basic Multilingual Plane counts twice. */
  function Utf16Length(s: string): (n: nat)
    ensures |s| <= n <= 2 * |s|
    ensures n == 0 <==> s == ""
  {
    if |s| == 0 then 0 else Units(s[0]) + Utf16Length(s[1..])
  }

  /** The length of a concatenation is the sum of the lengths. */
  lemma {:induction false} Utf16LengthAppend(a: string, b: string)
    ensures Utf16Length(a + b) == Utf16Length(a) + Utf16Length(b)
  {
    if |a| > 0 {
      assert (a + b)[1..] == a[1..] + b;
      Utf16LengthAppend(a[1..], b);
    } else {
      assert a + b == b;
    }
  }

  /** On text within the Basic Multilingual Plane the JavaScript length is
      the number of characters; each emoji counts as two. */
  lemma {:induction false} Utf16LengthBmp(s: string)
    requires forall i :: 0 <= i < |s| ==> s[i] as int < 0x1_0000
    ensures Utf16Length(s) == |s|
  {
    if |s| > 0 {
      Utf16LengthBmp(s[1..]);
    }
  }

  lemma TwoEmoji()
    ensures Utf16Length("\U{1F600}\U{1F600}") == 4
  {
  }

  /** The code units JavaScript's `trim` and the regular-expression class `\s`
      treat as white space (WhiteSpace and LineTerminator of ECMA-262). */
  predicate IsWhite(c: char) {
    var n := c as int;
    n == 0x09 || n == 0x0A || n == 0x0B || n == 0x0C || n == 0x0D || n == 0x20
    || n == 0xA0 || n == 0x1680 || (0x2000 <= n <= 0x200A)
    || n == 0x2028 || n == 0x2029 || n == 0x202F || n == 0x205F
    || n == 0x3000 || n == 0xFEFF
  }

  /** First position at or after `lo` holding a non-white character (or `|s|`). */
  function SkipWhite(s: string, lo: nat): (r: nat)
    requires lo <= |s|
    ensures lo <= r <= |s|
    ensures forall k :: lo <= k < r ==> IsWhite(s[k])
    ensures r < |s| ==> !IsWhite(s[r])
    decreases |s| - lo
  {
    if lo < |s| && IsWhite(s[lo]) then SkipWhite(s, lo + 1) else lo
  }

  /** End of `s[lo..hi]` once trailing white space is dropped. */
  function SkipWhiteBack(s: string, lo: nat, hi: nat): (r: nat)
    requires lo <= hi <= |s|
    ensures lo <= r <= hi
    ensures forall k :: r <= k < hi ==> IsWhite(s[k])
    ensures r > lo ==> !IsWhite(s[r - 1])
    decreases hi
  {
    if hi > lo && IsWhite(s[hi - 1]) then SkipWhiteBack(s, lo, hi - 1) else hi
  }

  /** `r` is the slice `s[i..j]` and only white space lies outside it. */
  ghost predicate TrimmedAt(s: string, r: string, i: int, j: int) {
    && 0 <= i <= j <= |s| && r == s[i..j]
    && (forall k :: 0 <= k < i ==> IsWhite(s[k]))
    && (forall k :: j <= k < |s| ==> IsWhite(s[k]))
  }

  /** `s.trim()`: the slice of `s` left after removing white space at both
      ends. */
  function Trim(s: string): (r: string)
    ensures exists i, j :: TrimmedAt(s, r, i, j)
    ensures |r| > 0 ==> !IsWhite(r[0]) && !IsWhite(r[|r| - 1])
  {
    var i := SkipWhite(s, 0);
    var j := SkipWhiteBack(s, i, |s|);
    assert TrimmedAt(s, s[i..j], i, j);
    s[i..j]
  }

  /** A string is blank when trimming it leaves nothing. */
  lemma TrimEmptyIff(s: string)
    ensures Trim(s) == "" <==> forall k :: 0 <= k < |s| ==> IsWhite(s[k])
  {
    if Trim(s) == "" {
      var i, j :| TrimmedAt(s, Trim(s), i, j);
      assert i == j;
    }
  }

  /** `s.replace(/\s+/g, '')`: every white-space code unit removed. */
  function StripWhite(s: string): (r: string)
    ensures |r| <= |s|
    ensures forall i :: 0 <= i < |r| ==> !IsWhite(r[i])
  {
    if |s| == 0 then ""
    else if IsWhite(s[0]) then StripWhite(s[1..])
    else [s[0]] + StripWhite(s[1..])
  }

  /** Position of the first occurrence of `c` in `s`, or `|s|` when absent. */
  function IndexOf(s: string, c: char): (k: nat)
    ensures k <= |s|
    ensures forall i :: 0 <= i < k ==> s[i] != c
    ensures k < |s| ==> s[k] == c
  {
    if |s| == 0 || s[0] == c then 0 else 1 + IndexOf(s[1..], c)
  }

  /** `s.split(c)` for a one-character separator. */
  function Split(s: string, c: char): (r: seq<string>)
    ensures |r| >= 1
    decreases |s|
  {
    var k := IndexOf(s, c);
    if k == |s| then [s] else [s[..k]] + Split(s[k + 1..], c)
  }

  /** `parts.join(c)` */
  function Join(parts: seq<string>, c: char): string {
    if |parts| == 0 then ""
    else if |parts| == 1 then parts[0]
    else parts[0] + [c] + Join(parts[1..], c)
  }

  lemma JoinCons(a: string, rest: seq<string>, c: char)
    requires |rest| >= 1
    ensures Join([a] + rest, c) == a + [c] + Join(rest, c)
  {
    assert ([a] + rest)[1..] == rest;
  }

  /** Splitting and joining again gives back the original text. */
  lemma {:induction false} SplitJoin(s: string, c: char)
    ensures Join(Split(s, c), c) == s
    decreases |s|
  {
    var k := IndexOf(s, c);
    if k < |s| {
      var head, tail := s[..k], s[k + 1..];
      SplitUnfold(s, c);
      JoinCons(head, Split(tail, c), c);
      SplitJoin(tail, c);
      CutAt(s, k);
    }
  }

  lemma SplitUnfold(s: string, c: char)
    requires IndexOf(s, c) < |s|
    ensures Split(s, c) == [s[..IndexOf(s, c)]] + Split(s[IndexOf(s, c) + 1..], c)
  {
  }

  lemma CutAt(s: string, k: nat)
    requires k < |s|
    ensures s == s[..k] + [s[k]] + s[k + 1..]
  {
  }

  /** Splitting a text that starts with a separator-free word and the
      separator yields that word followed by the split of the rest. */
  lemma SplitAfterWord(w: string, c: char, rest: string)
    requires forall i :: 0 <= i < |w| ==> w[i] != c
    ensures Split(w + [c] + rest, c) == [w] + Split(rest, c)
  {
    var s := w + [c] + rest;
    assert s[|w|] == c;
    assert IndexOf(s, c) == |w| by {
      IndexOfWord(w, c, [c] + rest);
    }
    assert s[..|w|] == w;
    assert s[|w| + 1..] == rest;
  }

  /** Text without the separator splits into itself. */
  lemma SplitNoSeparator(s: string, c: char)
    requires c !in s
    ensures Split(s, c) == [s]
  {
    assert IndexOf(s, c) == |s|;
  }

  lemma {:induction false} IndexOfWord(w: string, c: char, rest: string)
    requires forall i :: 0 <= i < |w| ==> w[i] != c
    requires |rest| > 0 && rest[0] == c
    ensures IndexOf(w + rest, c) == |w|
    decreases |w|
  {
    if |w| > 0 {
      assert (w + rest)[1..] == w[1..] + rest;
      IndexOfWord(w[1..], c, rest);
    } else {
      assert w + rest == rest;
    }
  }

  /** `s.replace(pattern, repl)` with a string pattern: only the first
      occurrence is replaced. */
  function ReplaceFirst(s: string, pattern: string, repl: string): (r: string)
    decreases |s|
  {
    if |pattern| > |s| then s
    else if pattern <= s then repl + s[|pattern|..]
    else [s[0]] + ReplaceFirst(s[1..], pattern, repl)
  }

  /** Text without an occurrence of the pattern is left as it is. */
  lemma {:induction false} ReplaceFirstAbsent(s: string, pattern: string, repl: string)
    requires !Contains(s, pattern)
    ensures ReplaceFirst(s, pattern, repl) == s
    decreases |s|
  {
    if |pattern| <= |s| && !(pattern <= s) {
      ReplaceFirstAbsent(s[1..], pattern, repl);
    }
  }

  /** Decimal digit code unit for `d`. */
  function DigitChar(d: nat): (c: char)
    requires d < 10
    ensures '0' <= c <= '9' && c as int - '0' as int == d
  {
    ('0' as int + d) as char
  }

  predicate IsDigit(c: char) {
    '0' <= c <= '9'
  }

  /** Decimal rendering of a natural number, as JavaScript's `String(n)`. */
  function NatToString(n: nat): (r: string)
    ensures |r| >= 1
    ensures forall i :: 0 <= i < |r| ==> IsDigit(r[i])
    ensures r[0] == '0' ==> n == 0
  {
    if n < 10 then [DigitChar(n)] else NatToString(n / 10) + [DigitChar(n % 10)]
  }

  /** Decimal rendering of an integer, with a leading `-` when negative. */
  function IntToString(n: int): (r: string)
    ensures |r| >= 1
  {
    if n < 0 then "-" + NatToString(-n) else NatToString(n)
  }
}

=== FILE: validators.dfy ===
/** The Joi schemas of `backend/validators/validators.js` and the `validate`
    middleware, as a small schema interpreter over parsed JSON bodies. The
    interpreter follows Joi's order of checks for one value: presence, the
    allowed values (`allow`, `valid`), the type with its conversion, then the
    rules in the order they are chained, collecting every failure
    (`abortEarly: false`). Email, URI, date and numeric-text parsing are
    oracles. */
module Validators {
  import opened Options
  import opened Strings
  import opened Json
  import opened Store

  /** A rule of `Joi.string()`; `min` and `max` measure the JavaScript
      length, in UTF-16 code units. */
  datatype Rule = MinLen(n: nat) | MaxLen(n: nat) | EmailRule | UriRule

  datatype Kind =
    | StringKind(rules: seq<Rule>, allowEmpty: bool)   // Joi.string(), `.allow('')`
    | ValidKind(values: seq<string>)                    // Joi.string().valid(...)
    | NumberKind(min: int, max: int)                    // Joi.number().integer().min().max()
    | DateKind(after: Option<string>)                   // Joi.date(), `.greater(Joi.ref(key))`

  /** One key of a `Joi.object`. `messages` are the custom texts of
      `.messages({...})`, by error code. */
  datatype Field = Field(
    key: string,
    kind: Kind,
    required: bool,
    allowNull: bool,
    default: Option<Value>,
    messages: seq<(string, string)>)

  type Schema = seq<Field>

  /** The parsers Joi applies: `isEmail` and `isUri` for `.email()` and
      `.uri()`; `date` for the text `Joi.date()` converts; `number` for the
      text `Joi.number()` converts. */
  datatype Parsers = Parsers(
    isEmail: string -> bool,
    isUri: string -> bool,
    date: string -> Option<int>,
    number: string -> Option<int>)

  /** One entry of `error.details`: the path joined with `.`, Joi's code and
      the message. */
  datatype Detail = Detail(field: string, code: string, message: string)

  // ---- messages ----

  /** `"key"`, the label Joi puts in its default messages. */
  function Label(key: string): string {
    "\"" + key + "\""
  }

  /** The custom message for `code`, if the field has one. */
  function Custom(messages: seq<(string, string)>, code: string): (r: Option<string>)
    ensures r.Some? ==> exists i :: 0 <= i < |messages| && messages[i] == (code, r.value)
    ensures r.None? ==> forall i :: 0 <= i < |messages| ==> messages[i].0 != code
  {
    if |messages| == 0 then None
    else if messages[0].0 == code then Some(messages[0].1)
    else Custom(messages[1..], code)
  }

  /** A failure of `f` with Joi's code, worded by the field's custom message
      when it has one and by Joi's default text otherwise. */
  function Fail(f: Field, code: string, default: string): (d: Detail)
    ensures d.field == f.key && d.code == code
    ensures Custom(f.messages, code).Some? ==> d.message == Custom(f.messages, code).value
    ensures Custom(f.messages, code).None? ==> d.message == Label(f.key) + default
  {
    match Custom(f.messages, code)
    case Some(m) => Detail(f.key, code, m)
    case None => Detail(f.key, code, Label(f.key) + default)
  }

  /** Joi renders the allowed values as `[a, b, c]`. */
  function Listed(values: seq<string>): string {
    if |values| == 0 then "[]"
    else "[" + ListBody(values) + "]"
  }

  function ListBody(values: seq<string>): string
    requires |values| > 0
  {
    if |values| == 1 then values[0] else values[0] + ", " + ListBody(values[1..])
  }

  // ---- checking one value ----

  /** What the check of one key gives. */
  datatype Checked = Absent | Accepted(value: Value) | Rejected(errors: seq<Detail>)

  /** The failures of the string rules, in chaining order. */
  function RuleErrors(f: Field, rules: seq<Rule>, s: string, P: Parsers): (es: seq<Detail>)
    ensures forall i :: 0 <= i < |es| ==> es[i].field == f.key
    ensures |es| <= |rules|
  {
    if |rules| == 0 then []
    else
      var e := match rules[0]
        case MinLen(n) =>
          if Utf16Length(s) < n then [Fail(f, "string.min", " length must be at least " + NatToString(n) + " characters long")] else []
        case MaxLen(n) =>
          if Utf16Length(s) > n then [Fail(f, "string.max", " length must be less than or equal to " + NatToString(n) + " characters long")] else []
        case EmailRule =>
          if !P.isEmail(s) then [Fail(f, "string.email", " must be a valid email")] else []
        case UriRule =>
          if !P.isUri(s) then [Fail(f, "string.uri", " must be a valid uri")] else [];
      e + RuleErrors(f, rules[1..], s, P)
  }

  /** A string passes every rule exactly when no rule error is reported. */
  predicate RuleHolds(r: Rule, s: string, P: Parsers) {
    match r
    case MinLen(n) => Utf16Length(s) >= n
    case MaxLen(n) => Utf16Length(s) <= n
    case EmailRule => P.isEmail(s)
    case UriRule => P.isUri(s)
  }

  lemma {:induction false} RuleErrorsEmptyIff(f: Field, rules: seq<Rule>, s: string, P: Parsers)
    ensures RuleErrors(f, rules, s, P) == [] <==> forall i :: 0 <= i < |rules| ==> RuleHolds(rules[i], s, P)
  {
    if |rules| > 0 {
      RuleErrorsEmptyIff(f, rules[1..], s, P);
      assert forall i :: 1 <= i < |rules| ==> rules[i] == rules[1..][i - 1];
    }
  }

  /** `Joi.number()` conversion: a number, or text the number parser
      accepts. */
  function AsNumber(v: Json, P: Parsers): Option<int> {
    match v
    case JNum(n) => Some(n)
    case JStr(s) => P.number(s)
    case _ => None
  }

  /** `Joi.date()` conversion: a number is a timestamp in milliseconds, text
      goes to the date parser. */
  function AsDate(v: Json, P: Parsers): Option<int> {
    match v
    case JNum(n) => Some(n)
    case JStr(s) => P.date(s)
    case _ => None
  }

  /** Whether Joi lets value `v` through for key `f`, stated per kind: an
      allowed `null`; text that is empty only where `''` is allowed and
      otherwise meets every rule; one of the listed values; a number within
      bounds; a date later than the referenced one. */
  predicate Admits(f: Field, v: Json, ref: Option<int>, P: Parsers) {
    || (v.JNull? && f.allowNull)
    || (match f.kind
        case StringKind(rules, allowEmpty) =>
          v.JStr? && (v.s == "" ==> allowEmpty)
          && (v.s != "" ==> forall i :: 0 <= i < |rules| ==> RuleHolds(rules[i], v.s, P))
        case ValidKind(values) => v.JStr? && v.s in values
        case NumberKind(lo, hi) => AsNumber(v, P).Some? && lo <= AsNumber(v, P).value <= hi
        case DateKind(after) =>
          AsDate(v, P).Some? && (after.Some? ==> ref.Some? && AsDate(v, P).value > ref.value))
  }

  /** The converted value Joi puts in `validatedBody` for an admitted value. */
  function Converted(f: Field, v: Json, P: Parsers): Value {
    if v.JNull? then Null
    else match f.kind
      case StringKind(_, _) => if v.JStr? then Text(v.s) else Null
      case ValidKind(_) => if v.JStr? then Text(v.s) else Null
      case NumberKind(_, _) => if AsNumber(v, P).Some? then Int(AsNumber(v, P).value) else Null
      case DateKind(_) => if AsDate(v, P).Some? then Date(AsDate(v, P).value) else Null
  }

  /** The errors of Joi's string base check, which still runs after a
      `.valid(...)` key reports `any.only`: a value that is not text, or is
      empty text. */
  function StringBase(f: Field, v: Json): (es: seq<Detail>)
    ensures |es| <= 1
    ensures es == [] <==> v.JStr? && v.s != ""
  {
    if !v.JStr? then [Fail(f, "string.base", " must be a string")]
    else if v.s == "" then [Fail(f, "string.empty", " is not allowed to be empty")]
    else []
  }

  /** The check of one present, non-`undefined` value. `ref` is the
      converted value of the key a `.greater(Joi.ref(..))` refers to, `None`
      when it does not resolve to a date. */
  function CheckValue(f: Field, v: Json, ref: Option<int>, P: Parsers): (r: Checked)
    ensures !r.Absent?
    ensures r.Accepted? <==> Admits(f, v, ref, P)
    ensures r.Accepted? ==> r.value == Converted(f, v, P)
    ensures r.Rejected? ==> |r.errors| >= 1 && forall i :: 0 <= i < |r.errors| ==> r.errors[i].field == f.key
    ensures f.kind.ValidKind? && r.Rejected? ==>
              r.errors[0].code == "any.only"
              && |r.errors| == (if v.JStr? && v.s != "" then 1 else 2)
    ensures !f.kind.ValidKind? && !f.kind.StringKind? && r.Rejected? ==> |r.errors| == 1
  {
    if v.JNull? && f.allowNull then Accepted(Null)
    else match f.kind
      case ValidKind(values) =>
        if v.JStr? && v.s in values then Accepted(Text(v.s))
        else Rejected([Fail(f, "any.only", " must be one of " + Listed(values))] + StringBase(f, v))
      case StringKind(rules, allowEmpty) =>
        if !v.JStr? then Rejected([Fail(f, "string.base", " must be a string")])
        else if v.s == "" then
          (if allowEmpty then Accepted(Text("")) else Rejected([Fail(f, "string.empty", " is not allowed to be empty")]))
        else
          var es := RuleErrors(f, rules, v.s, P);
          RuleErrorsEmptyIff(f, rules, v.s, P);
          if es == [] then Accepted(Text(v.s)) else Rejected(es)
      case NumberKind(lo, hi) =>
        (match AsNumber(v, P)
         case None => Rejected([Fail(f, "number.base", " must be a number")])
         case Some(n) =>
           if n < lo then Rejected([Fail(f, "number.min", " must be greater than or equal to " + IntToString(lo))])
           else if n > hi then Rejected([Fail(f, "number.max", " must be less than or equal to " + IntToString(hi))])
           else Accepted(Int(n)))
      case DateKind(after) =>
        match AsDate(v, P)
        case None => Rejected([Fail(f, "date.base", " must be a valid date")])
        case Some(ms) =>
          if after.None? then Accepted(Date(ms))
          else if ref.None? then
            Rejected([Fail(f, "any.ref", " date references \"ref:" + after.value + "\" which must have a valid date format")])
          else if ms > ref.value then Accepted(Date(ms))
          else Rejected([Fail(f, "date.greater", " must be greater than \"ref:" + after.value + "\"")])
  }

  /** The check of key `f` against the body's entries. */
  function CheckField(f: Field, entries: seq<(string, Json)>, P: Parsers): (r: Checked)
    ensures Lookup(entries, f.key).None? ==>
              r == (if f.required then Rejected([Fail(f, "any.required", " is required")])
                    else if f.default.Some? then Accepted(f.default.value) else Absent)
    ensures r.Rejected? ==> |r.errors| >= 1 && forall i :: 0 <= i < |r.errors| ==> r.errors[i].field == f.key
  {
    match Lookup(entries, f.key)
    case None =>
      if f.required then Rejected([Fail(f, "any.required", " is required")])
      else if f.default.Some? then Accepted(f.default.value)
      else Absent
    case Some(v) => CheckValue(f, v, Reference(f, entries, P), P)
  }

  /** The converted value of the key `.greater(Joi.ref(..))` names, when it
      is a date; `None` when it is missing or not a date, and for keys with
      no reference. */
  function Reference(f: Field, entries: seq<(string, Json)>, P: Parsers): Option<int> {
    if f.kind.DateKind? && f.kind.after.Some? then
      match Lookup(entries, f.kind.after.value)
      case Some(w) => AsDate(w, P)
      case None => None
    else None
  }

  // ---- checking an object ----

  /** The check of each key, in key order. */
  function Checks(fields: Schema, entries: seq<(string, Json)>, P: Parsers): (cs: seq<Checked>)
    ensures |cs| == |fields| && forall i :: 0 <= i < |fields| ==> cs[i] == CheckField(fields[i], entries, P)
  {
    seq(|fields|, i requires 0 <= i < |fields| => CheckField(fields[i], entries, P))
  }

  /** The outcomes of the checks of keys `keys`: the failures in key order,
      and the values of the accepted keys. */
  function Collect(keys: seq<string>, cs: seq<Checked>): (r: (seq<Detail>, map<string, Value>))
    requires |keys| == |cs|
    requires forall i :: 0 <= i < |cs| && cs[i].Rejected? ==> |cs[i].errors| >= 1
    ensures r.0 == [] <==> forall i :: 0 <= i < |cs| ==> !cs[i].Rejected?
    ensures forall d :: d in r.0 ==> exists i :: 0 <= i < |cs| && cs[i].Rejected? && d in cs[i].errors
    ensures forall k :: k in r.1 ==> k in keys
  {
    if |cs| == 0 then ([], map[])
    else
      var n := |cs| - 1;
      var (es, vs) := Collect(keys[..n], cs[..n]);
      assert forall i :: 0 <= i < n ==> cs[i] == cs[..n][i];
      match cs[n]
      case Absent => (es, vs)
      case Accepted(x) => (es, vs[keys[n] := x])
      case Rejected(more) => (es + more, vs)
  }

  /** The checks of all keys: the failures in key order, and the converted
      values of the accepted keys. */
  function CheckAll(fields: Schema, entries: seq<(string, Json)>, P: Parsers)
    : (r: (seq<Detail>, map<string, Value>))
    ensures r.0 == [] <==> forall i :: 0 <= i < |fields| ==> !CheckField(fields[i], entries, P).Rejected?
    ensures forall d :: d in r.0 ==> exists i :: 0 <= i < |fields| && fields[i].key == d.field
    ensures forall k :: k in r.1 ==> exists i :: 0 <= i < |fields| && fields[i].key == k
  {
    Collect(Keys(fields), Checks(fields, entries, P))
  }

  /** The keys of `fields`. */
  function Keys(fields: Schema): (r: seq<string>)
    ensures |r| == |fields| && forall i :: 0 <= i < |r| ==> r[i] == fields[i].key
  {
    seq(|fields|, i requires 0 <= i < |fields| => fields[i].key)
  }

  /** The keys of the body's entries, in order. */
  function EntryKeys(entries: seq<(string, Json)>): (r: seq<string>)
    ensures |r| == |entries| && forall i :: 0 <= i < |r| ==> r[i] == entries[i].0
  {
    seq(|entries|, i requires 0 <= i < |entries| => entries[i].0)
  }

  /** `"key" is not allowed` for each body key the schema does not know.
      `JSON.parse` keeps one property per key, placed where the key first
      occurs, so a repeated key is reported once, at its first entry. */
  function UnknownKeys(entries: seq<(string, Json)>, known: seq<string>): (r: seq<Detail>)
    ensures forall d :: d in r ==>
              && d.field !in known && d.field in EntryKeys(entries)
              && d == Detail(d.field, "object.unknown", Label(d.field) + " is not allowed")
    ensures r == [] <==> forall i :: 0 <= i < |entries| ==> entries[i].0 in known
    ensures forall i, j :: 0 <= i < j < |r| ==> r[i].field != r[j].field
  {
    if |entries| == 0 then []
    else
      var n := |entries| - 1;
      var init := entries[..n];
      var rest := UnknownKeys(init, known);
      var k := entries[n].0;
      assert forall i :: 0 <= i < n ==> init[i] == entries[i];
      assert forall f :: f in EntryKeys(init) ==> f in EntryKeys(entries) by {
        forall f | f in EntryKeys(init) ensures f in EntryKeys(entries) {
          var i :| 0 <= i < n && EntryKeys(init)[i] == f;
          assert EntryKeys(entries)[i] == f;
        }
      }
      if k in known then rest
      else if k in EntryKeys(init) then
        var i :| 0 <= i < n && EntryKeys(init)[i] == k;
        assert init[i].0 !in known;
        rest
      else
        assert EntryKeys(entries)[n] == k;
        rest + [Detail(k, "object.unknown", Label(k) + " is not allowed")]
  }

  /** A key repeated in the body is reported once. */
  lemma RepeatedUnknownOnce()
    ensures UnknownKeys([("x", JNum(1)), ("x", JNum(2))], []) ==
              [Detail("x", "object.unknown", Label("x") + " is not allowed")]
  {
    var es := [("x", JNum(1)), ("x", JNum(2))];
    assert es[..1] == [("x", JNum(1))];
    assert es[..1][..0] == [];
    assert EntryKeys(es[..1]) == ["x"];
  }

  /** `schema.validate(body, { abortEarly: false })` */
  datatype Validation = Invalid(details: seq<Detail>) | Valid(value: map<string, Value>)

  function Validate(schema: Schema, body: Json, P: Parsers): (r: Validation)
    ensures !body.JObj? ==> r == Invalid([Detail("", "object.base", "\"value\" must be of type object")])
    ensures r.Valid? <==>
              body.JObj?
              && (forall i :: 0 <= i < |schema| ==> !CheckField(schema[i], body.entries, P).Rejected?)
              && (forall i :: 0 <= i < |body.entries| ==> body.entries[i].0 in Keys(schema))
    ensures r.Invalid? ==> |r.details| >= 1
    ensures r.Valid? ==> forall k :: k in r.value ==> k in Keys(schema)
  {
    if !body.JObj? then Invalid([Detail("", "object.base", "\"value\" must be of type object")])
    else
      var (es, vs) := CheckAll(schema, body.entries, P);
      var unknown := UnknownKeys(body.entries, Keys(schema));
      if es + unknown == [] then Valid(vs) else Invalid(es + unknown)
  }

  /** No other key of `fields` is the key at `i`. */
  predicate UniqueAt(fields: Schema, i: nat)
    requires i < |fields|
  {
    forall j :: 0 <= j < |fields| && j != i ==> fields[j].key != fields[i].key
  }

  /** A key that occurs once gets the value of its own check: present with
      the converted value when accepted, missing otherwise. */
  lemma {:induction false} CollectValue(keys: seq<string>, cs: seq<Checked>, i: nat)
    requires |keys| == |cs|
    requires forall j :: 0 <= j < |cs| && cs[j].Rejected? ==> |cs[j].errors| >= 1
    requires i < |keys| && forall j :: 0 <= j < |keys| && j != i ==> keys[j] != keys[i]
    ensures keys[i] in Collect(keys, cs).1 <==> cs[i].Accepted?
    ensures cs[i].Accepted? ==> Collect(keys, cs).1[keys[i]] == cs[i].value
  {
    var n := |cs| - 1;
    if i < n {
      CollectValue(keys[..n], cs[..n], i);
      assert keys[..n][i] == keys[i] && cs[..n][i] == cs[i];
      assert keys[n] != keys[i];
    }
  }

  /** When no check accepts, the value is empty. */
  lemma {:induction false} CollectNothingAccepted(keys: seq<string>, cs: seq<Checked>)
    requires |keys| == |cs|
    requires forall j :: 0 <= j < |cs| && cs[j].Rejected? ==> |cs[j].errors| >= 1
    requires forall j :: 0 <= j < |cs| ==> !cs[j].Accepted?
    ensures Collect(keys, cs).1 == map[]
  {
    if |cs| > 0 {
      var n := |cs| - 1;
      assert forall j :: 0 <= j < n ==> cs[..n][j] == cs[j];
      CollectNothingAccepted(keys[..n], cs[..n]);
    }
  }

  /** In a valid body, a key of the schema is either supplied and admitted,
      with its converted value in the result, or left out and not required,
      with its default (if any) in the result. */
  lemma ValidField(schema: Schema, body: Json, P: Parsers, i: nat)
    requires i < |schema| && UniqueAt(schema, i)
    requires Validate(schema, body, P).Valid?
    ensures var f := schema[i];
            var v := Validate(schema, body, P).value;
            match Lookup(body.entries, f.key)
            case None =>
              && !f.required
              && (f.default.Some? ==> f.key in v && v[f.key] == f.default.value)
              && (f.default.None? ==> f.key !in v)
            case Some(x) =>
              && Admits(f, x, Reference(f, body.entries, P), P)
              && f.key in v && v[f.key] == Converted(f, x, P)
  {
    CollectValue(Keys(schema), Checks(schema, body.entries, P), i);
  }

  /** Whether key `f` passes on its own: left out only when not required,
      admitted when supplied. */
  predicate FieldPasses(f: Field, entries: seq<(string, Json)>, P: Parsers) {
    match Lookup(entries, f.key)
    case None => !f.required
    case Some(x) => Admits(f, x, Reference(f, entries, P), P)
  }

  /** An object with no unknown key is valid exactly when every key of the
      schema passes on its own. */
  lemma ValidIff(schema: Schema, entries: seq<(string, Json)>, P: Parsers)
    requires forall j :: 0 <= j < |entries| ==> entries[j].0 in Keys(schema)
    ensures Validate(schema, JObj(entries), P).Valid? <==>
              forall i :: 0 <= i < |schema| ==> FieldPasses(schema[i], entries, P)
  {
    forall i | 0 <= i < |schema|
      ensures !CheckField(schema[i], entries, P).Rejected? <==> FieldPasses(schema[i], entries, P)
    {
    }
  }

  /** An empty object with no required key and no default is valid with an
      empty value. */
  lemma EmptyBodyEmptyValue(schema: Schema, P: Parsers)
    requires forall i :: 0 <= i < |schema| ==> !schema[i].required && schema[i].default.None?
    ensures Validate(schema, JObj([]), P) == Valid(map[])
  {
    var cs := Checks(schema, [], P);
    assert forall i :: 0 <= i < |schema| ==> cs[i] == Absent;
    CollectNothingAccepted(Keys(schema), cs);
  }

  // ---- the middleware ----

  /** What `validate(schema)` does: a 400 with `{field, message}` per
      failure, or `next()` with `req.validatedBody` set. */
  datatype Middleware =
    | BadRequest(status: nat, message: string, errors: seq<(string, string)>)
    | Next(validatedBody: map<string, Value>)

  function ValidateMiddleware(schema: Schema, body: Json, P: Parsers): (r: Middleware)
    ensures r.Next? <==> Validate(schema, body, P).Valid?
    ensures r.Next? ==> r.validatedBody == Validate(schema, body, P).value
    ensures r.BadRequest? ==>
              && r.status == 400 && r.message == "Validation failed"
              && |r.errors| == |Validate(schema, body, P).details| >= 1
              && forall i :: 0 <= i < |r.errors| ==>
                   r.errors[i] == (Validate(schema, body, P).details[i].field,
                                   Validate(schema, body, P).details[i].message)
  {
    match Validate(schema, body, P)
    case Valid(value) => Next(value)
    case Invalid(details) =>
      BadRequest(400, "Validation failed", seq(|details|, i requires 0 <= i < |details| => (details[i].field, details[i].message)))
  }

  // ---- what a failure reports ----

  /** Every error of a rejected check is in the collected failures. */
  lemma {:induction false} CollectReports(keys: seq<string>, cs: seq<Checked>, i: nat)
    requires |keys| == |cs|
    requires forall j :: 0 <= j < |cs| && cs[j].Rejected? ==> |cs[j].errors| >= 1
    requires i < |cs| && cs[i].Rejected?
    ensures forall d :: d in cs[i].errors ==> d in Collect(keys, cs).0
  {
    var n := |cs| - 1;
    if i < n {
      CollectReports(keys[..n], cs[..n], i);
      assert cs[..n][i] == cs[i];
    }
  }

  lemma CheckAllReports(fields: Schema, entries: seq<(string, Json)>, P: Parsers, i: nat)
    requires i < |fields| && CheckField(fields[i], entries, P).Rejected?
    ensures forall d :: d in CheckField(fields[i], entries, P).errors ==> d in CheckAll(fields, entries, P).0
  {
    CollectReports(Keys(fields), Checks(fields, entries, P), i);
  }

  /** A missing required key fails the body with the key's `any.required`
      message. */
  lemma MissingRequiredReported(schema: Schema, entries: seq<(string, Json)>, P: Parsers, i: nat)
    requires i < |schema| && schema[i].required
    requires Lookup(entries, schema[i].key).None?
    ensures Validate(schema, JObj(entries), P).Invalid?
    ensures Fail(schema[i], "any.required", " is required") in Validate(schema, JObj(entries), P).details
  {
    CheckAllReports(schema, entries, P, i);
  }

  /** A key the schema does not know fails the body, whatever else it
      holds. */
  lemma UnknownKeyReported(schema: Schema, entries: seq<(string, Json)>, P: Parsers, j: nat)
    requires j < |entries| && entries[j].0 !in Keys(schema)
    ensures Validate(schema, JObj(entries), P).Invalid?
    ensures Detail(entries[j].0, "object.unknown", Label(entries[j].0) + " is not allowed")
              in Validate(schema, JObj(entries), P).details
  {
    UnknownListed(entries, Keys(schema), j);
  }

  lemma {:induction false} UnknownListed(entries: seq<(string, Json)>, known: seq<string>, j: nat)
    requires j < |entries| && entries[j].0 !in known
    ensures Detail(entries[j].0, "object.unknown", Label(entries[j].0) + " is not allowed") in UnknownKeys(entries, known)
    decreases |entries|
  {
    var n := |entries| - 1;
    var init := entries[..n];
    if j < n {
      UnknownListed(init, known, j);
      assert init[j] == entries[j];
    } else if entries[n].0 in EntryKeys(init) {
      var i :| 0 <= i < n && EntryKeys(init)[i] == entries[n].0;
      UnknownListed(init, known, i);
      assert init[i] == entries[i];
    }
  }

  // ---- errors per key ----

  /** The rule chains of these schemas: at most one rule, or a minimum
      length followed by a larger maximum, so at most one rule fails. */
  predicate SingleRuleFailure(rules: seq<Rule>) {
    || |rules| <= 1
    || (|rules| == 2 && rules[0].MinLen? && rules[1].MaxLen? && rules[0].n <= rules[1].n)
  }

  predicate SingleRuleFailureSchema(schema: Schema) {
    forall i :: 0 <= i < |schema| && schema[i].kind.StringKind? ==> SingleRuleFailure(schema[i].kind.rules)
  }

  /** A key of such a schema contributes one error, except a `.valid(...)`
      key given empty text or a non-string, which contributes `any.only`
      followed by the string base error. */
  lemma ErrorsPerKey(schema: Schema, entries: seq<(string, Json)>, P: Parsers, i: nat)
    requires SingleRuleFailureSchema(schema) && i < |schema|
    ensures CheckField(schema[i], entries, P).Rejected? ==>
              |CheckField(schema[i], entries, P).errors| == 1
              || (schema[i].kind.ValidKind? && |CheckField(schema[i], entries, P).errors| == 2
                  && CheckField(schema[i], entries, P).errors[0].code == "any.only")
  {
    var f := schema[i];
    if f.kind.StringKind? && |f.kind.rules| == 2 {
      var rules := f.kind.rules;
      assert rules[1..][1..] == [];
      forall s: string ensures |RuleErrors(f, rules, s, P)| <= 1 {
        assert RuleErrors(f, rules, s, P) == RuleErrors(f, rules[..1], s, P) + RuleErrors(f, rules[1..], s, P) by {
          assert rules[..1][1..] == [];
        }
      }
    }
  }
}

=== FILE: venues_page.dfy ===
/** The venues page of `frontend/js/venues.js`: loading the scraped venues,
    client-side paging by twelve, the search filter, the statistics and the
    display helpers. The grid is modelled as the list of venues whose cards
    it shows, or the empty-state notice; the clock and the URL parser are
    inputs. */
module VenuesPage {
  import opened Options
  import opened Strings

  const PerPage: nat := 12

  /** A scraped venue as the page reads it; `None` stands for `null`. */
  datatype Venue = Venue(title: Option<string>, address: Option<string>, website: Option<string>,
                         phone: Option<string>, scrapedAt: int)

  /** A string field is truthy. */
  predicate Present(s: Option<string>) {
    s.Some? && s.value != ""
  }

  /** `s.slice(0, n)` (or `s.substring(0, n)`) for a non-negative `n`. */
  function Take<T>(s: seq<T>, n: nat): (r: seq<T>)
    ensures |r| == if n < |s| then n else |s|
    ensures r <= s
  {
    if n < |s| then s[..n] else s
  }

  /** `s.slice(a, b)` for non-negative bounds. */
  function Slice<T>(s: seq<T>, a: nat, b: nat): (r: seq<T>)
    ensures a <= b ==> Take(s, a) + r == Take(s, b)
    ensures a >= |s| ==> r == []
  {
    var lo := if a < |s| then a else |s|;
    var hi := if b < |s| then b else |s|;
    if lo <= hi then s[lo..hi] else []
  }

  /** The grid: the empty-state notice, followed by the cards appended after
      it (none unless the page appends to a notice). */
  datatype Grid = Grid(emptyNotice: bool, cards: seq<Venue>)

  /** `renderVenues`: the cards, or the notice when there are none. */
  function Render(vs: seq<Venue>): (g: Grid)
    ensures g.cards == vs
    ensures g.emptyNotice <==> vs == []
  {
    Grid(vs == [], vs)
  }

  /** The page's state: `allVenues`, `currentPage`, `totalPages`,
      `isLoading`, the grid and whether "load more" is displayed. */
  datatype Page = Page(venues: seq<Venue>, currentPage: nat, totalPages: int, loading: bool,
                       grid: Grid, loadMore: bool)

  /** The first half of `loadVenues`, up to the request: `None` when a load
      is already running. */
  function StartLoad(p: Page): (r: Option<Page>)
    ensures r.None? <==> p.loading
    ensures r.Some? ==> r.value == p.(loading := true, currentPage := 1, venues := [])
  {
    if p.loading then None else Some(p.(loading := true, currentPage := 1, venues := []))
  }

  /** What `api.getScrapedVenues` resolved to: a thrown error, or the
      answer's `success`, `data` and `pagination.totalPages`. */
  datatype LoadResponse = LoadFailed | Loaded(success: bool, data: Option<seq<Venue>>, pages: Option<int>)

  /** The second half of `loadVenues`. The "load more" button is shown when
      there are more than twelve venues and hidden by the empty state, but
      otherwise left as it was. */
  function FinishLoad(p: Page, resp: LoadResponse): (r: Page)
    ensures !r.loading && r.currentPage == p.currentPage
    ensures resp.Loaded? && resp.success && resp.data.Some? ==>
              && r.venues == resp.data.value
              && r.grid == Render(Take(r.venues, PerPage))
              && r.totalPages == (if resp.pages.Some? && resp.pages.value != 0 then resp.pages.value else 1)
              && (|r.venues| > PerPage ==> r.loadMore)
              && (0 < |r.venues| <= PerPage ==> r.loadMore == p.loadMore)
    ensures !(resp.Loaded? && resp.success && resp.data.Some?) ==>
              r == p.(loading := false, grid := Grid(true, []), loadMore := false)
    ensures r.grid.emptyNotice ==> !r.loadMore
  {
    match resp
    case Loaded(true, Some(data), pages) =>
      var first := Take(data, PerPage);
      var shown := if |data| > PerPage then true else if first == [] then false else p.loadMore;
      Page(data, p.currentPage, if pages.Some? && pages.value != 0 then pages.value else 1,
           false, Render(first), shown)
    case _ => p.(loading := false, grid := Grid(true, []), loadMore := false)
  }

  /** `loadMoreVenues`: the next twelve venues are appended, and the button
      goes once the page's end reaches the list's. */
  function LoadMore(p: Page): (r: Page)
    ensures r.currentPage == p.currentPage + 1
    ensures r.venues == p.venues && r.totalPages == p.totalPages && r.loading == p.loading
    ensures r.grid == p.grid.(cards := p.grid.cards + Slice(p.venues, p.currentPage * PerPage, r.currentPage * PerPage))
    ensures !r.loadMore <==> r.currentPage * PerPage >= |p.venues| || !p.loadMore
  {
    var page := p.currentPage + 1;
    var start := (page - 1) * PerPage;
    var more := Slice(p.venues, start, start + PerPage);
    var grid := if |more| > 0 then Grid(p.grid.emptyNotice, p.grid.cards + more) else p.grid;
    p.(currentPage := page, grid := grid, loadMore := if start + PerPage >= |p.venues| then false else p.loadMore)
  }

  /** The grid shows exactly the venues of the pages reached so far. */
  predicate Showing(p: Page) {
    p.grid.cards == Take(p.venues, p.currentPage * PerPage)
  }

  /** A successful load with venues shows the first page. */
  lemma LoadShowsFirstPage(p: Page, data: seq<Venue>, pages: Option<int>)
    requires StartLoad(p).Some?
    ensures Showing(FinishLoad(StartLoad(p).value, Loaded(true, Some(data), pages)))
  {
  }

  /** Each "load more" extends the grid by the next page. */
  lemma LoadMoreShowing(p: Page)
    requires Showing(p)
    ensures Showing(LoadMore(p))
  {
  }

  /** `k` clicks on "load more" after a load show the first `k + 1` pages. */
  lemma {:induction false} LoadMoreRepeated(p: Page, k: nat)
    requires Showing(p) && p.currentPage == 1
    ensures Showing(Clicks(p, k)) && Clicks(p, k).currentPage == k + 1
    ensures Clicks(p, k).grid.cards == Take(p.venues, (k + 1) * PerPage)
  {
    if k > 0 {
      LoadMoreRepeated(p, k - 1);
      LoadMoreShowing(Clicks(p, k - 1));
      ClicksKeepVenues(p, k);
    }
  }

  /** `k` clicks on "load more". */
  function Clicks(p: Page, k: nat): Page {
    if k == 0 then p else LoadMore(Clicks(p, k - 1))
  }

  /** `Clicks` keeps the venue list. */
  lemma {:induction false} ClicksKeepVenues(p: Page, k: nat)
    ensures Clicks(p, k).venues == p.venues
  {
    if k > 0 {
      ClicksKeepVenues(p, k - 1);
    }
  }

  /** The search test: a truthy title or address containing the term once
      lower-cased. */
  predicate Matches(v: Venue, term: string) {
    || (Present(v.title) && Contains(ToLower(v.title.value), term))
    || (Present(v.address) && Contains(ToLower(v.address.value), term))
  }

  /** `allVenues.filter(...)` with the search test. */
  function Matching(vs: seq<Venue>, term: string): (r: seq<Venue>)
    ensures |r| <= |vs|
    ensures forall v :: v in r <==> v in vs && Matches(v, term)
  {
    if |vs| == 0 then []
    else
      var rest := Matching(vs[1..], term);
      assert forall v :: v in vs <==> v == vs[0] || v in vs[1..];
      if Matches(vs[0], term) then [vs[0]] + rest else rest
  }

  /** Filtering two runs of venues is filtering each in turn: with the
      one-venue case, the grid keeps the venues' order and multiplicity. */
  lemma {:induction false} MatchingAppend(a: seq<Venue>, b: seq<Venue>, term: string)
    ensures Matching(a + b, term) == Matching(a, term) + Matching(b, term)
  {
    if a == [] {
      assert a + b == b;
    } else {
      assert (a + b)[1..] == a[1..] + b;
      MatchingAppend(a[1..], b, term);
    }
  }

  /** One venue is kept exactly when it matches. */
  lemma MatchingOne(v: Venue, term: string)
    ensures Matching([v], term) == if Matches(v, term) then [v] else []
  {
  }

  /** `filterVenues` with the search box's text. */
  function Filter(p: Page, input: string): (r: Page)
    ensures r.venues == p.venues && r.currentPage == p.currentPage && r.loading == p.loading
    ensures Trim(ToLower(input)) == "" ==>
              r.grid == Render(Take(p.venues, p.currentPage * PerPage))
              && (r.loadMore <==>
                    |p.venues| > p.currentPage * PerPage
                    || (p.loadMore && Take(p.venues, p.currentPage * PerPage) != []))
    ensures Trim(ToLower(input)) != "" ==>
              !r.loadMore && (r.grid.emptyNotice <==> r.grid.cards == [])
              && r.grid.cards == Matching(p.venues, Trim(ToLower(input)))
              && forall v :: v in r.grid.cards <==> v in p.venues && Matches(v, Trim(ToLower(input)))
    ensures p.currentPage >= 1 && r.grid.emptyNotice ==> !r.loadMore
  {
    var term := Trim(ToLower(input));
    if term == "" then
      var shown := Take(p.venues, p.currentPage * PerPage);
      p.(grid := Render(shown),
         loadMore := if |p.venues| > p.currentPage * PerPage then true else if shown == [] then false else p.loadMore)
    else
      p.(grid := Render(Matching(p.venues, term)), loadMore := false)
  }

  /** Clearing the search box brings back the cards the paging had shown. */
  lemma ClearingSearchRestores(p: Page, input: string, cleared: string)
    requires Showing(p) && p.grid.cards != []
    requires Trim(ToLower(cleared)) == ""
    ensures Filter(Filter(p, input), cleared).grid == Grid(false, p.grid.cards)
  {
  }

  /** Clearing the search box while a reload has emptied the list hides
      "load more", even when the page had shown it. */
  lemma ClearingDuringReloadHidesLoadMore(p: Page, cleared: string)
    requires !p.loading && p.loadMore
    requires Trim(ToLower(cleared)) == ""
    ensures var q := StartLoad(p).value;
            q.loadMore && !Filter(q, cleared).loadMore && Filter(q, cleared).grid.emptyNotice
  {
  }

  /** `allVenues.filter(v => v.website).length` */
  function WithWebsite(vs: seq<Venue>): (n: nat)
    ensures n <= |vs|
    ensures n == 0 <==> forall i :: 0 <= i < |vs| ==> !Present(vs[i].website)
    ensures n == |vs| <==> forall i :: 0 <= i < |vs| ==> Present(vs[i].website)
  {
    if |vs| == 0 then 0
    else
      var rest := WithWebsite(vs[1..]);
      assert forall i :: 1 <= i < |vs| ==> vs[i] == vs[1..][i - 1];
      (if Present(vs[0].website) then 1 else 0) + rest
  }

  /** The count over two lists is the sum of their counts; with the one-venue
      case this fixes `WithWebsite` as the number of venues with a truthy
      website. */
  lemma {:induction false} WithWebsiteAppend(a: seq<Venue>, b: seq<Venue>)
    ensures WithWebsite(a + b) == WithWebsite(a) + WithWebsite(b)
  {
    if a == [] {
      assert a + b == b;
    } else {
      assert (a + b)[1..] == a[1..] + b;
      WithWebsiteAppend(a[1..], b);
    }
  }

  /** One venue counts 1 exactly when its website is truthy. */
  lemma WithWebsiteOne(v: Venue)
    ensures WithWebsite([v]) == if Present(v.website) then 1 else 0
  {
  }

  /** The most recent scrape time. */
  function Latest(vs: seq<Venue>): (t: int)
    requires |vs| > 0
    ensures exists i :: 0 <= i < |vs| && vs[i].scrapedAt == t
    ensures forall i :: 0 <= i < |vs| ==> vs[i].scrapedAt <= t
  {
    if |vs| == 1 then vs[0].scrapedAt
    else
      var rest := Latest(vs[1..]);
      assert forall i :: 1 <= i < |vs| ==> vs[i] == vs[1..][i - 1];
      if vs[0].scrapedAt >= rest then vs[0].scrapedAt else rest
  }

  /** `formatRelativeTime` for a difference in milliseconds; `None` when it
      falls back to the locale date. Each unit is rounded down. */
  function RelativeTime(diff: int): (r: Option<string>)
    ensures r == Some("Just now") <==> diff < 60000
    ensures 60000 <= diff < 3600000 ==>
              exists n: nat :: 1 <= n < 60 && n * 60000 <= diff < (n + 1) * 60000
                && r == Some(NatToString(n) + "m" + " ago")
    ensures 3600000 <= diff < 86400000 ==>
              exists n: nat :: 1 <= n < 24 && n * 3600000 <= diff < (n + 1) * 3600000
                && r == Some(NatToString(n) + "h" + " ago")
    ensures 86400000 <= diff < 604800000 ==>
              exists n: nat :: 1 <= n < 7 && n * 86400000 <= diff < (n + 1) * 86400000
                && r == Some(NatToString(n) + "d" + " ago")
    ensures r.None? <==> diff >= 604800000
  {
    var mins := diff / 60000;
    var hours := diff / 3600000;
    var days := diff / 86400000;
    if mins < 1 then Some("Just now")
    else if mins < 60 then Some(Ago(mins, "m"))
    else if hours < 24 then Some(Ago(hours, "h"))
    else if days < 7 then Some(Ago(days, "d"))
    else None
  }

  /** `${n}<unit> ago`, never the "Just now" label. */
  function Ago(n: nat, unit: string): (r: string)
    ensures r == NatToString(n) + unit + " ago"
    ensures r != "Just now"
  {
    var r := NatToString(n) + unit + " ago";
    assert r[|r| - 1] == 'o' != "Just now"[7];
    r
  }

  /** The statistics panel: the count, the count with a website, and the
      last-scraped label (`--` without venues). */
  datatype Stats = Stats(total: nat, withWebsite: nat, lastScraped: Option<string>)

  /** `updateStats` at the instant `now`. */
  function UpdateStats(vs: seq<Venue>, now: int): (s: Stats)
    ensures s.total == |vs| && s.withWebsite == WithWebsite(vs) && s.withWebsite <= s.total
    ensures vs == [] ==> s.lastScraped == Some("--")
    ensures vs != [] ==> s.lastScraped == RelativeTime(now - Latest(vs))
  {
    Stats(|vs|, WithWebsite(vs), if vs == [] then Some("--") else RelativeTime(now - Latest(vs)))
  }

  /** `truncateUrl`: the host name without its first `www.` when the URL
      parses, otherwise the first thirty characters with `...` when cut. */
  function TruncateUrl(url: string, hostname: Option<string>): (r: string)
    ensures hostname.Some? ==> r == ReplaceFirst(hostname.value, "www.", "")
    ensures hostname.None? && |url| <= 30 ==> r == url
    ensures hostname.None? && |url| > 30 ==> |r| == 33 && r[..30] == url[..30] && r[30..] == "..."
  {
    match hostname
    case Some(h) => ReplaceFirst(h, "www.", "")
    case None => Take(url, 30) + (if |url| > 30 then "..." else "")
  }
}
